=== FILE: README.md ===
# dataria_scraper, modelled in Dafny

This project models the rule layer of the dataria_scraper collectors. Those
collectors gather TikTok videos and tweets for a hashtag, a user or the trending
feed, filter out the items without enough real content, and save what is left as
JSON or JSON Lines. The model covers the following:

- **Text cleaning** (`src/core/text_utils.py`):
  - hashtag extraction;
  - link removal (only `t.co` links on Twitter, any `http(s)` address elsewhere);
  - deletion of runs of three or more hashtags or mentions;
  - whitespace collapsing;
  - the "meaningful content" test.
- **Argument validation** (`src/core/cli_utils.py`, and the `parse_arguments` of
  each script): verbosity, count ranges, `#`/`@` stripping, the missing options in
  `--auto` mode, and the TikTok range checks.
- **Date filters** (`src/core/date_utils.py`). Calendar dates are day numbers, and
  the clock (`now`) is a parameter.
- **The TikTok scraper** (`src/scrapers/tiktok_scraper.py`):
  - the three relevance scores, over exact `real`s;
  - the video filters and the normalised video record;
  - comment collection;
  - the bounded search loops (ask for 3·count, keep at most count, give up after
    5·count);
  - the incremental file name and the saved file.
- **The Twitter scraper** (`src/scrapers/twitter_scraper.py`): the credential
  check, the search query and parameters, the partition of a response into kept
  records and discarded tweets, and the JSON Lines merge of `save_tweets`.
- **The earlier root scripts**, each in its own module so that their differences
  are pinned down:
  - `tiktok_scraper_old.py`: its own argument checks and description test;
  - `tiktok_scraper.py` (v1.0): 2·count/3·count caps, the `playCount` filter,
    hashtag statistics and the search-mode choice in `main`;
  - `twitter_scraper.py`: it removes `#tag` rather than `tag`, has its own
    statistics file, and dispatches dates and the hashtag in `main`;
  - `main.py`: fixed threshold 10, prompts, count clamping.

Some code appears in more than one file and is modelled once:

- `old.py` is the same file as `main.py`; the `MainScript` module models both.
- These functions of `tiktok_scraper_old.py` are textually those of
  `src/scrapers/tiktok_scraper.py` and are modelled there:
  - the relevance functions;
  - `get_video_comments`;
  - `extract_video_data`;
  - `clean_description`;
  - the search loop bodies.
- These functions of the root `twitter_scraper.py` are those of
  `src/core/date_utils.py`, `src/core/text_utils.py` and
  `src/scrapers/twitter_scraper.py`, and are reused from those modules:
  - `validate_dates`;
  - `process_last_days_filter`;
  - `check_credentials`;
  - `clean_tweet_text`;
  - the query.

The environment is a `map<string, string>`. The set of existing files is a
`set<string>`. Asynchronous SDK streams are finite sequences, and what the
network would return travels with each raw item. The interactive answers are
string parameters.

The bounded selection that every search loop performs is specified once, in
`Selection`. `Processed` says where a loop stops. `Selected` gives the kept items
in stream order. Each loop is proved to compute exactly those, and the lemmas
there prove the caps.

Modules:

| module | file | models |
|---|---|---|
| `Wrappers` | wrappers.dfy | Option and Result |
| `Strings` | strings.dfy | Python `str` methods: `strip`, `lower`, `replace`, `count`, `split`, `\w`/`\s` classes |
| `Tally` | tally.dfy | dict counters in insertion order and the "top N by count" selection |
| `Selection` | selection.dfy | the take-while specification of the search loops |
| `Args` | args.dfy | the argparse namespace, a class the validators update |
| `TextUtils` | text_utils.dfy | src/core/text_utils.py |
| `CliUtils` | cli_utils.dfy | src/core/cli_utils.py |
| `DateUtils` | date_utils.dfy | src/core/date_utils.py |
| `TikTokScraper` | tiktok_scraper.dfy | src/scrapers/tiktok_scraper.py |
| `TwitterScraper` | twitter_scraper.dfy | src/scrapers/twitter_scraper.py |
| `TikTokScraperOld` | tiktok_old.dfy | tiktok_scraper_old.py |
| `TikTokScraperV1` | tiktok_v1.dfy | tiktok_scraper.py |
| `TwitterScraperV1` | twitter_v1.dfy | twitter_scraper.py |
| `MainScript` | main_script.dfy | main.py and old.py |

## Model

| member | source | states |
|---|---|---|
| TextUtils.ExtractHashtags | src/core/text_utils.py:21-24 | every extracted tag is a non-empty run of word characters, and there are at most half as many tags as characters |
| TextUtils.TagAtStart | src/core/text_utils.py:24 | the tag after a leading `#` is the longest run of word characters following it, and is non-empty |
| TextUtils.HashtagsAtSkip | src/core/text_utils.py:24 | positions holding no `#` contribute no tag |
| TextUtils.ExtractHashtagsExact | src/core/text_utils.py:21-24 | the left-to-right matches equal the tags taken position by position: each maximal word run after a `#`, in order of position, none missed and none found inside another |
| TextUtils.EveryTagExtracted | src/core/text_utils.py:21-24 | every `#` followed by a word character anywhere in the text yields its tag |
| TextUtils.ExtractRenderRoundTrip | src/core/text_utils.py:21-24 | extraction recovers, in order, exactly the tags written as `#tag` |
| TextUtils.RemoveTcoLinks | src/core/text_utils.py:51-54 | removing t.co links never lengthens the text |
| TextUtils.RemoveTcoAbsent | src/core/text_utils.py:54 | text without `https://t.co/` is untouched by the Twitter link rule |
| TextUtils.RemoveTcoLeading | src/core/text_utils.py:54 | a t.co link is removed up to the end of its word characters and nothing after it |
| TextUtils.RemoveHttpLinks | src/core/text_utils.py:54-57 | removing http(s) addresses never lengthens the text |
| TextUtils.RemoveHttpAbsent | src/core/text_utils.py:57 | text without `http://` or `https://` is untouched by the generic link rule |
| TextUtils.RemoveHttpLeading | src/core/text_utils.py:54-57 | an `http://` or `https://` address is deleted up to the next whitespace, and nothing after it |
| TextUtils.AddressAloneRemoved | src/core/text_utils.py:54-57 | a text that is one address alone is removed entirely |
| TextUtils.RemoveRuns | src/core/text_utils.py:60-64 | deleting runs of three or more hashtags or mentions never lengthens the text |
| TextUtils.ShortRunsSurvive | src/core/text_utils.py:60-64 | text with no run of three or more tokens is unchanged, so runs of one or two survive |
| TextUtils.TokensRead | src/core/text_utils.py:60-64 | written tokens `m w ` are read back one by one: one token per word, spanning exactly the written text |
| TextUtils.RemoveRunsLeading | src/core/text_utils.py:60-64 | a run of three or more `#word`/`@word` tokens with their trailing whitespace is deleted entirely, and nothing after it |
| TextUtils.RunAloneRemoved | src/core/text_utils.py:60-64 | a text that is a single run of three or more `#word`/`@word` tokens alone is removed completely |
| TextUtils.SqueezeSpaces | src/core/text_utils.py:67 | every whitespace run becomes one blank: no longer than the input, only blanks as whitespace, no two blanks in a row |
| TextUtils.SqueezeKeepsNonSpaces | src/core/text_utils.py:67 | squeezing whitespace keeps every non-whitespace character in order |
| TextUtils.CollapseWhitespace | src/core/text_utils.py:67 | the result is normalised, keeps the non-whitespace characters, and is empty exactly when the input is all whitespace |
| TextUtils.CleanTextBase | src/core/text_utils.py:29-74 | "" for empty input; never longer than the input; normalised (no edge whitespace, single blanks); with both options off the characters other than whitespace are kept |
| TextUtils.CleanDescription | src/core/text_utils.py:132-140 | the TikTok cleaning: never longer, normalised |
| TextUtils.DescriptionWithoutRunsKeepsWords | src/core/text_utils.py:132-140 | a description with no run of three or more hashtags or mentions keeps all its non-whitespace characters |
| TextUtils.TagRunDescriptionIsEmpty | src/core/text_utils.py:132-140 | a description made of three or more hashtags alone cleans to the empty text |
| TextUtils.CleanTweetText | src/core/text_utils.py:143-151 | the Twitter cleaning: never longer, normalised |
| TextUtils.TweetWithoutLinkKeepsWords | src/core/text_utils.py:143-151 | a tweet without a t.co link keeps all its non-whitespace characters |
| TextUtils.LinkOnlyTweetIsEmpty | src/core/text_utils.py:143-151 | a tweet made of one t.co link cleans to "" |
| TextUtils.SearchRemainder | src/core/text_utils.py:95-105 | removing the term only shortens the text and only removes characters |
| TextUtils.IsMeaningfulContent | src/core/text_utils.py:77-122 | False for empty text; otherwise accepted iff the stripped remainder without the term has at least `min_length` characters and a word character; acceptance implies the text itself is long enough and has a word character |
| TextUtils.MeaningfulMonotone | src/core/text_utils.py:110-111 | acceptance at a minimum length implies acceptance at every smaller one |
| TextUtils.HashOfHashtagRemains | src/core/text_utils.py:99-105 | on Twitter the bare term goes first, so `#ai` without `ai` leaves `#` |
| TextUtils.IsMeaningfulDescription | src/core/text_utils.py:154-162 | an accepted description is at least `min_length` long and has a word character |
| TextUtils.IsMeaningfulText | src/core/text_utils.py:165-172 | an accepted tweet text is at least `min_length` long and has a word character |
| CliUtils.ResolveLogLevel | src/core/cli_utils.py:110-116 | error iff quiet and verbose; verbose gives DEBUG, else quiet gives ERROR, else the level is unchanged |
| CliUtils.ValidateCommonArguments | src/core/cli_utils.py:97-124 | refuses quiet with verbose and changes nothing; otherwise sets the resolved level and passes iff the output directory can be created |
| CliUtils.ValidateCountArgument | src/core/cli_utils.py:127-139 | passes iff min ≤ count ≤ max, else the range error |
| CliUtils.DefaultCountAdmitted | src/core/cli_utils.py:138-139 | the default 20 is admitted by the TikTok (5..100) and Twitter (10..500) ranges, 4 and 501 are not |
| CliUtils.CleanPrefixedInput | src/core/cli_utils.py:154-163 | empty input returned as is; error iff the input is markers then whitespace; otherwise the cleaned value is non-empty and is the input with its whole leading run of markers and then its whole leading and trailing whitespace removed |
| CliUtils.CleanedEmptyIff | src/core/cli_utils.py:157-161 | `strip(lstrip(s, m))` is empty exactly when `s` is markers followed by whitespace |
| CliUtils.CleanedIsSlice | src/core/cli_utils.py:157-158 | `strip(lstrip(s, m))` is `s` without its maximal leading run of `m`, then without the maximal whitespace runs at both ends of the rest |
| CliUtils.CleanedSliceUnique | src/core/cli_utils.py:157-158 | that characterisation fixes the cleaned text: at most one text satisfies it |
| CliUtils.MarkerCount | src/core/cli_utils.py:157 | `lstrip(m)` removes exactly the maximal leading run of `m` |
| CliUtils.StripOfSuffix | src/core/cli_utils.py:158 | stripping a suffix of `s` leaves the slice between the maximal whitespace runs, which neither starts nor ends with whitespace |
| CliUtils.HashAfterSpaceKept | src/core/cli_utils.py:157 | a `#` after leading whitespace is not removed (" #ai" cleans to "#ai") |
| CliUtils.LoneMarkerRefused | src/core/cli_utils.py:178-187 | "#" is refused as a hashtag and "@ " as a user name |
| CliUtils.MissingFlags | src/core/cli_utils.py:200-209 | never more flags than required fields |
| CliUtils.MissingFlagsExact | src/core/cli_utils.py:203-206 | a flag is listed iff its required field is not set |
| CliUtils.CheckAutoModeRequirements | src/core/cli_utils.py:190-209 | passes outside auto mode; in auto mode passes iff every required field is set, else reports the missing flags in order |
| CliUtils.DefaultMaxCommentsNotMissing | src/core/cli_utils.py:203-206 | a field counts as set when `getattr` finds a truthy value: `max_comments` at its default 10 is not reported, `min_views` at 0 is |
| CliUtils.TikTokArgumentsError | src/core/cli_utils.py:376-398 | no error iff auto has a search mode, max_comments is in 1..50, the threshold is in [0,1], the durations are ordered and created_after parses |
| CliUtils.ValidateTikTokArguments | src/core/cli_utils.py:366-407 | on a range error nothing changes; otherwise hashtag and then user are replaced by their cleaned forms, and only those two fields change |
| DateUtils.ValidateDates | src/core/date_utils.py:10-59 | (None, None) when the start date is missing or a date does not parse; otherwise a result carries two ISO stamps, at the start and end of day |
| DateUtils.DaysBackIsDayDifference | src/core/date_utils.py:38-44 | the days-back warning reports today minus the start day and does not change the result |
| DateUtils.ValidateTwoDates | src/core/date_utils.py:24-35 | with two dates the window exists iff start < end, and is start at 00:00:00Z to end at 23:59:59Z |
| DateUtils.NoEndAcceptsToday | src/core/date_utils.py:27-35 | without an end date a start of today is accepted unless the clock reads midnight |
| DateUtils.NoEndDate | src/core/date_utils.py:27-32 | without an end date a start before today is accepted and ends today, and a start after today is refused |
| DateUtils.ProcessLastDaysFilter | src/core/date_utils.py:62-88 | the window ends today and starts exactly `last_days` days earlier, with the fixed time suffixes |
| DateUtils.ValidateDateArguments | src/core/date_utils.py:91-130 | `last_days` with dates is an error; `last_days` outside 1..7 is an error; otherwise a set `last_days` gives exactly the `process_last_days_filter` window; a start date gives exactly the `validate_dates` window or an error when that fails; an end date alone sets no filter; each error and the no-filter result hold iff their conditions do |
| DateUtils.DisplayShowsGivenDates | src/core/date_utils.py:133-152 | a validated window is displayed as the two dates given |
| DateUtils.LastDaysDescribed | src/core/date_utils.py:155-184 | a `--last-days N` window is described as the last N days |
| DateUtils.PastWindowDescribed | src/core/date_utils.py:155-184 | a window ending before today is described by its two dates |
| DateUtils.AsWrittenAlwaysRecent | src/core/date_utils.py:187-212 | as written, every window the filters produce is reported recent |
| DateUtils.AsWrittenOldStartIsRecent | src/core/date_utils.py:199-207 | as written, a 30-day window counts as recent for a 7-day threshold |
| DateUtils.LastDaysRecentIff | src/core/date_utils.py:199-207 | as intended, a `--last-days N` window is recent iff N ≤ threshold |
| TikTokScraper.RatioBounds | src/scrapers/tiktok_scraper.py:185-186 | a ratio of a non-negative to a positive number is non-negative; it reaches 1 iff the numerator reaches the divisor |
| TikTokScraper.TagWeight | src/scrapers/tiktok_scraper.py:170-180 | each hashtag earns between 0 and 2 points, and 2 iff it equals the term |
| TikTokScraper.HashtagPoints | src/scrapers/tiktok_scraper.py:169-182 | the points lie between 0 and twice the number of hashtags |
| TikTokScraper.FullPointsIffAllExact | src/scrapers/tiktok_scraper.py:169-186 | the points reach their maximum iff every hashtag matches exactly |
| TikTokScraper.HashtagRatio | src/scrapers/tiktok_scraper.py:184-186 | the ratio lies in [0,1] and is 1 iff every hashtag matches exactly |
| TikTokScraper.HashtagScore | src/scrapers/tiktok_scraper.py:159-193 | 0 without hashtags or term; in [0,1]; 1 iff every lowered and stripped hashtag equals the lowered and stripped term |
| TikTokScraper.CalculateHashtagRelevance | src/scrapers/tiktok_scraper.py:162-186 | the accumulating loop computes `HashtagScore` |
| TikTokScraper.DescriptionScore | src/scrapers/tiktok_scraper.py:196-227 | 0 without description or term; in [0,1] |
| TikTokScraper.DescriptionScoreExtremes | src/scrapers/tiktok_scraper.py:209-220 | with words present the score is 0 iff no term word occurs, and 1 iff the matches reach max(0.1·words, 1) |
| TikTokScraper.CalculateDescriptionRelevance | src/scrapers/tiktok_scraper.py:199-220 | the counting loop computes `DescriptionScore` |
| TikTokScraper.VideoRelevance | src/scrapers/tiktok_scraper.py:230-266 | combined 0.6·hashtag + 0.4·description lies in [0,1]; relevant iff combined ≥ threshold |
| TikTokScraper.ThresholdExtremes | src/scrapers/tiktok_scraper.py:241-253 | a threshold ≤ 0 admits every video, one above 1 admits none, and full scores give 1 |
| TikTokScraper.NoHashtagsCapsScore | src/scrapers/tiktok_scraper.py:241-253 | without hashtags no threshold above 0.4 is reached |
| TikTokScraper.ExtractVideoData | src/scrapers/tiktok_scraper.py:375-458 | hashtags come from the description; relevance is computed from the record's own fields; comments start empty with count 0 and not retrieved; a transcript is fetched only when asked for and author and id are known |
| TikTokScraper.ApplyVideoFilters | src/scrapers/tiktok_scraper.py:330-372 | a video is kept iff it meets the duration and view bounds (0 disables a bound), its cleaned description is meaningful or the filter is off, and it is relevant or has no relevance |
| TikTokScraper.KeptVideoMeetsThresholds | src/scrapers/tiktok_scraper.py:335-368 | an extracted video that passes has a meaningful description (unless the filter is off), enough views and a relevance reaching the threshold |
| TikTokScraper.DisabledFiltersKeepRelevant | src/scrapers/tiktok_scraper.py:361-368 | with every bound off and `no_filter`, a video is kept iff it has no relevance or is relevant |
| TikTokScraper.MeaninglessDescriptionRejected | src/scrapers/tiktok_scraper.py:351-359 | a video whose cleaned description is not meaningful is rejected unless `no_filter` |
| TikTokScraper.ValidComments | src/scrapers/tiktok_scraper.py:285-292 | no more valid comments than comments streamed |
| TikTokScraper.ValidCommentsAreClean | src/scrapers/tiktok_scraper.py:285-292 | every kept comment is stripped, at least two characters long, and comes from the feed |
| TikTokScraper.ValidCommentsPrefix | src/scrapers/tiktok_scraper.py:280-297 | the comments kept from a prefix of the feed are a prefix of those kept from the whole feed |
| TikTokScraper.VideoCommentsShape | src/scrapers/tiktok_scraper.py:272-300 | [] for a missing or 'unknown' id; at most the cap, each clean and from the feed |
| TikTokScraper.GetVideoComments | src/scrapers/tiktok_scraper.py:269-311 | the loop returns exactly `VideoComments`: the first `max_comments` valid comments in stream order |
| TikTokScraper.Collected | src/scrapers/tiktok_scraper.py:496-501 | with comments requested, a stored video is marked retrieved and its count is the number of its comments |
| TikTokScraper.CollectVideos | src/scrapers/tiktok_scraper.py:481-517 | returns the passing videos of the processed prefix, in stream order; it stops at the first point where `count` are kept or 5·count processed; kept ≤ count and processed ≤ 5·count |
| TikTokScraper.LimitUnreachedWhenStreamHonoursRequest | src/scrapers/tiktok_scraper.py:481 | when the stream has at most the 3·count videos requested, the 5·count bound never ends the loop |
| TikTokScraper.SearchHashtagVideos | src/scrapers/tiktok_scraper.py:461-538 | the loop with the hashtag as term |
| TikTokScraper.SearchUserVideos | src/scrapers/tiktok_scraper.py:541-624 | the loop with the user name as term |
| TikTokScraper.SearchTrendingVideos | src/scrapers/tiktok_scraper.py:627-705 | the loop with the term "trending" |
| TikTokScraper.NatToString | src/scrapers/tiktok_scraper.py:720 | `str(n)` is non-empty and all digits |
| TikTokScraper.ParseNatToString | src/scrapers/tiktok_scraper.py:720 | reading back `str(n)` gives `n` |
| TikTokScraper.NameCounterOfName | src/scrapers/tiktok_scraper.py:720 | distinct counters give distinct file names |
| TikTokScraper.GetNextFilename | src/scrapers/tiktok_scraper.py:716-723 | returns the smallest counter ≥ 1 whose name is not an existing file, with that name |
| TikTokScraper.FilePrefix | src/scrapers/tiktok_scraper.py:726 | `--output-prefix` when given, else "tiktok_scraper" |
| TikTokScraper.SaveVideos | src/scrapers/tiktok_scraper.py:708-761 | None iff no videos; otherwise the next free numbered name and every video in order with its metadata |
| TwitterScraper.MissingVars | src/scrapers/twitter_scraper.py:37-48 | never more missing names than required variables |
| TwitterScraper.MissingVarsExact | src/scrapers/twitter_scraper.py:44-48 | a variable is reported iff it is required and unset or empty |
| TwitterScraper.CheckCredentials | src/scrapers/twitter_scraper.py:35-58 | reports the missing variables in declared order, and succeeds iff none is missing |
| TwitterScraper.QueryTokens | src/scrapers/twitter_scraper.py:90 | the query is exactly the three operators `#tag`, `lang:xx`, `-is:retweet` |
| TwitterScraper.BuildSearchParams | src/scrapers/twitter_scraper.py:94-107 | start and end times are sent only as a pair; the query and result count are passed on |
| TwitterScraper.UsersDictLastWins | src/scrapers/twitter_scraper.py:120-126 | every listed user is in the dictionary, under the last entry with its id |
| TwitterScraper.BuildUsersDict | src/scrapers/twitter_scraper.py:120-126 | the loop builds `UsersDict` |
| TwitterScraper.BuildRecord | src/scrapers/twitter_scraper.py:142-160 | `text_length` = len(clean_text) ≤ `original_length` = len(text); `has_links` iff the text contains a t.co link; author from the users or 'unknown'; the filters in force |
| TwitterScraper.OutcomeOf | src/scrapers/twitter_scraper.py:134-169 | a tweet fails iff it raises, is kept iff it passes the filter (or the filter is off), and a kept tweet yields its record |
| TwitterScraper.OutcomeTotals | src/scrapers/twitter_scraper.py:133-169 | every tweet is kept, discarded or failed, and only one of these |
| TwitterScraper.Partition | src/scrapers/twitter_scraper.py:133-169 | the loop returns the kept records in order and the number discarded; kept + discarded = processed − failures |
| TwitterScraper.SearchHashtag | src/scrapers/twitter_scraper.py:74-206 | builds the users dictionary then partitions the response; [] and 0 for a response with no data |
| TwitterScraper.KeptRecordsAreSelected | src/scrapers/twitter_scraper.py:139-161 | the kept records are the records of the passing tweets in response order |
| TwitterScraper.FailedAreRaising | src/scrapers/twitter_scraper.py:167-169 | the failures are exactly the tweets that raise |
| TwitterScraper.UnfilteredKeepsEvery | src/scrapers/twitter_scraper.py:139 | with the filter off and no failure every tweet is kept |
| TwitterScraper.KeptRecordsComeFromKeptTweets | src/scrapers/twitter_scraper.py:133-164 | each kept record is the record of a kept tweet, at strictly increasing positions |
| TwitterScraper.RecordFields | src/scrapers/twitter_scraper.py:142-160 | the record dictionary carries `text_length` and none of the three collection keys |
| TwitterScraper.WithMetadata | src/scrapers/twitter_scraper.py:225-232 | the three collection keys take the collection values and override same-named keys; every other key keeps its value; no other key appears |
| TwitterScraper.RecordLineKeepsFields | src/scrapers/twitter_scraper.py:227-235 | a search record keeps all of its own fields in its line |
| TwitterScraper.SaveTweets | src/scrapers/twitter_scraper.py:209-236 | None iff no tweets; otherwise the named file has one merged line per tweet, in order |
| Tally.TallyCounts | tiktok_scraper.py:611-613 | the counter has distinct keys, each count is the number of occurrences, and exactly the occurring keys have entries |
| Tally.TallySum | tiktok_scraper.py:611-613 | the counts add up to the number of keys counted |
| Tally.TallySize | tiktok_scraper.py:644 | the number of entries is the number of distinct keys |
| Tally.CountOccurrences | tiktok_scraper.py:611-613 | the counting loop computes `Tally` |
| Tally.SortByCountDesc | tiktok_scraper.py:615 | the sort is a permutation ordered by decreasing count |
| Tally.SortIsStable | tiktok_scraper.py:615 | the sort is stable: entries with equal counts keep their counter order, as `sorted(..., reverse=True)` does |
| Tally.InsertWithCount | tiktok_scraper.py:615 | inserting an entry puts it before the entries with its count and keeps the order of the rest |
| Tally.TopIsTop | tiktok_scraper.py:615 | at most N entries of the counter are kept, none left out counts more than one kept, and all are kept when there are at most N |
| Selection.ProcessedWithinLimit | src/scrapers/tiktok_scraper.py:516-517 | the loop never processes more than the limit |
| Selection.KeptAtMostCount | src/scrapers/tiktok_scraper.py:508-513 | the loop never keeps more than `count` |
| Selection.ProcessedIsFirstStop | src/scrapers/tiktok_scraper.py:481-517 | the loop stops at the first point where `count` are kept or the limit is reached, or at the end of the stream |
| Selection.SelectedAtIndices | src/scrapers/tiktok_scraper.py:494-509 | the kept items are the passing items, in stream order |
| Selection.CollectWhile | src/scrapers/tiktok_scraper.py:481-517 | the generic loop computes `Processed` and `Selected` |
| TikTokScraperOld.RangeError | tiktok_scraper_old.py:273-291 | no error iff auto has a search mode, count in 5..100, max_comments in 1..50, threshold in [0,1], durations ordered |
| TikTokScraperOld.ParseArguments | tiktok_scraper_old.py:264-310 | quiet with verbose refused with nothing changed; else the level is set, the ranges are checked, hashtag and user are cleaned in place (left empty and refused when nothing remains), then the directory is checked |
| TikTokScraperOld.IsMeaningfulDescription | tiktok_scraper_old.py:620-641 | an accepted description is at least `min_length` long and has a word character |
| TikTokScraperOld.AgreesOnTrimmedText | tiktok_scraper_old.py:620-641 | on text without edge whitespace it agrees with the shared test |
| TikTokScraperOld.UntrimmedTextDiffers | tiktok_scraper_old.py:623-630 | without a term the text is measured unstripped, unlike the shared test |
| TikTokScraperOld.ApplyVideoFilters | tiktok_scraper_old.py:647-690 | a video is kept iff it meets the duration and view bounds, its cleaned description is meaningful or the filter is off, and it is relevant or has no relevance |
| TikTokScraperOld.FiltersAgree | tiktok_scraper_old.py:647-690 | the filter keeps exactly the videos the refactored filter keeps |
| TikTokScraperOld.ShouldGetTranscript | tiktok_scraper_old.py:407-421 | transcripts iff asked for and one of the two key variables is non-empty |
| TikTokScraperOld.SearchVideos | tiktok_scraper_old.py:778-856 | keeps at most count, processes at most 5·count, discarded = processed − kept, kept videos in stream order |
| TikTokScraperOld.PassFlagsUseThisFilter | tiktok_scraper_old.py:798-835 | the loop's pass decision is this file's filter |
| TikTokScraperV1.RangeError | tiktok_scraper.py:244-254 | no error iff auto has a search mode, count in 5..100 and durations ordered |
| TikTokScraperV1.ParseArguments | tiktok_scraper.py:235-273 | as in the older script, without the comment and relevance bounds |
| TikTokScraperV1.ExtractVideoData | tiktok_scraper.py:506-580 | `desc_length` = len(clean description) ≤ `original_desc_length` = len(desc); views taken from `playCount`; filter metadata "applied, 10" |
| TikTokScraperV1.Lookup | tiktok_scraper.py:357 | `dict.get` returns the value for a present key and the default otherwise |
| TikTokScraperV1.ApplyVideoFiltersAsWritten | tiktok_scraper.py:342-375 | a video is kept iff it meets the duration bounds, the view bound is not positive, and its cleaned description is meaningful or the filter is off |
| TikTokScraperV1.MinViewsRejectsEveryVideo | tiktok_scraper.py:357 | as written, a positive `min_views` rejects every video |
| TikTokScraperV1.PopularVideoDropped | tiktok_scraper.py:357 | a video with a million views and `--min-views 1`: dropped as written, kept when `views` is read |
| TikTokScraperV1.ApplyVideoFilters | tiktok_scraper.py:342-375 | corrected, reading `views`: a video is kept iff it meets the duration and view bounds and its cleaned description is meaningful or the filter is off |
| TikTokScraperV1.ViewsFilterDecides | tiktok_scraper.py:357-359 | with the other filters off, the view bound alone decides, both ways |
| TikTokScraperV1.FiltersAgreeWithoutViewBound | tiktok_scraper.py:342-375 | without a view bound the two filters agree |
| TikTokScraperV1.SearchVideos | tiktok_scraper.py:377-504 | the loop with the filter as written: keeps at most count and processes at most 3·count, kept videos in stream order, each passing that filter; with a positive `min_views` nothing is kept and the loop runs to 3·count or the stream's end |
| TikTokScraperV1.SearchedVideosPassFilters | tiktok_scraper.py:396-403 | every video a loop returns passed the filter it applies and carries the search type and term |
| TikTokScraperV1.MinViewsKeepsNothing | tiktok_scraper.py:388-406 | with a positive `min_views` nothing is kept; min(stream, 3·count) videos are processed, the whole stream when the SDK yields at most the 2·count asked for |
| TikTokScraperV1.SearchVideosCorrected | tiktok_scraper.py:377-504 | corrected: the same loop with the filter reading `views`; every kept video meets the view bound |
| Selection.StopFromNonePass | tiktok_scraper.py:388-406 | when nothing passes, the loop runs until the stream ends or the limit is reached |
| Selection.NonePassProcessesToLimit | tiktok_scraper.py:388-406 | when nothing passes, nothing is kept and min(stream, limit) items are processed |
| TikTokScraperV1.SaveVideos | tiktok_scraper.py:590-665 | None iff no videos; otherwise the file name, totals, the hashtag counter and the top ten |
| TikTokScraperV1.SavedHashtagStatistics | tiktok_scraper.py:607-615 | each frequency counts every gathered hashtag, one entry per distinct hashtag, at most ten and the most frequent |
| TikTokScraperV1.SelectSearch | tiktok_scraper.py:744-790 | hashtag, then user, then trending; the menu only without `--auto`; a chosen term is never empty |
| TikTokScraperV1.MarkFilterMetadata | tiktok_scraper.py:859-861 | every video gets `filter_applied` = not `no_filter` and the minimum length, and nothing else changes |
| TwitterScraperV1.LaterError | twitter_scraper.py:219-228 | no error iff count in 10..500 and the `--last-days` rules hold |
| TwitterScraperV1.ParseArguments | twitter_scraper.py:200-236 | quiet with verbose refused with nothing changed; auto needs a hashtag; the hashtag is cleaned in place; then count, last-days and directory checks |
| TwitterScraperV1.HashtagRemainder | twitter_scraper.py:345 | removing `#tag` only shortens the text and only removes characters |
| TwitterScraperV1.IsMeaningfulText | twitter_scraper.py:341-360 | an accepted text is at least `min_length` long and has a word character |
| TwitterScraperV1.AgreesWithoutTerm | twitter_scraper.py:345 | on text not containing the tag, this test and the shared one agree |
| TwitterScraperV1.BareWordCountsHere | twitter_scraper.py:345 | "ai" for tag "ai" is kept here (only `#ai` is removed) and rejected by the shared test |
| TwitterScraperV1.OutcomeOf | twitter_scraper.py:421-455 | a tweet fails iff it raises, is kept iff it passes this test (or the filter is off) |
| TwitterScraperV1.SearchHashtag | twitter_scraper.py:362-494 | the kept records in order and the discarded count |
| TwitterScraperV1.UnfilteredAgreesWithRefactored | twitter_scraper.py:427 | with the filter off this loop and the refactored one agree |
| TwitterScraperV1.SaveTweets | twitter_scraper.py:496-563 | None iff no tweets; the file name; character sums; `text_only` = total − `with_links`; the language counts sum to the total |
| TwitterScraperV1.CleanCharsWithinOriginal | twitter_scraper.py:508-510 | total cleaned characters ≤ total original characters |
| TwitterScraperV1.DateWindow | twitter_scraper.py:663-681 | `last_days` first, then start+end, then start alone ending today; an end date alone sets no filter |
| TwitterScraperV1.DateWindowAgreesWithShared | twitter_scraper.py:663-681 | under the checks `parse_arguments` made, the dispatch equals the shared `validate_date_arguments` |
| TwitterScraperV1.StartDateAlone | twitter_scraper.py:673-676 | a start date alone is accepted iff it is before today |
| TwitterScraperV1.ResolveHashtagAsWritten | twitter_scraper.py:684-701 | None iff there is no `--hashtag` and either `--auto` is on or the stripped answer is empty, so the test comes before `lstrip('#')`; otherwise the argument or answer without its leading `#` |
| TwitterScraperV1.HashAloneAccepted | twitter_scraper.py:691-701 | as written, "#" passes and becomes the empty hashtag |
| TwitterScraperV1.ResolveHashtag | twitter_scraper.py:684-701 | corrected: an accepted hashtag is non-empty and does not start with `#` |
| MainScript.CleanedTweetNormalized | main.py:61-71 | the cleaned tweet is never longer and normalised |
| MainScript.IsMeaningfulText | main.py:73-92 | accepted iff the stripped remainder without `#tag` has at least 10 characters and a word character |
| MainScript.HashtagAloneRejected | old.py:77-88 | a tweet that is only the hashtag is never meaningful |
| MainScript.QueryTokens | main.py:101 | the query is exactly `#tag` and `-is:retweet` |
| MainScript.BuildRecord | main.py:137-151 | the record fields follow from the text: lengths, links, author defaults |
| MainScript.OutcomeOf | main.py:128-159 | a tweet fails iff it raises, is kept iff meaningful |
| MainScript.SearchHashtag | main.py:94-181 | the kept records in response order and the discarded count |
| MainScript.KeptRecordsMeaningful | old.py:128-159 | every kept record is meaningful for the hashtag |
| MainScript.SaveTweets | main.py:183-236 | None iff no tweets; name `data/{tag}_{ts}.json`; `text_only` = total − `with_links`; language counts sum to the total |
| MainScript.CleanCharsWithinOriginal | old.py:198-221 | total cleaned characters ≤ total original characters |
| MainScript.ParseInt | main.py:308-309 | `int()` succeeds iff the text is an optional sign and one or more digits, with the signed decimal value |
| MainScript.PromptCount | main.py:307-313 | 20 when blank or not an integer, otherwise clamped to 10..500 |
| MainScript.PromptCountInRange | old.py:308-313 | a count in 10..500 typed in is used as is |
| MainScript.PromptHashtagAsWritten | main.py:299-305 | None iff the stripped input is empty; otherwise it with leading `#` removed |
| MainScript.PromptHashAloneAccepted | old.py:301-305 | as written, "#" passes and becomes the empty hashtag |
| MainScript.PromptHashtag | main.py:299-305 | corrected: an accepted hashtag is non-empty and does not start with `#` |

## Left out

- Logging, `print`, `print_summary`, the dry-run report and the logger setup (src/core/logger.py is not part of this model).
- src/core/file_handlers.py is not part of this model. Its Parquet, S3 and JSON Lines I/O is out of scope, and its numbered-name search is the rule `TikTokScraper.GetNextFilename` models.
- twitter_scraper_old.py is a three-line entry point and is not part of this model.
- Network and vendor SDKs are not modelled:
  - TikTokApi sessions, ms-token retrieval, Playwright;
  - the transcript HTTP call (its answer is part of each raw video);
  - pytwitter's `search_tweets` (its response is given as data).
- async/await: the streams are finite sequences, with no concurrency.
- JSON serialisation to disk: the model stops at the data handed to `json.dump`.
- The time stamps and `datetime.now()` are parameters.
- Floating point:
  - the relevance weights are exact reals, without `round(..., 3)`;
  - averages, percentages and file sizes are not modelled.
- Calendar details of `strptime`, `strftime` and `fromisoformat`: dates are day numbers, and a parse failure is its own value.
- Python's `re` and `str` Unicode tables. `\w` is ASCII letters, digits, `_` and the Latin-1 letters; `\s` is the ASCII and Latin-1 whitespace. Lower-casing is ASCII and Latin-1 only.
- The catch-all `except` branches that return True, "" or [] on unexpected errors are not modelled. A tweet whose processing raises is modelled, as the `raises` flag.
- `argparse` parser construction and `sys.exit` are not modelled. A parser error is the returned `Fail` value, and `os.makedirs` is the `dirCreatable` parameter.
- `should_get_comments` in both TikTok scrapers only logs; the model takes its answer as `SearchOptions.getComments`.
- MainScript.ParseInt: Python's `int()` also accepts surrounding whitespace, `_` separators and non-ASCII digits. Only a sign followed by ASCII digits is modelled, so such inputs fall back to 20 here.
- The comment stream is the texts the SDK returns, with a missing `text` read as "". The `max_comments * 2` request size is not modelled, because the loop stops at `max_comments` anyway.
- The `except` around the comment fetch in the search loops is not modelled. `get_video_comments` catches its own errors and returns [], so that branch does not change the model.
- TikTokScraperV1.SaveVideos: the average duration and view figures are not modelled (floating point).
- TikTokScraperV1.ExtractVideoData: the `music` dictionary and the `video_url` and `cover_url` fields (tiktok_scraper.py:558-565) are not part of the record; they are copied from the raw video and no filter, statistic or file name reads them.
- TwitterScraperV1.SaveTweets, MainScript.SaveTweets: the average text length is not modelled (floating point).
- `main` of each script beyond the pieces above (the credentials exit, the menu printing, the summary) is not modelled.

## Findings

| source | as written | input that shows it | evidently intended | confidence | as-written member | corrected member |
|---|---|---|---|---|---|---|
| tiktok_scraper.py:357 | `apply_video_filters` reads `stats['playCount']`, but `extract_video_data` (line 553) stores the count as `stats['views']`, so the lookup always yields 0 | any video with `--min-views 1` | compare the stored `views` count with `min_views` | high, not executed | TikTokScraperV1.MinViewsRejectsEveryVideo | TikTokScraperV1.ViewsFilterDecides |
| src/core/date_utils.py:199-207 | `datetime.now()` is naive while the `...Z` stamps parse as aware, so the subtraction raises and the `except` branch returns True | `--last-days` 30 with threshold 7 | True iff the start is at most `days_threshold` days back | high, not executed | DateUtils.AsWrittenOldStartIsRecent | DateUtils.LastDaysRecentIff |
| main.py:301-305 | the emptiness check runs before `lstrip('#')`, so the answer "#" passes and the search runs for an empty hashtag (old.py is identical) | prompt answer "#" | refuse an answer that is empty after removing the `#` | high, not executed | MainScript.PromptHashAloneAccepted | MainScript.PromptHashtag |
| twitter_scraper.py:694-701 | the same order: "#" given as the prompt answer passes `if not hashtag` and becomes "" | prompt answer "#" without `--hashtag` | refuse a hashtag that is empty after removing the `#` | high, not executed | TwitterScraperV1.HashAloneAccepted | TwitterScraperV1.ResolveHashtag |

=== FILE: args.dfy ===
/** The `argparse.Namespace` the scripts parse their command line into. Validation
  * routines read it and overwrite some of its fields in place. Options that are
  * only checked for truthiness use 0 or "" (or `NoDate`) for "not given". */
module Args {
  import opened DateUtils

  /** `--log-level` choices. */
  datatype LogLevel = Debug | Info | Warning | Error

  class Namespace {
    // common options
    var count: int
    var outputDir: string
    var outputPrefix: string
    var logLevel: LogLevel
    var quiet: bool
    var verbose: bool
    var auto: bool
    var noFilter: bool
    var minTextLength: int
    // TikTok options
    var hashtag: string
    var user: string
    var trending: bool
    var relevanceThreshold: real
    var addTranscript: bool
    var addComments: bool
    var maxComments: int
    var minDuration: int
    var maxDuration: int
    var minViews: int
    var createdAfter: DateText
    var minDescLength: int
    // Twitter options
    var lang: string
    var startDate: DateText
    var endDate: DateText
    var lastDays: int

    /** The defaults the TikTok and Twitter parsers install. */
    constructor (tiktok: bool)
      ensures count == 20 && outputDir == "data" && outputPrefix == "" && logLevel == Info
      ensures !quiet && !verbose && !auto && !noFilter && minTextLength == 10
      ensures hashtag == "" && user == "" && !trending
      ensures relevanceThreshold == 0.45 && maxComments == 10 && minDescLength == 10
      ensures minDuration == 0 && maxDuration == 0 && minViews == 0 && createdAfter == NoDate
      ensures !addTranscript && !addComments
      ensures lang == (if tiktok then "" else "it")
      ensures startDate == NoDate && endDate == NoDate && lastDays == 0
    {
      count, outputDir, outputPrefix, logLevel := 20, "data", "", Info;
      quiet, verbose, auto, noFilter, minTextLength := false, false, false, false, 10;
      hashtag, user, trending := "", "", false;
      relevanceThreshold, maxComments, minDescLength := 0.45, 10, 10;
      minDuration, maxDuration, minViews, createdAfter := 0, 0, 0, NoDate;
      addTranscript, addComments := false, false;
      lang := if tiktok then "" else "it";
      startDate, endDate, lastDays := NoDate, NoDate, 0;
    }
  }
}

=== FILE: cli_utils.dfy ===
/** Command-line normalisation and validation shared by the scrapers
  * (src/core/cli_utils.py). A `parser.error(...)` call, which exits, is a `Fail`. */
module CliUtils {
  import opened Strings
  import opened DateUtils
  import opened Args

  datatype CliError =
    | QuietAndVerbose
    | CannotCreateOutputDir
    | CountOutOfRange(minCount: int, maxCount: int)
    | EmptyHashtag
    | EmptyUsername
    | AutoModeMissing(flags: seq<string>)
    | AutoNeedsSearchMode
    | AutoNeedsHashtag
    | MaxCommentsOutOfRange
    | ThresholdOutOfRange
    | DurationOrder
    | CreatedAfterFormat
    | LastDaysWithDates
    | LastDaysOutOfRange

  datatype Outcome = Pass | Fail(error: CliError)

  /** The log level after `--verbose` / `--quiet` are applied, or the conflict. */
  function ResolveLogLevel(quiet: bool, verbose: bool, level: LogLevel): (r: Wrappers.Result<LogLevel, CliError>)
    ensures r.Err? <==> quiet && verbose
    ensures r.Err? ==> r.error == QuietAndVerbose
    ensures r.Ok? ==> (r.value == Debug <==> verbose || (!quiet && level == Debug))
    ensures r.Ok? ==> (r.value == Error <==> quiet || (!verbose && level == Error))
    ensures r.Ok? && !quiet && !verbose ==> r.value == level
  {
    if quiet && verbose then Wrappers.Err(QuietAndVerbose)
    else if verbose then Wrappers.Ok(Debug)
    else if quiet then Wrappers.Ok(Error)
    else Wrappers.Ok(level)
  }

  /** `validate_common_arguments`: rejects `--quiet` with `--verbose`, sets the log
    * level they select, and fails when the output directory cannot be created
    * (`dirCreatable` stands for the outcome of `os.makedirs`). */
  method ValidateCommonArguments(args: Namespace, dirCreatable: bool) returns (r: Outcome)
    modifies args`logLevel
    ensures var lv := ResolveLogLevel(old(args.quiet), old(args.verbose), old(args.logLevel));
            (lv.Err? ==> r == Fail(QuietAndVerbose) && args.logLevel == old(args.logLevel))
            && (lv.Ok? ==> args.logLevel == lv.value && (r == Pass <==> dirCreatable)
                           && (r.Fail? ==> r.error == CannotCreateOutputDir))
  {
    var lv := ResolveLogLevel(args.quiet, args.verbose, args.logLevel);
    if lv.Err? {
      return Fail(QuietAndVerbose);
    }
    args.logLevel := lv.value;
    if !dirCreatable {
      return Fail(CannotCreateOutputDir);
    }
    return Pass;
  }

  /** `validate_count_argument`: the count must lie in `[minCount, maxCount]`. */
  function ValidateCountArgument(count: int, minCount: int, maxCount: int): (r: Outcome)
    ensures r == Pass <==> minCount <= count <= maxCount
    ensures r.Fail? ==> r.error == CountOutOfRange(minCount, maxCount)
  {
    if count < minCount || count > maxCount then Fail(CountOutOfRange(minCount, maxCount)) else Pass
  }

  /** The TikTok scraper admits 5..100 items and the Twitter scraper 10..500; the
    * default count of 20 is admitted by both. */
  lemma DefaultCountAdmitted()
    ensures ValidateCountArgument(20, 5, 100) == Pass && ValidateCountArgument(20, 10, 500) == Pass
    ensures ValidateCountArgument(4, 5, 100).Fail? && ValidateCountArgument(501, 10, 500).Fail?
  {
  }

  /** `p` is some copies of `m` followed by whitespace only. */
  predicate MarkersThenSpaces(p: string, m: char) {
    exists k :: 0 <= k <= |p| && (forall i :: 0 <= i < k ==> p[i] == m) && AllSpaces(p[k..])
  }

  lemma {:induction false} LStripDropsMarkers(s: string, m: char, q: nat)
    requires q <= |s| && forall x :: 0 <= x < q ==> s[x] == m
    ensures |LStripChar(s, m)| <= |s| - q
    decreases q
  {
    if q > 0 {
      LStripDropsMarkers(s[1..], m, q - 1);
    }
  }

  /** Cleaning leaves nothing exactly when the input is markers then whitespace. */
  lemma CleanedEmptyIff(s: string, m: char)
    ensures Strip(LStripChar(s, m)) == [] <==> MarkersThenSpaces(s, m)
  {
    var k := MarkerCount(s, m);
    StripFacts(s[k..]);
    if MarkersThenSpaces(s, m) {
      RestAfterMarkersIsSpaces(s, m, k);
    }
    if AllSpaces(s[k..]) {
      MarkersThenSpacesIntro(s, m, k);
    }
  }

  /** When `s` is markers then whitespace, whatever follows its leading markers is
    * whitespace. */
  lemma RestAfterMarkersIsSpaces(s: string, m: char, k: nat)
    requires MarkersThenSpaces(s, m) && k == MarkerCount(s, m)
    ensures AllSpaces(s[k..])
  {
    var q :| 0 <= q <= |s| && (forall x :: 0 <= x < q ==> s[x] == m) && AllSpaces(s[q..]);
    LStripDropsMarkers(s, m, q);
    forall x | 0 <= x < |s| - k ensures IsSpace(s[k..][x]) {
      assert s[k..][x] == s[q..][x + k - q];
    }
  }

  /** How many markers `LStripChar` removes: the whole leading run of `m`. */
  function MarkerCount(s: string, m: char): (k: nat)
    ensures k <= |s| && LStripChar(s, m) == s[k..]
    ensures MaximalMarkerRun(s, m, k)
  {
    |s| - |LStripChar(s, m)|
  }

  /** `s[..k]` is the whole leading run of `m` in `s`. */
  predicate MaximalMarkerRun(s: string, m: char, k: nat) {
    k <= |s| && (forall x :: 0 <= x < k ==> s[x] == m) && (k == |s| || s[k] != m)
  }

  /** Stripping a suffix `s[k..]` leaves a slice of `s` between the maximal
    * whitespace runs that follow `k` and end `s`. */
  lemma StripOfSuffix(s: string, k: nat) returns (i: nat, j: nat)
    requires k <= |s|
    ensures k <= i <= j <= |s| && Strip(s[k..]) == s[i..j]
    ensures AllSpaces(s[k..i]) && AllSpaces(s[j..])
    ensures i < j ==> !IsSpace(s[i]) && !IsSpace(s[j - 1])
  {
    var t := s[k..];
    StripIsSlice(t);
    var a, b := StripStart(t), StripEnd(t);
    i, j := k + a, k + b;
    assert t[a..b] == s[i..j];
    assert t[..a] == s[k..i];
    assert t[b..] == s[j..];
  }

  /** `c` is what is left of `s` once its whole leading run of `m` is removed and
    * then the whole whitespace runs at both ends of the rest: `s` is `k` markers,
    * whitespace, `c`, whitespace, where the character after the markers is not `m`
    * and a non-empty `c` neither starts nor ends with whitespace. */
  ghost predicate CleanedSliceOf(s: string, c: string, m: char) {
    exists k: nat, i: nat, j: nat :: CleanedAt(s, c, m, k, i, j)
  }

  /** `CleanedSliceOf` with the run length `k` and the slice bounds `i`, `j` given. */
  predicate CleanedAt(s: string, c: string, m: char, k: nat, i: nat, j: nat) {
    k <= i <= j <= |s| && c == s[i..j] && MaximalMarkerRun(s, m, k)
    && AllSpaces(s[k..i]) && AllSpaces(s[j..])
    && (i < j ==> !IsSpace(s[i]) && !IsSpace(s[j - 1]))
  }

  /** Markers and whitespace are removed up to the first other character, and
    * whitespace from the last other character on. */
  lemma CleanedIsSlice(s: string, m: char)
    ensures CleanedSliceOf(s, Strip(LStripChar(s, m)), m)
  {
    var k := MarkerCount(s, m);
    var i, j := StripOfSuffix(s, k);
    assert CleanedAt(s, Strip(LStripChar(s, m)), m, k, i, j);
  }

  /** `CleanedSliceOf` determines the cleaned text: at most one `c` satisfies it. */
  lemma CleanedSliceUnique(s: string, c1: string, c2: string, m: char)
    requires CleanedSliceOf(s, c1, m) && CleanedSliceOf(s, c2, m)
    ensures c1 == c2
  {
    var k1: nat, i1: nat, j1: nat :| CleanedAt(s, c1, m, k1, i1, j1);
    var k2: nat, i2: nat, j2: nat :| CleanedAt(s, c2, m, k2, i2, j2);
    SameRunLength(s, m, k1, k2);
    if i1 < j1 && i2 < j2 {
      SameEdge(s, k1, i1, i2);
      SameEdge(s, k1, i2, i1);
      SameTail(s, j1, j2);
      SameTail(s, j2, j1);
    } else if i1 < j1 {
      SpacesBetween(s, k1, i2, j2, i1);
    } else if i2 < j2 {
      SpacesBetween(s, k1, i1, j1, i2);
    }
  }

  lemma SameRunLength(s: string, m: char, k1: nat, k2: nat)
    requires MaximalMarkerRun(s, m, k1) && MaximalMarkerRun(s, m, k2)
    ensures k1 == k2
  {
  }

  /** The first non-space at or after `k` is one position. */
  lemma SameEdge(s: string, k: nat, i1: nat, i2: nat)
    requires k <= i1 <= |s| && k <= i2 <= |s| && AllSpaces(s[k..i2])
    requires i1 < |s| && !IsSpace(s[i1])
    ensures i2 <= i1
  {
  }

  /** The last non-space is one position. */
  lemma SameTail(s: string, j1: nat, j2: nat)
    requires 0 < j1 <= |s| && !IsSpace(s[j1 - 1]) && j2 <= |s| && AllSpaces(s[j2..])
    ensures j1 <= j2
  {
  }

  /** Whitespace from `k` up to `i`, and from `i` on, leaves no non-space at `p`. */
  lemma SpacesBetween(s: string, k: nat, i: nat, j: nat, p: nat)
    requires k <= i == j <= |s| && AllSpaces(s[k..i]) && AllSpaces(s[j..])
    requires k <= p < |s|
    ensures IsSpace(s[p])
  {
    if p < i {
      assert s[k..i][p - k] == s[p];
    } else {
      assert s[j..][p - j] == s[p];
    }
  }

  lemma MarkersThenSpacesIntro(p: string, m: char, k: nat)
    requires k <= |p| && (forall x :: 0 <= x < k ==> p[x] == m) && AllSpaces(p[k..])
    ensures MarkersThenSpaces(p, m)
  {
  }

  /** `clean_hashtag_input` / `clean_username_input` with marker `m`: empty input is
    * returned as it is; otherwise the leading markers and then the surrounding
    * whitespace are removed, and an empty remainder is an error. */
  function CleanPrefixedInput(s: string, m: char, empty: CliError): (r: Wrappers.Result<string, CliError>)
    ensures s == [] ==> r == Wrappers.Ok(s)
    ensures r.Err? ==> r.error == empty
    ensures r.Err? <==> s != [] && MarkersThenSpaces(s, m)
    ensures r.Ok? && s != [] ==> r.value != [] && CleanedSliceOf(s, r.value, m)
  {
    if s == [] then Wrappers.Ok(s)
    else
      var c := Strip(LStripChar(s, m));
      CleanedEmptyIff(s, m);
      CleanedIsSlice(s, m);
      if c == [] then Wrappers.Err(empty) else Wrappers.Ok(c)
  }

  function CleanHashtagInput(s: string): Wrappers.Result<string, CliError> {
    CleanPrefixedInput(s, '#', EmptyHashtag)
  }

  function CleanUsernameInput(s: string): Wrappers.Result<string, CliError> {
    CleanPrefixedInput(s, '@', EmptyUsername)
  }

  /** Only the leading markers go: a `#` after whitespace stays. */
  lemma HashAfterSpaceKept()
    ensures CleanHashtagInput(" #ai") == Wrappers.Ok("#ai")
  {
    assert LStripChar(" #ai", '#') == " #ai";
    StripOfSpaceHashAi();
  }

  lemma StripOfSpaceHashAi()
    ensures Strip(" #ai") == "#ai"
  {
    assert LStrip(" #ai") == "#ai" by {
      assert " #ai"[1..] == "#ai";
    }
    assert RStrip("#ai") == "#ai";
  }

  /** A lone marker is refused. */
  lemma LoneMarkerRefused()
    ensures CleanHashtagInput("#").Err? && CleanUsernameInput("@ ").Err?
  {
    assert LStripChar("#", '#') == "";
    assert Strip("") == "";
    assert LStripChar("@ ", '@') == " " by {
      assert "@ "[1..] == " ";
    }
    StripOfSpace();
  }

  lemma StripOfSpace()
    ensures Strip(" ") == ""
  {
    assert LStrip(" ") == "" by {
      assert " "[1..] == "";
    }
  }

  /** `getattr(args, name, None)` is truthy: a non-empty string, a non-zero number, a
    * true flag, a given date; the log level is always a non-empty name. Names the
    * namespace does not have read as None. */
  function FieldIsSet(args: Namespace, name: string): bool
    reads args
  {
    if name == "hashtag" then args.hashtag != ""
    else if name == "user" then args.user != ""
    else if name == "trending" then args.trending
    else if name == "count" then args.count != 0
    else if name == "lang" then args.lang != ""
    else if name == "output_dir" then args.outputDir != ""
    else if name == "output_prefix" then args.outputPrefix != ""
    else if name == "start_date" then args.startDate != NoDate
    else if name == "end_date" then args.endDate != NoDate
    else if name == "last_days" then args.lastDays != 0
    else if name == "created_after" then args.createdAfter != NoDate
    else if name == "log_level" then true
    else if name == "quiet" then args.quiet
    else if name == "verbose" then args.verbose
    else if name == "auto" then args.auto
    else if name == "no_filter" then args.noFilter
    else if name == "min_text_length" then args.minTextLength != 0
    else if name == "relevance_threshold" then args.relevanceThreshold != 0.0
    else if name == "add_transcript" then args.addTranscript
    else if name == "add_comments" then args.addComments
    else if name == "max_comments" then args.maxComments != 0
    else if name == "min_duration" then args.minDuration != 0
    else if name == "max_duration" then args.maxDuration != 0
    else if name == "min_views" then args.minViews != 0
    else if name == "min_desc_length" then args.minDescLength != 0
    else false
  }

  /** The option spelling of a field: `--` and the name with `_` turned into `-`. */
  function FlagName(field: string): string {
    "--" + ReplaceAll(field, "_", "-")
  }

  /** The flags of the required fields that are not set, in the order required. */
  function MissingFlags(args: Namespace, required: seq<string>): (flags: seq<string>)
    reads args
    ensures |flags| <= |required|
  {
    if required == [] then []
    else
      var n := |required| - 1;
      MissingFlags(args, required[..n]) + (if FieldIsSet(args, required[n]) then [] else [FlagName(required[n])])
  }

  /** A required field is reported exactly when it is not set. */
  lemma {:induction false} MissingFlagsExact(args: Namespace, required: seq<string>)
    ensures forall f :: f in required && !FieldIsSet(args, f) ==> FlagName(f) in MissingFlags(args, required)
    ensures forall g :: g in MissingFlags(args, required) ==>
              exists f :: f in required && !FieldIsSet(args, f) && g == FlagName(f)
  {
    if required != [] {
      var n := |required| - 1;
      MissingFlagsExact(args, required[..n]);
      assert required == required[..n] + [required[n]];
    }
  }

  /** An option left at a non-zero default counts as given: `--max-comments` keeps
    * its default 10 and is not reported, while a zero or empty value is. */
  lemma DefaultMaxCommentsNotMissing(args: Namespace)
    requires args.maxComments == 10 && args.minViews == 0
    ensures MissingFlags(args, ["max_comments"]) == []
    ensures MissingFlags(args, ["max_comments", "min_views"]) == [FlagName("min_views")]
  {
    assert FieldIsSet(args, "max_comments");
    assert !FieldIsSet(args, "min_views");
    assert MissingFlags(args, ["max_comments"]) == [] by {
      assert ["max_comments"][..0] == [];
    }
    assert ["max_comments", "min_views"][..1] == ["max_comments"];
  }

  /** `check_auto_mode_requirements`: outside auto mode nothing is checked; in auto
    * mode the error lists every missing required option. */
  method CheckAutoModeRequirements(args: Namespace, required: seq<string>) returns (r: Outcome)
    ensures !args.auto ==> r == Pass
    ensures args.auto ==> (r == Pass <==> forall f :: f in required ==> FieldIsSet(args, f))
    ensures r.Fail? ==> r.error == AutoModeMissing(MissingFlags(args, required))
  {
    if !args.auto {
      return Pass;
    }
    var missing: seq<string> := [];
    var i := 0;
    while i < |required|
      invariant 0 <= i <= |required|
      invariant missing == MissingFlags(args, required[..i])
    {
      assert required[..i + 1][..i] == required[..i];
      if !FieldIsSet(args, required[i]) {
        missing := missing + [FlagName(required[i])];
      }
      i := i + 1;
    }
    assert required[..i] == required;
    MissingFlagsExact(args, required);
    if missing != [] {
      assert missing[0] in missing;
      return Fail(AutoModeMissing(missing));
    }
    return Pass;
  }

  /** The range and consistency checks of `validate_tiktok_arguments`, in the order
    * they run; None when all pass. */
  function TikTokArgumentsError(auto: bool, hashtag: string, user: string, trending: bool,
                                maxComments: int, threshold: real, minDuration: int, maxDuration: int,
                                createdAfter: DateText): (e: Wrappers.Option<CliError>)
    ensures e.None? <==> (!auto || hashtag != "" || user != "" || trending)
                         && 1 <= maxComments <= 50 && 0.0 <= threshold <= 1.0
                         && !(minDuration != 0 && maxDuration != 0 && minDuration >= maxDuration)
                         && createdAfter != BadDate
    ensures e == Wrappers.Some(AutoNeedsSearchMode) <==> auto && hashtag == "" && user == "" && !trending
  {
    if auto && !(hashtag != "" || user != "" || trending) then Wrappers.Some(AutoNeedsSearchMode)
    else if maxComments < 1 || maxComments > 50 then Wrappers.Some(MaxCommentsOutOfRange)
    else if threshold < 0.0 || threshold > 1.0 then Wrappers.Some(ThresholdOutOfRange)
    else if minDuration != 0 && maxDuration != 0 && minDuration >= maxDuration then Wrappers.Some(DurationOrder)
    else if createdAfter == BadDate then Wrappers.Some(CreatedAfterFormat)
    else Wrappers.None
  }

  /** `validate_tiktok_arguments`: the checks above, then `hashtag` and `user` are
    * replaced by their cleaned forms; no other field changes. */
  method ValidateTikTokArguments(args: Namespace) returns (r: Outcome)
    modifies args`hashtag, args`user
    ensures var e := TikTokArgumentsError(old(args.auto), old(args.hashtag), old(args.user), old(args.trending),
                                          old(args.maxComments), old(args.relevanceThreshold),
                                          old(args.minDuration), old(args.maxDuration), old(args.createdAfter));
            var h := CleanHashtagInput(old(args.hashtag));
            var u := CleanUsernameInput(old(args.user));
            if e.Some? then r == Fail(e.value) && args.hashtag == old(args.hashtag) && args.user == old(args.user)
            else if h.Err? then r == Fail(EmptyHashtag)
            else if u.Err? then r == Fail(EmptyUsername) && args.hashtag == h.value
            else r == Pass && args.hashtag == h.value && args.user == u.value
  {
    var e := TikTokArgumentsError(args.auto, args.hashtag, args.user, args.trending, args.maxComments,
                                  args.relevanceThreshold, args.minDuration, args.maxDuration, args.createdAfter);
    if e.Some? {
      return Fail(e.value);
    }
    var h := CleanHashtagInput(args.hashtag);
    if h.Err? {
      return Fail(EmptyHashtag);
    }
    args.hashtag := h.value;
    var u := CleanUsernameInput(args.user);
    if u.Err? {
      return Fail(EmptyUsername);
    }
    args.user := u.value;
    return Pass;
  }
}

=== FILE: date_utils.dfy ===
/** Date filters for the Twitter search (src/core/date_utils.py). Calendar dates are
  * day numbers; the clock is a parameter. */
module DateUtils {
  import opened Wrappers

  const SecondsPerDay: int := 86400

  type Second = s: int | 0 <= s < 86400

  /** `datetime.now()`: today's day number and the second of the day. */
  datatype Clock = Clock(today: int, second: Second)

  /** A `--start-date` / `--end-date` / `--created-after` value: absent or empty,
    * not in `YYYY-MM-DD` form, or the day it names. */
  datatype DateText = NoDate | BadDate | Day(day: int)

  /** An ISO timestamp string as the API and `datetime.fromisoformat` see it. The
    * stamps this module writes end in `Z`, which `fromisoformat` (after the
    * `Z` -> `+00:00` rewrite) reads as a UTC-aware datetime. */
  datatype IsoText = NoIso | Iso(day: int, second: Second, aware: bool) | Malformed(text: string)

  /** `T00:00:00Z` and `T23:59:59Z`, the two times the filters write. */
  const StartOfDay: Second := 0
  const EndOfDay: Second := 86399

  /** The `(start_iso, end_iso)` pair passed to the search request. */
  datatype Window = Window(start: IsoText, end: IsoText)

  /** Seconds since day 0 of a midnight-based day and second. */
  function Instant(day: int, second: Second): int {
    day * SecondsPerDay + second
  }

  /** `validate_dates`: the start date at `00:00:00Z` and the end date (today when
    * none is given) at `23:59:59Z`, or None when a date does not parse or the start is
    * not before the end. The comparison uses the full end instant, which is
    * `now` (with its time of day) when no end date is given. */
  function ValidateDates(startDate: DateText, endDate: DateText, now: Clock): (w: Option<Window>)
    ensures w.Some? ==> w.value.start.Iso? && w.value.end.Iso?
                        && w.value.start.second == StartOfDay && w.value.end.second == EndOfDay
                        && w.value.start.aware && w.value.end.aware
                        && w.value.start.day <= w.value.end.day
    ensures startDate == BadDate || endDate == BadDate ==> w.None?
    ensures startDate == NoDate ==> w.None?
  {
    if !startDate.Day? then None
    else if endDate == BadDate then None
    else
      var endInstant := if endDate.Day? then Instant(endDate.day, 0) else Instant(now.today, now.second);
      var endDay := if endDate.Day? then endDate.day else now.today;
      if Instant(startDate.day, 0) >= endInstant then None
      else Some(Window(Iso(startDate.day, StartOfDay, true), Iso(endDay, EndOfDay, true)))
  }

  /** The number of days the warning in `validate_dates` reports; it only logs. */
  function DaysBack(startDay: int, now: Clock): int {
    (Instant(now.today, now.second) - Instant(startDay, 0)) / SecondsPerDay
  }

  lemma DaysBackIsDayDifference(startDay: int, now: Clock)
    ensures DaysBack(startDay, now) == now.today - startDay
  {
    var d := now.today - startDay;
    assert Instant(now.today, now.second) - Instant(startDay, 0) == d * SecondsPerDay + now.second;
  }

  /** With two dates the window is accepted exactly when both parse and the start day
    * comes first, and it spans exactly those days. */
  lemma ValidateTwoDates(s: int, e: int, now: Clock)
    ensures ValidateDates(Day(s), Day(e), now).Some? <==> s < e
    ensures s < e ==> ValidateDates(Day(s), Day(e), now)
                      == Some(Window(Iso(s, StartOfDay, true), Iso(e, EndOfDay, true)))
  {
    assert Instant(s, 0) >= Instant(e, 0) <==> s >= e;
  }

  /** Without an end date the end is the current instant, so a start of today is
    * accepted unless the clock reads exactly midnight. */
  lemma NoEndAcceptsToday(now: Clock)
    ensures ValidateDates(Day(now.today), NoDate, now).Some? <==> now.second > 0
  {
  }

  /** Without an end date any start day before today is accepted and the window ends
    * today; a start after today is refused. */
  lemma NoEndDate(s: int, now: Clock)
    ensures s < now.today ==> ValidateDates(Day(s), NoDate, now)
                              == Some(Window(Iso(s, StartOfDay, true), Iso(now.today, EndOfDay, true)))
    ensures s > now.today ==> ValidateDates(Day(s), NoDate, now) == None
  {
    assert s < now.today ==> Instant(s, 0) < Instant(now.today, now.second);
    assert s > now.today ==> Instant(s, 0) >= Instant(now.today, now.second) by {
      if s > now.today {
        assert Instant(s, 0) >= Instant(now.today + 1, 0);
      }
    }
  }

  /** `process_last_days_filter`: the last `lastDays` days up to today. */
  function ProcessLastDaysFilter(lastDays: int, now: Clock): (w: Window)
    ensures w.start.Iso? && w.end.Iso? && w.start.aware && w.end.aware
    ensures w.end.day == now.today && w.end.day - w.start.day == lastDays
    ensures w.start.second == StartOfDay && w.end.second == EndOfDay
  {
    Window(Iso(now.today - lastDays, StartOfDay, true), Iso(now.today, EndOfDay, true))
  }

  datatype DateError = LastDaysWithDates | LastDaysOutOfRange | InvalidDates

  /** `validate_date_arguments`: `--last-days` excludes explicit dates and must be in
    * 1..7; it wins over dates; otherwise a start date (with an optional end date)
    * is validated; an end date alone sets no filter. A zero `lastDays` means the
    * option is absent. */
  function ValidateDateArguments(lastDays: int, startDate: DateText, endDate: DateText, now: Clock)
    : (r: Result<Option<Window>, DateError>)
    ensures r == Err(LastDaysWithDates) <==> lastDays != 0 && (startDate != NoDate || endDate != NoDate)
    ensures r == Err(LastDaysOutOfRange) <==> lastDays != 0 && startDate == NoDate && endDate == NoDate
                                               && (lastDays < 1 || lastDays > 7)
    ensures r == Ok(None) <==> lastDays == 0 && startDate == NoDate
    ensures r.Ok? && r.value.Some? ==>
              var w := r.value.value;
              w.start.Iso? && w.end.Iso? && w.start.day <= w.end.day
              && (lastDays != 0 ==> 1 <= w.end.day - w.start.day <= 7)
    ensures r == Err(InvalidDates) <==> lastDays == 0 && startDate != NoDate
                                         && ValidateDates(startDate, endDate, now).None?
    ensures lastDays != 0 && startDate == NoDate && endDate == NoDate && 1 <= lastDays <= 7
            ==> r == Ok(Some(ProcessLastDaysFilter(lastDays, now)))
    ensures lastDays == 0 && startDate != NoDate && ValidateDates(startDate, endDate, now).Some?
            ==> r == Ok(ValidateDates(startDate, endDate, now))
  {
    if lastDays != 0 && (startDate != NoDate || endDate != NoDate) then Err(LastDaysWithDates)
    else if lastDays != 0 && (lastDays < 1 || lastDays > 7) then Err(LastDaysOutOfRange)
    else if lastDays != 0 then Ok(Some(ProcessLastDaysFilter(lastDays, now)))
    else if startDate != NoDate then
      match ValidateDates(startDate, endDate, now)
      case None => Err(InvalidDates)
      case Some(w) => Ok(Some(w))
    else Ok(None)
  }

  /** What `format_date_for_display` returns: "N/A", the `YYYY-MM-DD` date, or the
    * input unchanged when it does not parse. */
  datatype Display = NotAvailable | DateOnly(day: int) | Unchanged(text: string)

  /** `format_date_for_display`. */
  function FormatDateForDisplay(iso: IsoText): Display {
    match iso
    case NoIso => NotAvailable
    case Iso(day, _, _) => DateOnly(day)
    case Malformed(t) => Unchanged(t)
  }

  /** The dates shown for a validated window are the dates that were given. */
  lemma DisplayShowsGivenDates(s: int, e: int, now: Clock)
    requires ValidateDates(Day(s), Day(e), now).Some?
    ensures var w := ValidateDates(Day(s), Day(e), now).value;
            FormatDateForDisplay(w.start) == DateOnly(s) && FormatDateForDisplay(w.end) == DateOnly(e)
  {
  }

  /** What `get_relative_date_description` returns: "ultimi 7 giorni (default API)",
    * "ultimi N giorni", "dal START al END", or "range personalizzato" when a stamp
    * cannot be parsed or compared. */
  datatype Description = DefaultApi | LastDays(days: int) | Range(startDay: int, endDay: int) | Custom

  /** `(b - a).days`, or None when Python refuses to subtract a naive datetime from an
    * aware one. */
  function DayDiff(a: IsoText, b: IsoText): Option<int>
    requires a.Iso? && b.Iso?
  {
    if a.aware != b.aware then None
    else Some((Instant(b.day, b.second) - Instant(a.day, a.second)) / SecondsPerDay)
  }

  /** `get_relative_date_description`. */
  function RelativeDateDescription(start: IsoText, end: IsoText, now: Clock): Description {
    if start == NoIso || end == NoIso then DefaultApi
    else if !start.Iso? || !end.Iso? then Custom
    else match DayDiff(start, end)
      case None => Custom
      case Some(d) => if end.day == now.today then LastDays(d) else Range(start.day, end.day)
  }

  /** A `--last-days N` window is described as the last N days. */
  lemma LastDaysDescribed(n: int, now: Clock)
    ensures var w := ProcessLastDaysFilter(n, now);
            RelativeDateDescription(w.start, w.end, now) == LastDays(n)
  {
    var w := ProcessLastDaysFilter(n, now);
    assert Instant(w.end.day, EndOfDay) - Instant(w.start.day, StartOfDay) == n * SecondsPerDay + EndOfDay;
  }

  /** A validated window that ends before today is described by its two dates. */
  lemma PastWindowDescribed(s: int, e: int, now: Clock)
    requires s < e < now.today
    ensures var w := ValidateDates(Day(s), Day(e), now).value;
            RelativeDateDescription(w.start, w.end, now) == Range(s, e)
  {
    ValidateTwoDates(s, e, now);
  }

  /** `is_recent_date_range` as written: `datetime.now()` is naive while a stamp
    * ending in `Z` parses as aware, so the subtraction raises and the `except`
    * branch answers True. */
  function IsRecentDateRangeAsWritten(start: IsoText, threshold: int, now: Clock): bool {
    match start
    case NoIso => true
    case Malformed(_) => true
    case Iso(day, second, aware) =>
      if aware then true
      else (Instant(now.today, now.second) - Instant(day, second)) / SecondsPerDay <= threshold
  }

  /** Every window the filters produce is reported recent, however old its start. */
  lemma AsWrittenAlwaysRecent(s: int, e: int, threshold: int, now: Clock)
    requires ValidateDates(Day(s), Day(e), now).Some?
    ensures IsRecentDateRangeAsWritten(ValidateDates(Day(s), Day(e), now).value.start, threshold, now)
  {
  }

  /** A start 30 days back with a threshold of 7 is still reported recent. */
  lemma AsWrittenOldStartIsRecent(now: Clock)
    ensures IsRecentDateRangeAsWritten(ProcessLastDaysFilter(30, now).start, 7, now)
  {
  }

  /** `is_recent_date_range` as intended: the start is at most `threshold` whole days
    * before now, with both instants read on the same clock. */
  function IsRecentDateRange(start: IsoText, threshold: int, now: Clock): bool {
    match start
    case NoIso => true
    case Malformed(_) => true
    case Iso(day, second, _) =>
      (Instant(now.today, now.second) - Instant(day, second)) / SecondsPerDay <= threshold
  }

  /** A `--last-days N` window is recent exactly when N is within the threshold. */
  lemma LastDaysRecentIff(n: int, threshold: int, now: Clock)
    ensures IsRecentDateRange(ProcessLastDaysFilter(n, now).start, threshold, now) <==> n <= threshold
  {
    var st := ProcessLastDaysFilter(n, now).start;
    assert Instant(now.today, now.second) - Instant(st.day, st.second) == n * SecondsPerDay + now.second;
  }
}

=== FILE: main_script.dfy ===
/** The interactive tweet collector (main.py; old.py is the same file): a fixed
  * content threshold of 10, no language or date filter, the file written under
  * `data/`, and the hashtag and count read from prompts. Link cleaning is the shared
  * `clean_tweet_text`, and the users dictionary is built as in the refactored
  * scraper. */
module MainScript {
  import opened Wrappers
  import opened Strings
  import opened Selection
  import Tally
  import TextUtils
  import TikTokScraper
  import TwitterScraper
  import TwitterScraperV1

  /** The content threshold `is_meaningful_text` hard-codes. */
  const MinTextLength := 10

  /** The cleaned text is never longer than the tweet and is normalised: no edge
    * whitespace and single spaces between words. */
  lemma CleanedTweetNormalized(text: string)
    ensures var r := TextUtils.CleanTweetText(text);
            |r| <= |text| && TextUtils.IsNormalized(r) && (text == [] ==> r == [])
  {
  }

  /** `is_meaningful_text`: `#hashtag` and its lower-case form removed, the rest
    * stripped, at least ten characters and a word character. */
  function IsMeaningfulText(cleanText: string, hashtag: string): (ok: bool)
    ensures var rest := Strip(TwitterScraperV1.HashtagRemainder(cleanText, hashtag));
            ok <==> |rest| >= MinTextLength && HasWordChar(rest)
    ensures ok ==> |cleanText| >= MinTextLength && HasWordChar(cleanText)
  {
    TwitterScraperV1.IsMeaningfulText(cleanText, hashtag, MinTextLength)
  }

  /** A hashtag-only tweet is never meaningful. */
  lemma HashtagAloneRejected(hashtag: string)
    ensures !IsMeaningfulText("#" + hashtag, hashtag)
  {
    var t := "#" + hashtag;
    assert t <= t;
    assert ReplaceAll(t, t, "") == "" + ReplaceAll(t[|t|..], t, "");
    assert t[|t|..] == [];
    ReplaceOfEmpty("#" + Lower(hashtag));
    assert TwitterScraperV1.HashtagRemainder(t, hashtag) == "";
    assert Strip("") == "";
  }

  lemma ReplaceOfEmpty(pat: string)
    requires pat != []
    ensures TextUtils.Delete("", pat) == ""
  {
  }

  /** The search query: the hashtag and the retweet exclusion, no language. */
  function Query(hashtag: string): (q: string)
    ensures |q| == |hashtag| + 13
  {
    "#" + hashtag + " -is:retweet"
  }

  /** For a hashtag without whitespace the query is exactly the two search
    * operators. */
  lemma QueryTokens(hashtag: string)
    requires !HasSpace(hashtag)
    ensures Split(Query(hashtag)) == ["#" + hashtag, "-is:retweet"]
  {
    var a, b := "#" + hashtag, "-is:retweet";
    TwitterScraper.NoSpaceConcat("#", hashtag);
    assert !HasSpace(b);
    assert Query(hashtag) == a + (" " + b);
    SplitTwo(a, b);
  }

  /** Two space-free words joined by one space split back into the two. */
  lemma SplitTwo(a: string, b: string)
    requires a != [] && b != [] && !HasSpace(a) && !HasSpace(b)
    ensures Split(a + (" " + b)) == [a, b]
  {
    SplitOfWord(a, " " + b);
    TwitterScraper.SplitAfterSpace(b);
    SplitOfWord(b, "");
    assert b + "" == b;
  }

  /** The record kept for a tweet. */
  datatype Record = Record(
    id: string, text: string, cleanText: string, textLength: nat, originalLength: nat,
    createdAt: Option<string>, authorId: string, authorUsername: string, authorName: string,
    hashtag: string, lang: Option<string>, hasLinks: bool, meaningfulContent: bool)

  /** The record of a kept tweet: lengths of the cleaned and original text, a link
    * flag, and the author looked up with 'unknown' for a missing one. */
  function BuildRecord(t: TwitterScraper.Tweet, users: map<string, TwitterScraper.Author>, hashtag: string)
    : (r: Record)
    ensures r.cleanText == TextUtils.CleanTweetText(t.text) && r.textLength == |r.cleanText|
    ensures r.textLength <= r.originalLength && r.originalLength == |t.text|
    ensures r.hasLinks <==> Contains(t.text, TextUtils.TcoPrefix)
    ensures t.authorId in users ==> r.authorUsername == users[t.authorId].username
                                    && r.authorName == users[t.authorId].name
    ensures t.authorId !in users ==> r.authorUsername == "unknown" && r.authorName == "unknown"
    ensures r.meaningfulContent && r.hashtag == hashtag && r.id == t.id && r.lang == t.lang
  {
    var clean := TextUtils.CleanTweetText(t.text);
    var author := if t.authorId in users then users[t.authorId] else TwitterScraper.Author("unknown", "unknown");
    Record(t.id, t.text, clean, |clean|, |t.text|, t.createdAt, t.authorId, author.username, author.name,
           hashtag, t.lang, Contains(t.text, TextUtils.TcoPrefix), true)
  }

  /** The fate of one tweet; the content filter is always on. */
  function OutcomeOf(t: TwitterScraper.Tweet, users: map<string, TwitterScraper.Author>, hashtag: string)
    : (o: TwitterScraper.TweetOutcome<Record>)
    ensures o.FailedTweet? <==> t.raises
    ensures o.KeptRecord? <==> !t.raises && IsMeaningfulText(TextUtils.CleanTweetText(t.text), hashtag)
    ensures o.KeptRecord? ==> o.record == BuildRecord(t, users, hashtag)
  {
    if t.raises then TwitterScraper.FailedTweet
    else if IsMeaningfulText(TextUtils.CleanTweetText(t.text), hashtag)
    then TwitterScraper.KeptRecord(BuildRecord(t, users, hashtag))
    else TwitterScraper.DiscardedTweet
  }

  function OutcomeFn(users: map<string, TwitterScraper.Author>, hashtag: string)
    : TwitterScraper.Tweet -> TwitterScraper.TweetOutcome<Record>
  {
    t => OutcomeOf(t, users, hashtag)
  }

  function Outcomes(data: seq<TwitterScraper.Tweet>, users: map<string, TwitterScraper.Author>, hashtag: string)
    : (os: seq<TwitterScraper.TweetOutcome<Record>>)
    ensures |os| == |data|
  {
    MapSeq(OutcomeFn(users, hashtag), data)
  }

  /** `search_hashtag` after the API call: the records of the meaningful tweets in
    * response order and the number discarded; a tweet that throws is neither. */
  method SearchHashtag(response: TwitterScraper.Response, hashtag: string)
    returns (tweets: seq<Record>, discarded: nat)
    ensures var os := Outcomes(response.data, TwitterScraper.UsersDict(response.users), hashtag);
            tweets == TwitterScraper.KeptRecords(os) && discarded == TwitterScraper.CountDiscarded(os)
            && |tweets| + discarded == |response.data| - TwitterScraper.CountFailed(os)
  {
    var users := TwitterScraper.BuildUsersDict(response.users);
    tweets, discarded := TwitterScraper.Partition(response.data, OutcomeFn(users, hashtag));
  }

  /** A record whose cleaned text passed the test. */
  predicate MeaningfulRecord(r: Record, hashtag: string) {
    r.meaningfulContent && r.hashtag == hashtag && IsMeaningfulText(r.cleanText, hashtag)
    && r.textLength >= MinTextLength && r.textLength <= r.originalLength
  }

  /** Every kept record carries at least ten characters of cleaned text besides the
    * hashtag, and the search hashtag. */
  lemma {:induction false} KeptRecordsMeaningful(data: seq<TwitterScraper.Tweet>,
                                                 users: map<string, TwitterScraper.Author>, hashtag: string)
    ensures forall r | r in TwitterScraper.KeptRecords(Outcomes(data, users, hashtag)) :: MeaningfulRecord(r, hashtag)
    decreases |data|
  {
    if data != [] {
      var n := |data| - 1;
      KeptRecordsMeaningful(data[..n], users, hashtag);
      var os := Outcomes(data, users, hashtag);
      MapSeqAt(OutcomeFn(users, hashtag), data, n);
      assert os[..n] == Outcomes(data[..n], users, hashtag);
      var before := TwitterScraper.KeptRecords(os[..n]);
      assert TwitterScraper.KeptRecords(os) == before + if os[n].KeptRecord? then [os[n].record] else [];
      if os[n].KeptRecord? {
        var r := os[n].record;
        assert os[n] == OutcomeOf(data[n], users, hashtag);
        assert r == BuildRecord(data[n], users, hashtag);
        assert IsMeaningfulText(r.cleanText, hashtag);
      }
    }
  }

  // ---------------------------------------------------------------- saving

  function OriginalLengthOf(): Record -> nat {
    (r: Record) => r.originalLength
  }

  function CleanLengthOf(): Record -> nat {
    (r: Record) => r.textLength
  }

  function HasLinksOf(): Record -> bool {
    (r: Record) => r.hasLinks
  }

  function LangOf(): Record -> Option<string> {
    (r: Record) => r.lang
  }

  /** What `save_tweets` writes: the file name, the statistics and the tweets. */
  datatype SavedFile = SavedFile(
    filename: string, hashtag: string, totalTweets: nat, totalOriginalChars: nat, totalCleanChars: nat,
    tweetsWithLinks: nat, tweetsTextOnly: int, languages: seq<(Option<string>, nat)>, tweets: seq<Record>)

  /** The output file name `data/{hashtag}_{timestamp}.json`. */
  function JsonName(hashtag: string, timestamp: string): string {
    "data/" + hashtag + "_" + timestamp + ".json"
  }

  /** `save_tweets`: nothing for no tweets; otherwise the tweets with and without
    * links add up to all of them and the language counts add up to the number of
    * tweets. */
  method SaveTweets(tweets: seq<Record>, hashtag: string, timestamp: string) returns (saved: Option<SavedFile>)
    ensures saved.None? <==> tweets == []
    ensures saved.Some? ==>
              var s := saved.value;
              s.filename == JsonName(hashtag, timestamp) && s.hashtag == hashtag
              && s.totalTweets == |tweets| && s.tweets == tweets
              && s.totalOriginalChars == SumNats(MapSeq(OriginalLengthOf(), tweets))
              && s.totalCleanChars == SumNats(MapSeq(CleanLengthOf(), tweets))
              && s.tweetsWithLinks == Trues(MapSeq(HasLinksOf(), tweets))
              && s.tweetsWithLinks + s.tweetsTextOnly == |tweets| && s.tweetsTextOnly >= 0
              && s.languages == Tally.Tally(MapSeq(LangOf(), tweets)) && Tally.Sum(s.languages) == |tweets|
  {
    if tweets == [] {
      return None;
    }
    var withLinks := Trues(MapSeq(HasLinksOf(), tweets));
    var languages := Tally.CountOccurrences(MapSeq(LangOf(), tweets));
    Tally.TallySum(MapSeq(LangOf(), tweets));
    saved := Some(SavedFile(JsonName(hashtag, timestamp), hashtag, |tweets|,
                            SumNats(MapSeq(OriginalLengthOf(), tweets)), SumNats(MapSeq(CleanLengthOf(), tweets)),
                            withLinks, |tweets| - withLinks, languages, tweets));
  }

  /** The saved records came from the search, so the cleaned total is at most the
    * original total. */
  lemma CleanCharsWithinOriginal(tweets: seq<Record>)
    requires forall k :: 0 <= k < |tweets| ==> tweets[k].textLength <= tweets[k].originalLength
    ensures SumNats(MapSeq(CleanLengthOf(), tweets)) <= SumNats(MapSeq(OriginalLengthOf(), tweets))
  {
    forall k | 0 <= k < |tweets|
      ensures MapSeq(CleanLengthOf(), tweets)[k] <= MapSeq(OriginalLengthOf(), tweets)[k]
    {
      MapSeqAt(CleanLengthOf(), tweets, k);
      MapSeqAt(OriginalLengthOf(), tweets, k);
    }
    SumNatsMonotone(MapSeq(CleanLengthOf(), tweets), MapSeq(OriginalLengthOf(), tweets));
  }

  // ---------------------------------------------------------------- prompts

  predicate AllDigits(s: string) {
    forall k :: 0 <= k < |s| ==> '0' <= s[k] <= '9'
  }

  /** An optional sign then one or more decimal digits. */
  predicate IsSignedDigits(s: string) {
    (s != [] && AllDigits(s)) || (|s| >= 2 && (s[0] == '+' || s[0] == '-') && AllDigits(s[1..]))
  }

  /** `int(s)` on stripped text: an optional sign then one or more decimal digits;
    * anything else is a ValueError, here None. */
  function ParseInt(s: string): (n: Option<int>)
    ensures n.Some? <==> IsSignedDigits(s)
    ensures AllDigits(s) && s != [] ==> n == Some(TikTokScraper.ParseDigits(s))
    ensures |s| >= 2 && s[0] == '-' && AllDigits(s[1..]) ==> n == Some(-(TikTokScraper.ParseDigits(s[1..]) as int))
    ensures |s| >= 2 && s[0] == '+' && AllDigits(s[1..]) ==> n == Some(TikTokScraper.ParseDigits(s[1..]))
  {
    if s != [] && (s[0] == '+' || s[0] == '-') then
      var d := s[1..];
      if d != [] && AllDigits(d) then
        var v: int := TikTokScraper.ParseDigits(d);
        Some(if s[0] == '-' then -v else v)
      else None
    else if s != [] && AllDigits(s) then Some(TikTokScraper.ParseDigits(s))
    else None
  }

  /** The count prompt: 20 for a blank answer or one that is not an integer,
    * otherwise the answer clamped to 10..500. */
  function PromptCount(entered: string): (count: int)
    ensures 10 <= count <= 500
    ensures Strip(entered) == [] || ParseInt(Strip(entered)).None? ==> count == 20
    ensures ParseInt(Strip(entered)).Some? && 10 <= ParseInt(Strip(entered)).value <= 500 ==>
              count == ParseInt(Strip(entered)).value
    ensures ParseInt(Strip(entered)).Some? && ParseInt(Strip(entered)).value < 10 ==> count == 10
    ensures ParseInt(Strip(entered)).Some? && ParseInt(Strip(entered)).value > 500 ==> count == 500
  {
    var t := Strip(entered);
    if t == [] then 20
    else match ParseInt(t)
      case None => 20
      case Some(n) => if n < 10 then 10 else if n > 500 then 500 else n
  }

  /** Typing a count in range gives that count. */
  lemma PromptCountInRange(n: nat)
    requires 10 <= n <= 500
    ensures PromptCount(TikTokScraper.NatToString(n)) == n
  {
    var s := TikTokScraper.NatToString(n);
    assert '0' <= s[0] <= '9' && '0' <= s[|s| - 1] <= '9';
    StripOfTrimmed(s);
    TikTokScraper.ParseNatToString(n);
  }

  /** The hashtag prompt as written: the answer is stripped and checked for emptiness
    * before its leading `#` are removed. None is the early return. */
  function PromptHashtagAsWritten(entered: string): (h: Option<string>)
    ensures h.None? <==> Strip(entered) == []
    ensures h.Some? ==> h.value == LStripChar(Strip(entered), '#')
    ensures h == TwitterScraperV1.ResolveHashtagAsWritten("", false, entered)
  {
    var given := Strip(entered);
    if given == [] then None else Some(LStripChar(given, '#'))
  }

  /** Answering `#` searches for the empty hashtag. */
  lemma PromptHashAloneAccepted()
    ensures PromptHashtagAsWritten("#") == Some("")
  {
    assert Strip("#") == "#" by {
      assert LStrip("#") == "#";
      assert RStrip("#") == "#";
    }
    assert LStripChar("#", '#') == LStripChar("", '#');
  }

  /** The evidently intended prompt: empty once the `#` are removed is refused too,
    * so the search hashtag is never empty; otherwise it is the as-written one. */
  function PromptHashtag(entered: string): (h: Option<string>)
    ensures h.Some? ==> h.value != [] && h.value[0] != '#' && h == PromptHashtagAsWritten(entered)
    ensures h.None? <==> LStripChar(Strip(entered), '#') == []
  {
    var given := LStripChar(Strip(entered), '#');
    if given == [] then None else Some(given)
  }
}

=== FILE: selection.dfy ===
/** The shape shared by the video search loops: walk the stream the SDK yields,
  * count every item as processed, keep the items that pass the filters, and stop
  * once `count` items are kept or `limit` items are processed. */
module Selection {

  /** Number of items the loop processes when it resumes at index `i` having kept
    * `kept` items so far. */
  function StopFrom(flags: seq<bool>, count: int, limit: int, i: nat, kept: nat): (n: nat)
    requires i <= |flags|
    ensures i <= n <= |flags|
    decreases |flags| - i
  {
    if i == |flags| then i
    else
      var k := kept + (if flags[i] then 1 else 0);
      if (flags[i] && k >= count) || i + 1 >= limit then i + 1
      else StopFrom(flags, count, limit, i + 1, k)
  }

  /** Number of items processed from a stream whose items pass as `flags` says. */
  function Processed(flags: seq<bool>, count: int, limit: int): nat {
    StopFrom(flags, count, limit, 0, 0)
  }

  /** Number of passing items. */
  function Trues(flags: seq<bool>): (n: nat)
    ensures n <= |flags|
  {
    if flags == [] then 0 else Trues(flags[..|flags| - 1]) + (if flags[|flags| - 1] then 1 else 0)
  }

  /** Positions of the passing items. */
  function Indices(flags: seq<bool>): (idx: seq<nat>)
    ensures |idx| == Trues(flags)
  {
    if flags == [] then []
    else
      var n := |flags| - 1;
      Indices(flags[..n]) + (if flags[n] then [n] else [])
  }

  /** The positions are exactly those of the passing items, in increasing order. */
  lemma {:induction false} IndicesExact(flags: seq<bool>)
    ensures var idx := Indices(flags);
            (forall k :: 0 <= k < |idx| ==> idx[k] < |flags| && flags[idx[k]])
            && (forall k, l :: 0 <= k < l < |idx| ==> idx[k] < idx[l])
            && (forall j :: 0 <= j < |flags| && flags[j] ==> j in idx)
    decreases |flags|
  {
    if flags != [] {
      var n := |flags| - 1;
      IndicesExact(flags[..n]);
      assert forall j :: 0 <= j < n ==> flags[..n][j] == flags[j];
    }
  }

  /** The passing items, in stream order. */
  function Selected<T>(xs: seq<T>, flags: seq<bool>): (r: seq<T>)
    requires |xs| == |flags|
    ensures |r| == Trues(flags)
  {
    if xs == [] then []
    else
      var n := |xs| - 1;
      Selected(xs[..n], flags[..n]) + (if flags[n] then [xs[n]] else [])
  }

  /** The `k`-th selected item is the item at the `k`-th passing position. */
  lemma {:induction false} SelectedAtIndices<T>(xs: seq<T>, flags: seq<bool>)
    requires |xs| == |flags|
    ensures var r := Selected(xs, flags);
            forall k :: 0 <= k < |r| ==> Indices(flags)[k] < |xs| && r[k] == xs[Indices(flags)[k]]
    decreases |xs|
  {
    IndicesExact(flags);
    if xs != [] {
      var n := |xs| - 1;
      SelectedAtIndices(xs[..n], flags[..n]);
      IndicesExact(flags[..n]);
    }
  }

  /** Selecting from a prefix of the stream gives a prefix of the selection. */
  lemma {:induction false} SelectedPrefix<T>(xs: seq<T>, flags: seq<bool>, j: nat)
    requires |xs| == |flags| && j <= |xs|
    ensures Selected(xs[..j], flags[..j]) <= Selected(xs, flags)
    decreases |xs|
  {
    if j < |xs| {
      var n := |xs| - 1;
      assert xs[..n][..j] == xs[..j];
      assert flags[..n][..j] == flags[..j];
      SelectedPrefix(xs[..n], flags[..n], j);
    } else {
      assert xs[..j] == xs && flags[..j] == flags;
    }
  }

  /** Extending the stream by one item extends the selection by that item when it passes. */
  lemma SelectedStep<T>(xs: seq<T>, flags: seq<bool>, i: nat)
    requires |xs| == |flags| && i < |xs|
    ensures Selected(xs[..i + 1], flags[..i + 1])
            == Selected(xs[..i], flags[..i]) + (if flags[i] then [xs[i]] else [])
  {
    assert xs[..i + 1][..i] == xs[..i];
    assert flags[..i + 1][..i] == flags[..i];
  }

  /** One step of the loop: it stops after item `i` or goes on with the updated count. */
  lemma StopFromStep(flags: seq<bool>, count: int, limit: int, i: nat, kept: nat)
    requires i < |flags|
    ensures var k := kept + (if flags[i] then 1 else 0);
            StopFrom(flags, count, limit, i, kept)
            == if (flags[i] && k >= count) || i + 1 >= limit then i + 1
               else StopFrom(flags, count, limit, i + 1, k)
  {
  }

  /** One iteration of a take-while loop: the item's verdict `pass` and its value `v`
    * extend the selection, and the loop either stops after this item, having
    * processed `i + 1`, or goes on with the new count. */
  lemma AdvanceLoop<T>(all: seq<T>, flags: seq<bool>, count: int, limit: int, i: nat, kept: seq<T>, pass: bool, v: T)
    requires |all| == |flags| && i < |flags| && flags[i] == pass && (pass ==> v == all[i])
    requires kept == Selected(all[..i], flags[..i])
    requires Processed(flags, count, limit) == StopFrom(flags, count, limit, i, |kept|)
    ensures var next := if pass then kept + [v] else kept;
            next == Selected(all[..i + 1], flags[..i + 1])
            && (if (pass && |next| >= count) || i + 1 >= limit then Processed(flags, count, limit) == i + 1
                else Processed(flags, count, limit) == StopFrom(flags, count, limit, i + 1, |next|))
  {
    SelectedStep(all, flags, i);
    StopFromStep(flags, count, limit, i, |kept|);
  }

  lemma {:induction false} StopWithinLimit(flags: seq<bool>, count: int, limit: int, i: nat, kept: nat)
    requires i <= |flags| && i < limit
    ensures StopFrom(flags, count, limit, i, kept) <= limit
    decreases |flags| - i
  {
    if i < |flags| {
      var k := kept + (if flags[i] then 1 else 0);
      if !((flags[i] && k >= count) || i + 1 >= limit) {
        StopWithinLimit(flags, count, limit, i + 1, k);
      }
    }
  }

  /** The loop never processes more than `limit` items. */
  lemma ProcessedWithinLimit(flags: seq<bool>, count: int, limit: int)
    requires limit >= 1
    ensures Processed(flags, count, limit) <= limit
  {
    StopWithinLimit(flags, count, limit, 0, 0);
  }

  lemma {:induction false} StopKeepsAtMostCount(flags: seq<bool>, count: int, limit: int, i: nat, kept: nat)
    requires i <= |flags| && kept == Trues(flags[..i]) && kept < count
    ensures Trues(flags[..StopFrom(flags, count, limit, i, kept)]) <= count
    decreases |flags| - i
  {
    if i < |flags| {
      var k := kept + (if flags[i] then 1 else 0);
      assert flags[..i + 1][..i] == flags[..i];
      assert Trues(flags[..i + 1]) == k;
      if !((flags[i] && k >= count) || i + 1 >= limit) {
        StopKeepsAtMostCount(flags, count, limit, i + 1, k);
      }
    }
  }

  /** When at least one item is wanted, the loop keeps at most `count` of them. */
  lemma KeptAtMostCount(flags: seq<bool>, count: int, limit: int)
    requires count >= 1
    ensures Trues(flags[..Processed(flags, count, limit)]) <= count
  {
    assert flags[..0] == [];
    StopKeepsAtMostCount(flags, count, limit, 0, 0);
  }

  /** The loop stops at the first item after which `count` items are kept or `limit`
    * items are processed, and runs to the end of the stream when there is none. */
  predicate StopsAfter(flags: seq<bool>, count: int, limit: int, n: nat)
    requires 1 <= n <= |flags|
  {
    (flags[n - 1] && Trues(flags[..n]) >= count) || n >= limit
  }

  lemma {:induction false} StopIsFirst(flags: seq<bool>, count: int, limit: int, i: nat, kept: nat)
    requires i <= |flags| && kept == Trues(flags[..i])
    ensures var p := StopFrom(flags, count, limit, i, kept);
            (p == |flags| || (p >= 1 && StopsAfter(flags, count, limit, p)))
            && forall n :: i < n < p ==> !StopsAfter(flags, count, limit, n)
    decreases |flags| - i
  {
    if i < |flags| {
      var k := kept + (if flags[i] then 1 else 0);
      assert flags[..i + 1][..i] == flags[..i];
      assert Trues(flags[..i + 1]) == k;
      if !((flags[i] && k >= count) || i + 1 >= limit) {
        StopIsFirst(flags, count, limit, i + 1, k);
      }
    }
  }

  /** Characterises the number of processed items independently of the loop. */
  lemma ProcessedIsFirstStop(flags: seq<bool>, count: int, limit: int)
    ensures var p := Processed(flags, count, limit);
            (p == |flags| || (p >= 1 && StopsAfter(flags, count, limit, p)))
            && forall n :: 0 < n < p ==> !StopsAfter(flags, count, limit, n)
  {
    assert flags[..0] == [];
    StopIsFirst(flags, count, limit, 0, 0);
  }

  /** `[f(x) for x in xs]`, built from the back so that only the element asked for
    * is computed. */
  function MapSeq<A, B>(f: A -> B, xs: seq<A>): (ys: seq<B>)
    ensures |ys| == |xs|
  {
    if xs == [] then [] else MapSeq(f, xs[..|xs| - 1]) + [f(xs[|xs| - 1])]
  }

  lemma {:induction false} MapSeqAt<A, B>(f: A -> B, xs: seq<A>, i: nat)
    requires i < |xs|
    ensures MapSeq(f, xs)[i] == f(xs[i])
    decreases |xs|
  {
    var n := |xs| - 1;
    if i < n {
      MapSeqAt(f, xs[..n], i);
    }
  }

  /** Two functions that agree on every item map a sequence alike. */
  lemma MapSeqCongruent<A, B>(f: A -> B, g: A -> B, xs: seq<A>)
    requires forall i :: 0 <= i < |xs| ==> f(xs[i]) == g(xs[i])
    ensures MapSeq(f, xs) == MapSeq(g, xs)
  {
    forall i | 0 <= i < |xs|
      ensures MapSeq(f, xs)[i] == MapSeq(g, xs)[i]
    {
      MapSeqAt(f, xs, i);
      MapSeqAt(g, xs, i);
    }
  }

  /** `sum(xs)`. */
  function SumNats(xs: seq<nat>): nat {
    if xs == [] then 0 else SumNats(xs[..|xs| - 1]) + xs[|xs| - 1]
  }

  /** A sum of terms each no larger than its partner is no larger. */
  lemma {:induction false} SumNatsMonotone(xs: seq<nat>, ys: seq<nat>)
    requires |xs| == |ys| && forall k :: 0 <= k < |xs| ==> xs[k] <= ys[k]
    ensures SumNats(xs) <= SumNats(ys)
    decreases |xs|
  {
    if xs != [] {
      var n := |xs| - 1;
      SumNatsMonotone(xs[..n], ys[..n]);
    }
  }

  /** With every item passing, the selection is the whole stream. */
  lemma {:induction false} SelectedAll<T>(xs: seq<T>, flags: seq<bool>)
    requires |xs| == |flags| && forall k :: 0 <= k < |flags| ==> flags[k]
    ensures Selected(xs, flags) == xs
    decreases |xs|
  {
    if xs != [] {
      var n := |xs| - 1;
      SelectedAll(xs[..n], flags[..n]);
      assert xs[..n] + [xs[n]] == xs;
    }
  }

  /** When no item from `i` on passes, the loop runs on until the stream ends or
    * `limit` items are processed, always processing the item it resumes at. */
  lemma {:induction false} StopFromNonePass(flags: seq<bool>, count: int, limit: int, i: nat, kept: nat)
    requires i < |flags| && forall k :: i <= k < |flags| ==> !flags[k]
    ensures StopFrom(flags, count, limit, i, kept) == if i + 1 >= limit then i + 1
                                                     else if limit < |flags| then limit else |flags|
    decreases |flags| - i
  {
    if i + 1 < limit && i + 1 < |flags| {
      StopFromNonePass(flags, count, limit, i + 1, kept);
    }
  }

  /** When no item passes, the loop keeps nothing and processes `limit` items, or
    * the whole stream when it is shorter. */
  lemma NonePassProcessesToLimit<T>(xs: seq<T>, flags: seq<bool>, count: int, limit: int)
    requires |xs| == |flags| && limit >= 1 && forall k :: 0 <= k < |flags| ==> !flags[k]
    ensures var p := Processed(flags, count, limit);
            p == (if limit < |flags| then limit else |flags|) && Selected(xs[..p], flags[..p]) == []
  {
    var p := Processed(flags, count, limit);
    if flags != [] {
      StopFromNonePass(flags, count, limit, 0, 0);
    }
    NoneTrue(flags[..p]);
  }

  lemma {:induction false} NoneTrue(flags: seq<bool>)
    requires forall k :: 0 <= k < |flags| ==> !flags[k]
    ensures Trues(flags) == 0
    decreases |flags|
  {
    if flags != [] {
      NoneTrue(flags[..|flags| - 1]);
    }
  }

  /** Extending the stream by one item adds that item's flag to the count. */
  lemma TruesStep(flags: seq<bool>, i: nat)
    requires i < |flags|
    ensures Trues(flags[..i + 1]) == Trues(flags[..i]) + (if flags[i] then 1 else 0)
  {
    assert flags[..i + 1][..i] == flags[..i];
  }

  /** The `k`-th passing position holds a passing item. */
  lemma IndexPasses(flags: seq<bool>, k: nat)
    requires k < |Indices(flags)|
    ensures Indices(flags)[k] < |flags| && flags[Indices(flags)[k]]
  {
    IndicesExact(flags);
  }

  /** The take-while loop over a stream whose per-item work is a pure function:
    * `pass` decides whether an item is kept and `make` what is stored for it; the
    * loop stops once `count` items are kept or `limit` are processed. */
  method CollectWhile<R, T>(stream: seq<R>, pass: R -> bool, make: R -> T, count: int, limit: int)
    returns (kept: seq<T>, processed: nat)
    ensures processed == Processed(MapSeq(pass, stream), count, limit)
    ensures kept == Selected(MapSeq(make, stream)[..processed], MapSeq(pass, stream)[..processed])
    ensures count >= 1 ==> |kept| <= count
    ensures limit >= 1 ==> processed <= limit
  {
    ghost var flags := MapSeq(pass, stream);
    ghost var all := MapSeq(make, stream);
    kept := [];
    processed := 0;
    var n := 0;
    var i := 0;
    while i < |stream|
      invariant 0 <= i <= |stream| && processed == i
      invariant kept == Selected(all[..i], flags[..i]) && n == |kept|
      invariant Processed(flags, count, limit) == StopFrom(flags, count, limit, i, n)
    {
      MapSeqAt(pass, stream, i);
      MapSeqAt(make, stream, i);
      AdvanceLoop(all, flags, count, limit, i, kept, pass(stream[i]), make(stream[i]));
      processed := processed + 1;
      if pass(stream[i]) {
        kept := kept + [make(stream[i])];
        n := n + 1;
        if n >= count {
          break;
        }
      }
      if processed >= limit {
        break;
      }
      i := i + 1;
    }
    if count >= 1 {
      KeptAtMostCount(flags, count, limit);
    }
    if limit >= 1 {
      ProcessedWithinLimit(flags, count, limit);
    }
  }
}


=== FILE: strings.dfy ===
/** Python string primitives the scrapers rely on: the character classes of `\s` and
  * `\w`, `lower()`, `strip()`, `lstrip(c)`, `replace`, `count`, the `in` test and
  * `split()`. Strings are sequences of characters. */
module Strings {

  /** `str.isspace()`, which is also what the regex class `\s` matches. */
  predicate IsSpace(c: char) {
    var n := c as int;
    (9 <= n <= 13) || (28 <= n <= 32) || n == 0x85 || n == 0xA0 || n == 0x1680
    || (0x2000 <= n <= 0x200A) || n == 0x2028 || n == 0x2029 || n == 0x202F
    || n == 0x205F || n == 0x3000
  }

  /** The regex class `\w`: letters, digits and the underscore. Letters are those of
    * ASCII and Latin-1, which covers the Italian and English text the scrapers read. */
  predicate IsWordChar(c: char) {
    var n := c as int;
    ('a' <= c <= 'z') || ('A' <= c <= 'Z') || ('0' <= c <= '9') || c == '_'
    || n == 0xAA || n == 0xB2 || n == 0xB3 || n == 0xB5 || n == 0xB9 || n == 0xBA
    || (0xBC <= n <= 0xBE) || (0xC0 <= n <= 0xD6) || (0xD8 <= n <= 0xF6) || (0xF8 <= n <= 0xFF)
  }

  lemma SpaceIsNotWord(c: char)
    ensures IsSpace(c) ==> !IsWordChar(c)
  {
  }

  predicate HasWordChar(s: string) {
    exists i :: 0 <= i < |s| && IsWordChar(s[i])
  }

  predicate AllSpaces(s: string) {
    forall i :: 0 <= i < |s| ==> IsSpace(s[i])
  }

  /** `str.lower()` on one character (ASCII and Latin-1 capitals). */
  function LowerChar(c: char): char {
    if 'A' <= c <= 'Z' || (0xC0 <= c as int <= 0xDE && c as int != 0xD7)
    then (c as int + 32) as char
    else c
  }

  function Lower(s: string): (r: string)
    ensures |r| == |s|
    ensures forall i :: 0 <= i < |s| ==> r[i] == LowerChar(s[i])
  {
    seq(|s|, i requires 0 <= i < |s| => LowerChar(s[i]))
  }

  /** Number of leading characters of `s` that are whitespace. */
  function SpaceRunLen(s: string): (n: nat)
    ensures n <= |s|
    ensures forall i :: 0 <= i < n ==> IsSpace(s[i])
    ensures n < |s| ==> !IsSpace(s[n])
  {
    if s != [] && IsSpace(s[0]) then 1 + SpaceRunLen(s[1..]) else 0
  }

  /** Number of leading characters of `s` that are word characters. */
  function WordRunLen(s: string): (n: nat)
    ensures n <= |s|
    ensures forall i :: 0 <= i < n ==> IsWordChar(s[i])
    ensures n < |s| ==> !IsWordChar(s[n])
  {
    if s != [] && IsWordChar(s[0]) then 1 + WordRunLen(s[1..]) else 0
  }

  /** Number of leading characters of `s` that are not whitespace. */
  function NonSpaceRunLen(s: string): (n: nat)
    ensures n <= |s|
    ensures forall i :: 0 <= i < n ==> !IsSpace(s[i])
    ensures n < |s| ==> IsSpace(s[n])
  {
    if s != [] && !IsSpace(s[0]) then 1 + NonSpaceRunLen(s[1..]) else 0
  }

  /** Number of trailing characters of `s` that are whitespace. */
  function TrailingSpaceLen(s: string): (n: nat)
    ensures n <= |s|
    ensures forall i :: |s| - n <= i < |s| ==> IsSpace(s[i])
    ensures n < |s| ==> !IsSpace(s[|s| - 1 - n])
  {
    if s != [] && IsSpace(s[|s| - 1]) then 1 + TrailingSpaceLen(s[..|s| - 1]) else 0
  }

  /** Where `str.strip()` starts: after the leading whitespace. */
  function StripStart(s: string): (i: nat)
    ensures i <= |s| && AllSpaces(s[..i])
    ensures i < |s| ==> !IsSpace(s[i])
  {
    SpaceRunLen(s)
  }

  /** Where `str.strip()` ends: before the trailing whitespace. */
  function StripEnd(s: string): (j: nat)
    ensures StripStart(s) <= j <= |s| && AllSpaces(s[j..])
    ensures StripStart(s) < j ==> !IsSpace(s[j - 1])
  {
    var i := StripStart(s);
    var t := s[i..];
    var j := i + |t| - TrailingSpaceLen(t);
    assert s[j..] == t[|t| - TrailingSpaceLen(t)..];
    j
  }

  /** `str.lstrip()`: drops the leading whitespace. */
  function LStrip(s: string): (r: string)
    ensures |r| <= |s|
    decreases |s|
  {
    if s != [] && IsSpace(s[0]) then LStrip(s[1..]) else s
  }

  /** `str.rstrip()`: drops the trailing whitespace. */
  function RStrip(s: string): (r: string)
    ensures |r| <= |s|
    decreases |s|
  {
    if s != [] && IsSpace(s[|s| - 1]) then RStrip(s[..|s| - 1]) else s
  }

  /** `str.strip()`: drops whitespace from both ends. */
  function Strip(s: string): string {
    RStrip(LStrip(s))
  }

  lemma {:induction false} LStripIsSuffix(s: string)
    ensures LStrip(s) == s[SpaceRunLen(s)..]
    decreases |s|
  {
    if s != [] && IsSpace(s[0]) {
      LStripIsSuffix(s[1..]);
      assert s[1..][SpaceRunLen(s[1..])..] == s[SpaceRunLen(s)..];
    }
  }

  lemma {:induction false} RStripIsPrefix(s: string)
    ensures RStrip(s) == s[..|s| - TrailingSpaceLen(s)]
    decreases |s|
  {
    if s != [] && IsSpace(s[|s| - 1]) {
      var n := |s| - 1;
      RStripIsPrefix(s[..n]);
      assert s[..n][..n - TrailingSpaceLen(s[..n])] == s[..|s| - TrailingSpaceLen(s)];
    }
  }

  /** The stripped text is the slice between the leading and the trailing whitespace. */
  lemma StripIsSlice(s: string)
    ensures Strip(s) == s[StripStart(s)..StripEnd(s)]
  {
    var i := StripStart(s);
    var t := s[i..];
    LStripIsSuffix(s);
    RStripIsPrefix(t);
    assert t[..|t| - TrailingSpaceLen(t)] == s[i..StripEnd(s)];
  }

  /** No whitespace at either end. */
  predicate NoEdgeSpace(r: string) {
    r == [] || (!IsSpace(r[0]) && !IsSpace(r[|r| - 1]))
  }

  /** What the callers of `strip()` rely on: a slice of the input with no whitespace
    * at either edge, empty exactly when the input is all whitespace. */
  lemma StripFacts(s: string)
    ensures Strip(s) == s[StripStart(s)..StripEnd(s)]
    ensures NoEdgeSpace(Strip(s))
    ensures AllSpaces(s) <==> Strip(s) == []
  {
    StripIsSlice(s);
    var i, j := StripStart(s), StripEnd(s);
    var r := s[i..j];
    if i < j {
      assert r[0] == s[i] && r[|r| - 1] == s[j - 1];
      assert NoEdgeSpace(r);
      assert !AllSpaces(s) by { assert !IsSpace(s[i]); }
    } else {
      assert i == |s|;
      assert AllSpaces(s) by {
        forall x | 0 <= x < |s| ensures IsSpace(s[x]) {
          assert s[..i][x] == s[x];
        }
      }
    }
  }

  /** Text with no whitespace at either end is left as it is by `strip()`. */
  lemma StripOfTrimmed(s: string)
    requires NoEdgeSpace(s)
    ensures Strip(s) == s
  {
    assert LStrip(s) == s;
    assert RStrip(s) == s;
  }

  /** `str.lstrip(c)` for a one-character argument: drops the leading copies of `c`. */
  function LStripChar(s: string, c: char): (r: string)
    ensures |r| <= |s| && r == s[|s| - |r|..]
    ensures r == [] || r[0] != c
    ensures forall i :: 0 <= i < |s| - |r| ==> s[i] == c
  {
    if s != [] && s[0] == c then LStripChar(s[1..], c) else s
  }

  /** `s.replace(pat, rep)`: every non-overlapping occurrence of `pat`, scanning from
    * the left, is replaced by `rep`. */
  function ReplaceAll(s: string, pat: string, rep: string): string
    requires pat != []
    decreases |s|
  {
    if s == [] then []
    else if pat <= s then rep + ReplaceAll(s[|pat|..], pat, rep)
    else [s[0]] + ReplaceAll(s[1..], pat, rep)
  }

  /** `s.count(pat)`: the number of non-overlapping occurrences of `pat`. */
  function Count(s: string, pat: string): nat
    requires pat != []
    decreases |s|
  {
    if s == [] then 0
    else if pat <= s then 1 + Count(s[|pat|..], pat)
    else Count(s[1..], pat)
  }

  /** `pat in s`. */
  predicate Contains(s: string, pat: string)
    decreases |s|
  {
    pat <= s || (s != [] && Contains(s[1..], pat))
  }

  /** `replace` and `count` scan the same occurrences: the result's length changes by
    * the length difference once per occurrence. */
  lemma {:induction false} ReplaceAllLength(s: string, pat: string, rep: string)
    requires pat != []
    ensures |ReplaceAll(s, pat, rep)| == |s| + (|rep| - |pat|) * Count(s, pat)
    decreases |s|
  {
    if s == [] {
    } else if pat <= s {
      var rest := s[|pat|..];
      ReplaceAllLength(rest, pat, rep);
      var d, c := |rep| - |pat|, Count(rest, pat);
      assert |ReplaceAll(s, pat, rep)| == |rep| + |ReplaceAll(rest, pat, rep)|;
      assert Count(s, pat) == 1 + c && |s| == |pat| + |rest|;
      MulSucc(d, c);
    } else {
      ReplaceAllLength(s[1..], pat, rep);
      assert |ReplaceAll(s, pat, rep)| == 1 + |ReplaceAll(s[1..], pat, rep)|;
      assert Count(s, pat) == Count(s[1..], pat);
    }
  }

  lemma MulSucc(d: int, c: int)
    ensures d * (1 + c) == d + d * c
  {
  }

  lemma {:induction false} CountPositiveIffContains(s: string, pat: string)
    requires pat != []
    ensures Count(s, pat) > 0 <==> Contains(s, pat)
    decreases |s|
  {
    if s == [] {
    } else if pat <= s {
    } else {
      CountPositiveIffContains(s[1..], pat);
    }
  }

  /** Replacing a pattern that does not occur leaves the text as it is. */
  lemma {:induction false} ReplaceAbsent(s: string, pat: string, rep: string)
    requires pat != [] && !Contains(s, pat)
    ensures ReplaceAll(s, pat, rep) == s
    decreases |s|
  {
    if s != [] {
      ReplaceAbsent(s[1..], pat, rep);
    }
  }

  /** An occurrence at any position counts as `pat in s`. */
  lemma {:induction false} ContainsAt(s: string, pat: string, i: nat)
    requires i <= |s| && pat <= s[i..]
    ensures Contains(s, pat)
    decreases i
  {
    if i > 0 {
      assert s[1..][i - 1..] == s[i..];
      ContainsAt(s[1..], pat, i - 1);
    }
  }

  /** A text containing `a + b` contains `b`. */
  lemma {:induction false} ContainsTail(s: string, a: string, b: string)
    requires Contains(s, a + b)
    ensures Contains(s, b)
    decreases |s|
  {
    if a + b <= s {
      assert b <= s[|a|..];
      ContainsAt(s, b, |a|);
    } else {
      ContainsTail(s[1..], a, b);
    }
  }

  /** Deleting occurrences only removes characters: a word character of the result
    * was already in the input. */
  lemma {:induction false} DeleteKeepsCharacters(s: string, pat: string, c: char)
    requires pat != []
    ensures c in ReplaceAll(s, pat, "") ==> c in s
    decreases |s|
  {
    if s == [] {
    } else if pat <= s {
      DeleteKeepsCharacters(s[|pat|..], pat, c);
    } else {
      DeleteKeepsCharacters(s[1..], pat, c);
    }
  }

  /** The position after the maximal non-space run that starts at `s[0]`. */
  function WordEnd(s: string): (e: nat)
    requires s != [] && !IsSpace(s[0])
    ensures 0 < e <= |s|
  {
    NonSpaceRunLen(s)
  }

  /** `str.split()` with no argument: the maximal runs of non-whitespace characters. */
  function Split(s: string): (ws: seq<string>)
    ensures forall k :: 0 <= k < |ws| ==> ws[k] != [] && !HasSpace(ws[k])
    decreases |s|
  {
    if s == [] then []
    else if IsSpace(s[0]) then Split(s[1..])
    else
      var e := WordEnd(s);
      [s[..e]] + Split(s[e..])
  }

  predicate HasSpace(s: string) {
    exists i :: 0 <= i < |s| && IsSpace(s[i])
  }

  /** A word with no whitespace, followed by whitespace or nothing, is one token. */
  lemma {:induction false} NonSpaceRunOfWord(w: string, rest: string)
    requires !HasSpace(w) && (rest == [] || IsSpace(rest[0]))
    ensures NonSpaceRunLen(w + rest) == |w|
    decreases |w|
  {
    if w != [] {
      assert !IsSpace(w[0]);
      assert (w + rest)[1..] == w[1..] + rest;
      assert !HasSpace(w[1..]) by {
        forall i | 0 <= i < |w[1..]| ensures !IsSpace(w[1..][i]) {
          assert w[1..][i] == w[i + 1];
        }
      }
      NonSpaceRunOfWord(w[1..], rest);
    } else {
      assert w + rest == rest;
    }
  }

  /** `split()` of a word followed by whitespace-led text yields the word first. */
  lemma SplitOfWord(w: string, rest: string)
    requires w != [] && !HasSpace(w) && (rest == [] || IsSpace(rest[0]))
    ensures Split(w + rest) == [w] + Split(rest)
  {
    var s := w + rest;
    NonSpaceRunOfWord(w, rest);
    assert s[0] == w[0];
    assert s[..|w|] == w && s[|w|..] == rest;
  }
}

=== FILE: tally.dfy ===
/** A Python dict used as a counter (`freq[k] = freq.get(k, 0) + 1`), kept as its
  * entries in insertion order, as Python dicts iterate; and the "top N by count"
  * selection `dict(sorted(freq.items(), key=count, reverse=True)[:N])`. */
module Tally {

  /** Number of times `k` occurs in `keys`. */
  function Occurrences<K(==)>(keys: seq<K>, k: K): nat {
    if keys == [] then 0
    else Occurrences(keys[..|keys| - 1], k) + (if keys[|keys| - 1] == k then 1 else 0)
  }

  /** Position of the entry for `k`, or -1 (the dict lookup). */
  function IndexOf<K(==)>(t: seq<(K, nat)>, k: K): (i: int)
    ensures -1 <= i < |t|
    ensures i >= 0 ==> t[i].0 == k
    ensures i < 0 ==> forall j :: 0 <= j < |t| ==> t[j].0 != k
  {
    if t == [] then -1
    else if t[|t| - 1].0 == k then |t| - 1
    else IndexOf(t[..|t| - 1], k)
  }

  /** One counting step: increment the entry for `k`, or add it with count 1. */
  function Bump<K(==)>(t: seq<(K, nat)>, k: K): seq<(K, nat)> {
    var i := IndexOf(t, k);
    if i >= 0 then t[i := (k, t[i].1 + 1)] else t + [(k, 1)]
  }

  /** The counter after counting every key of `keys` in order. */
  function Tally<K(==)>(keys: seq<K>): seq<(K, nat)> {
    if keys == [] then [] else Bump(Tally(keys[..|keys| - 1]), keys[|keys| - 1])
  }

  predicate DistinctKeys<K(==)>(t: seq<(K, nat)>) {
    forall i, j :: 0 <= i < j < |t| ==> t[i].0 != t[j].0
  }

  function Sum<K>(t: seq<(K, nat)>): nat {
    if t == [] then 0 else Sum(t[..|t| - 1]) + t[|t| - 1].1
  }

  function Keys<K>(t: seq<(K, nat)>): set<K> {
    set i | 0 <= i < |t| :: t[i].0
  }

  lemma {:induction false} OccurrencesPositive<K>(keys: seq<K>, k: K)
    ensures Occurrences(keys, k) > 0 <==> k in keys
  {
    if keys != [] {
      var n := |keys| - 1;
      OccurrencesPositive(keys[..n], k);
      assert keys == keys[..n] + [keys[n]];
    }
  }

  /** Each key occurs once, each count is the number of occurrences, and exactly the
    * keys that occur have an entry. */
  lemma {:induction false} TallyCounts<K>(keys: seq<K>)
    ensures DistinctKeys(Tally(keys))
    ensures forall j :: 0 <= j < |Tally(keys)| ==> Tally(keys)[j].1 == Occurrences(keys, Tally(keys)[j].0)
    ensures Keys(Tally(keys)) == set k | k in keys
  {
    if keys != [] {
      var n := |keys| - 1;
      var pre := keys[..n];
      var k := keys[n];
      TallyCounts(pre);
      assert keys == pre + [k];
      BumpCounts(Tally(pre), pre, k);
      BumpKeys(Tally(pre), k);
    }
  }

  /** Counting one more key adds it to the keys. */
  lemma BumpKeys<K>(t: seq<(K, nat)>, k: K)
    ensures Keys(Bump(t, k)) == Keys(t) + {k}
  {
    var i := IndexOf(t, k);
    var u := Bump(t, k);
    if i >= 0 {
      forall x | x in Keys(u) ensures x in Keys(t) + {k} {
        var j :| 0 <= j < |u| && u[j].0 == x;
        assert j != i ==> u[j] == t[j];
      }
      forall x | x in Keys(t) + {k} ensures x in Keys(u) {
        if x != k {
          var j :| 0 <= j < |t| && t[j].0 == x;
          assert u[j] == t[j];
        } else {
          assert u[i].0 == k;
        }
      }
    } else {
      assert u == t + [(k, 1)];
      forall x | x in Keys(u) ensures x in Keys(t) + {k} {
        var j :| 0 <= j < |u| && u[j].0 == x;
        assert j < |t| ==> u[j] == t[j];
      }
      forall x | x in Keys(t) + {k} ensures x in Keys(u) {
        if x != k {
          var j :| 0 <= j < |t| && t[j].0 == x;
          assert u[j] == t[j];
        } else {
          assert u[|t|].0 == k;
        }
      }
    }
  }

  /** Counting one more key keeps the keys distinct and the counts exact. */
  lemma BumpCounts<K>(t: seq<(K, nat)>, pre: seq<K>, k: K)
    requires DistinctKeys(t) && Keys(t) == set x | x in pre
    requires forall j :: 0 <= j < |t| ==> t[j].1 == Occurrences(pre, t[j].0)
    ensures DistinctKeys(Bump(t, k))
    ensures forall j :: 0 <= j < |Bump(t, k)| ==> Bump(t, k)[j].1 == Occurrences(pre + [k], Bump(t, k)[j].0)
  {
    var i := IndexOf(t, k);
    var u := Bump(t, k);
    assert (pre + [k])[..|pre|] == pre;
    assert forall x :: Occurrences(pre + [k], x) == Occurrences(pre, x) + (if k == x then 1 else 0);
    if i < 0 {
      assert k !in Keys(t);
      OccurrencesPositive(pre, k);
    }
    forall j | 0 <= j < |u| ensures u[j].1 == Occurrences(pre + [k], u[j].0) {
      if i >= 0 && j != i {
        assert u[j] == t[j] && t[j].0 != k;
      } else if i < 0 && j < |t| {
        assert u[j] == t[j] && t[j].0 != k;
      }
    }
  }

  lemma {:induction false} SumUpdate<K>(t: seq<(K, nat)>, i: nat, k: K)
    requires i < |t|
    ensures Sum(t[i := (k, t[i].1 + 1)]) == Sum(t) + 1
    decreases |t|
  {
    var n := |t| - 1;
    var u := t[i := (k, t[i].1 + 1)];
    if i < n {
      assert u[..n] == t[..n][i := (k, t[i].1 + 1)];
      SumUpdate(t[..n], i, k);
    } else {
      assert u[..n] == t[..n];
    }
  }

  /** The counts add up to the number of keys counted. */
  lemma {:induction false} TallySum<K>(keys: seq<K>)
    ensures Sum(Tally(keys)) == |keys|
  {
    if keys != [] {
      var n := |keys| - 1;
      var t := Tally(keys[..n]);
      TallySum(keys[..n]);
      var i := IndexOf(t, keys[n]);
      assert Tally(keys) == Bump(t, keys[n]);
      if i >= 0 {
        SumUpdate(t, i, keys[n]);
      } else {
        var u := t + [(keys[n], 1)];
        assert u[..|t|] == t;
        assert Sum(u) == Sum(t) + 1;
      }
    }
  }

  lemma {:induction false} DistinctKeysCard<K>(t: seq<(K, nat)>)
    requires DistinctKeys(t)
    ensures |Keys(t)| == |t|
  {
    if t != [] {
      var n := |t| - 1;
      DistinctKeysCard(t[..n]);
      assert Keys(t) == Keys(t[..n]) + {t[n].0};
      assert t[n].0 !in Keys(t[..n]);
    }
  }

  /** There is one entry per distinct key: `len(set(keys))` entries. */
  lemma TallySize<K>(keys: seq<K>)
    ensures |Tally(keys)| == |set k | k in keys|
  {
    TallyCounts(keys);
    DistinctKeysCard(Tally(keys));
  }

  /** The counting loop: one dict update per key, in order. */
  method CountOccurrences<K(==)>(keys: seq<K>) returns (t: seq<(K, nat)>)
    ensures t == Tally(keys)
  {
    t := [];
    var i := 0;
    while i < |keys|
      invariant 0 <= i <= |keys|
      invariant t == Tally(keys[..i])
    {
      assert keys[..i + 1][..i] == keys[..i];
      var j := IndexOf(t, keys[i]);
      if j >= 0 {
        t := t[j := (keys[i], t[j].1 + 1)];
      } else {
        t := t + [(keys[i], 1)];
      }
      i := i + 1;
    }
    assert keys[..i] == keys;
  }

  // ---------------------------------------------------------------- top N

  predicate SortedByCountDesc<K>(s: seq<(K, nat)>) {
    forall i, j :: 0 <= i < j < |s| ==> s[i].1 >= s[j].1
  }

  /** Puts `x` before the first entry whose count is not larger, so that of two
    * entries with equal counts the earlier one stays first (Python's sort is stable,
    * also with `reverse=True`). */
  function InsertByCount<K>(x: (K, nat), s: seq<(K, nat)>): (r: seq<(K, nat)>)
    ensures multiset(r) == multiset(s) + multiset{x}
  {
    if s == [] then [x]
    else if s[0].1 <= x.1 then [x] + s
    else
      assert s == [s[0]] + s[1..];
      [s[0]] + InsertByCount(x, s[1..])
  }

  lemma {:induction false} InsertKeepsSorted<K>(x: (K, nat), s: seq<(K, nat)>)
    requires SortedByCountDesc(s)
    ensures SortedByCountDesc(InsertByCount(x, s))
  {
    if s != [] && s[0].1 > x.1 {
      var rest := InsertByCount(x, s[1..]);
      InsertKeepsSorted(x, s[1..]);
      InsertBelowHead(x, s);
      var r := [s[0]] + rest;
      forall i, j | 0 <= i < j < |r| ensures r[i].1 >= r[j].1 {
        if i == 0 {
          assert r[j] == rest[j - 1];
        } else {
          assert r[i] == rest[i - 1] && r[j] == rest[j - 1];
        }
      }
    }
  }

  /** Inserting an entry smaller than the head of a sorted sequence into its tail
    * leaves every entry no larger than that head. */
  lemma InsertBelowHead<K>(x: (K, nat), s: seq<(K, nat)>)
    requires SortedByCountDesc(s) && s != [] && s[0].1 > x.1
    ensures forall k :: 0 <= k < |InsertByCount(x, s[1..])| ==> InsertByCount(x, s[1..])[k].1 <= s[0].1
  {
    var rest := InsertByCount(x, s[1..]);
    forall k | 0 <= k < |rest| ensures rest[k].1 <= s[0].1 {
      var y := rest[k];
      assert y in multiset(rest);
      assert y in multiset(s[1..]) || y == x;
      if y != x {
        var j :| 0 <= j < |s[1..]| && s[1..][j] == y;
        assert s[j + 1] == y;
      }
    }
  }

  function SortByCountDesc<K>(t: seq<(K, nat)>): (r: seq<(K, nat)>)
    ensures multiset(r) == multiset(t)
    ensures SortedByCountDesc(r)
  {
    if t == [] then []
    else
      assert t == [t[0]] + t[1..];
      InsertKeepsSorted(t[0], SortByCountDesc(t[1..]));
      InsertByCount(t[0], SortByCountDesc(t[1..]))
  }

  /** The entries of `s` whose count is `c`, in their order in `s`. */
  function WithCount<K>(s: seq<(K, nat)>, c: nat): seq<(K, nat)> {
    if s == [] then [] else (if s[0].1 == c then [s[0]] else []) + WithCount(s[1..], c)
  }

  /** Inserting `x` puts it before every entry with its count and keeps the order
    * of the rest. */
  lemma {:induction false} InsertWithCount<K>(x: (K, nat), s: seq<(K, nat)>, c: nat)
    ensures WithCount(InsertByCount(x, s), c) == (if x.1 == c then [x] else []) + WithCount(s, c)
    decreases |s|
  {
    if s == [] {
      assert InsertByCount(x, s) == [x];
      assert [x][1..] == [];
    } else if s[0].1 <= x.1 {
      assert ([x] + s)[1..] == s;
    } else {
      var rest := InsertByCount(x, s[1..]);
      InsertWithCount(x, s[1..], c);
      WithCountCons(s[0], rest, c);
      assert s == [s[0]] + s[1..];
      WithCountCons(s[0], s[1..], c);
    }
  }

  lemma WithCountCons<K>(y: (K, nat), s: seq<(K, nat)>, c: nat)
    ensures WithCount([y] + s, c) == (if y.1 == c then [y] else []) + WithCount(s, c)
  {
    assert ([y] + s)[1..] == s;
  }

  /** The sort is stable: entries with equal counts keep their counter order. */
  lemma {:induction false} SortIsStable<K>(t: seq<(K, nat)>, c: nat)
    ensures WithCount(SortByCountDesc(t), c) == WithCount(t, c)
    decreases |t|
  {
    if t != [] {
      SortIsStable(t[1..], c);
      InsertWithCount(t[0], SortByCountDesc(t[1..]), c);
    }
  }

  /** The first `n` entries of the counter sorted by decreasing count. */
  function Top<K>(t: seq<(K, nat)>, n: nat): seq<(K, nat)> {
    var s := SortByCountDesc(t);
    s[..if |s| < n then |s| else n]
  }

  /** The top entries are at most `n` entries of the counter, and no entry left out
    * has a larger count than an entry kept; with at most `n` entries all are kept. */
  lemma TopIsTop<K>(t: seq<(K, nat)>, n: nat)
    ensures |Top(t, n)| <= n
    ensures forall x :: x in Top(t, n) ==> x in t
    ensures forall x, y :: x in t && x !in Top(t, n) && y in Top(t, n) ==> x.1 <= y.1
    ensures |t| <= n ==> multiset(Top(t, n)) == multiset(t)
  {
    var s := SortByCountDesc(t);
    var top := Top(t, n);
    assert |s| == |t| by { assert |multiset(s)| == |multiset(t)|; }
    assert top == s[..|top|];
    forall x | x in top ensures x in t {
      assert x in multiset(s);
    }
    forall x, y | x in t && x !in top && y in top ensures x.1 <= y.1 {
      assert x in multiset(s);
      PrefixOfSortedBounds(s, |top|, x, y);
    }
    if |t| <= n {
      assert top == s;
    }
  }

  /** In a sequence sorted by decreasing count, an entry outside a prefix has no
    * larger count than an entry inside it. */
  lemma PrefixOfSortedBounds<K>(s: seq<(K, nat)>, m: nat, x: (K, nat), y: (K, nat))
    requires SortedByCountDesc(s) && m <= |s|
    requires x in s && x !in s[..m] && y in s[..m]
    ensures x.1 <= y.1
  {
    var a :| 0 <= a < |s| && s[a] == x;
    var b :| 0 <= b < m && s[..m][b] == y;
    assert a >= m;
    assert s[b] == y;
  }
}

=== FILE: text_utils.dfy ===
/** Text cleaning and content checks shared by the TikTok and Twitter scrapers
  * (src/core/text_utils.py). Each regular expression the source applies is written
  * out as a left-to-right scanner with the same matching rules as Python's `re`. */
module TextUtils {
  import opened Strings

  /** The `platform` argument; only "twitter" selects different rules. */
  datatype Platform = Generic | TikTok | Twitter

  // ---------------------------------------------------------------- hashtags

  /** Length of a `#\w+` match at the start of `s`, or 0 when there is none. */
  function HashtagMatchLen(s: string): (n: nat)
    ensures n == 0 || (2 <= n <= |s| && s[0] == '#')
  {
    if |s| >= 2 && s[0] == '#' && IsWordChar(s[1]) then 1 + WordRunLen(s[1..]) else 0
  }

  predicate IsWord(w: string) {
    w != [] && forall i :: 0 <= i < |w| ==> IsWordChar(w[i])
  }

  /** `re.findall(r'#(\w+)', text)`: the word after each `#`, left to right. */
  function ExtractHashtags(text: string): (tags: seq<string>)
    ensures forall k :: 0 <= k < |tags| ==> IsWord(tags[k])
    ensures |tags| <= |text| / 2
    decreases |text|
  {
    if text == [] then []
    else
      var n := HashtagMatchLen(text);
      if n > 0 then [text[1..n]] + ExtractHashtags(text[n..])
      else ExtractHashtags(text[1..])
  }

  /** Writes each tag as `#tag ` one after another. */
  function RenderHashtags(tags: seq<string>): string {
    if tags == [] then "" else "#" + tags[0] + " " + RenderHashtags(tags[1..])
  }

  lemma {:induction false} WordRunOfWord(w: string, rest: string)
    requires forall i :: 0 <= i < |w| ==> IsWordChar(w[i])
    requires rest == [] || !IsWordChar(rest[0])
    ensures WordRunLen(w + rest) == |w|
    decreases |w|
  {
    if w != [] {
      assert (w + rest)[1..] == w[1..] + rest;
      WordRunOfWord(w[1..], rest);
    }
  }

  /** Extraction recovers exactly the tags that were written as hashtags. */
  lemma {:induction false} ExtractRenderRoundTrip(tags: seq<string>)
    requires forall k :: 0 <= k < |tags| ==> IsWord(tags[k])
    ensures ExtractHashtags(RenderHashtags(tags)) == tags
    decreases |tags|
  {
    if tags != [] {
      var t := tags[0];
      var rest := RenderHashtags(tags[1..]);
      var s := "#" + t + " " + rest;
      assert s[1..] == t + (" " + rest);
      WordRunOfWord(t, " " + rest);
      assert HashtagMatchLen(s) == 1 + |t|;
      assert s[1..1 + |t|] == t;
      assert s[1 + |t|..] == " " + rest;
      assert ExtractHashtags(" " + rest) == ExtractHashtags(rest) by {
        assert (" " + rest)[1..] == rest;
      }
      ExtractRenderRoundTrip(tags[1..]);
    }
  }

  /** `s` starts with a tag: a `#` followed by a word character. */
  predicate StartsTag(s: string) {
    |s| >= 2 && s[0] == '#' && IsWordChar(s[1])
  }

  /** The tag `s` starts with: the whole run of word characters after the `#`. */
  function TagAtStart(s: string): (w: string)
    requires StartsTag(s)
    ensures IsWord(w) && 1 + |w| <= |s| && w == s[1..1 + |w|]
    ensures 1 + |w| == |s| || !IsWordChar(s[1 + |w|])
  {
    s[1..1 + WordRunLen(s[1..])]
  }

  /** The hashtags of `text` found position by position: the tag starting at each
    * position, if one does, in order of position. Tags found inside other tags
    * would be repeats, but none are, since a word character is never `#`. */
  function HashtagsAt(text: string): seq<string>
    decreases |text|
  {
    if text == [] then []
    else (if StartsTag(text) then [TagAtStart(text)] else []) + HashtagsAt(text[1..])
  }

  /** Positions holding no `#` start no tag. */
  lemma {:induction false} HashtagsAtSkip(s: string, k: nat)
    requires k <= |s| && forall x :: 0 <= x < k ==> s[x] != '#'
    ensures HashtagsAt(s) == HashtagsAt(s[k..])
    decreases k
  {
    if k > 0 {
      HashtagsAtSkip(s[1..], k - 1);
      assert s[1..][k - 1..] == s[k..];
    }
  }

  /** The scanner's left-to-right matches are exactly the tags found position by
    * position: no `#`-word occurrence is missed, and none is found inside another
    * tag. */
  lemma {:induction false} ExtractHashtagsExact(text: string)
    ensures ExtractHashtags(text) == HashtagsAt(text)
    decreases |text|
  {
    if text != [] {
      var n := HashtagMatchLen(text);
      if n > 0 {
        var w := TagAtStart(text);
        assert n == 1 + |w|;
        ExtractHashtagsExact(text[n..]);
        forall x | 0 <= x < |w| ensures text[1..][x] != '#' {
          assert text[1..][x] == w[x];
        }
        HashtagsAtSkip(text[1..], |w|);
        assert text[1..][|w|..] == text[n..];
      } else {
        ExtractHashtagsExact(text[1..]);
      }
    }
  }

  lemma {:induction false} TagInHashtagsAt(text: string, i: nat)
    requires i < |text| && StartsTag(text[i..])
    ensures TagAtStart(text[i..]) in HashtagsAt(text)
    decreases i
  {
    if i > 0 {
      assert text[1..][i - 1..] == text[i..];
      TagInHashtagsAt(text[1..], i - 1);
    }
  }

  /** Every `#` followed by a word character in the text yields its tag. */
  lemma EveryTagExtracted(text: string, i: nat)
    requires i < |text| && StartsTag(text[i..])
    ensures TagAtStart(text[i..]) in ExtractHashtags(text)
  {
    ExtractHashtagsExact(text);
    TagInHashtagsAt(text, i);
  }

  // ---------------------------------------------------------------- links

  const TcoPrefix: string := "https://t.co/"

  /** Length of a `https://t\.co/\w+` match at the start of `s`, or 0. */
  function TcoMatchLen(s: string): (n: nat)
    ensures n == 0 || (|TcoPrefix| < n <= |s| && TcoPrefix <= s)
  {
    if TcoPrefix <= s && |s| > |TcoPrefix| && IsWordChar(s[|TcoPrefix|])
    then |TcoPrefix| + WordRunLen(s[|TcoPrefix|..])
    else 0
  }

  /** `re.sub(r'https://t\.co/\w+', '', s)`. */
  function RemoveTcoLinks(s: string): (r: string)
    ensures |r| <= |s|
    decreases |s|
  {
    if s == [] then []
    else
      var n := TcoMatchLen(s);
      if n > 0 then RemoveTcoLinks(s[n..]) else [s[0]] + RemoveTcoLinks(s[1..])
  }

  /** Length of a `https?://[^\s]+` match at the start of `s`, or 0. */
  function HttpMatchLen(s: string): (n: nat)
    ensures n <= |s|
  {
    var p := if "https://" <= s then 8 else if "http://" <= s then 7 else 0;
    if p > 0 && |s| > p && !IsSpace(s[p]) then p + NonSpaceRunLen(s[p..]) else 0
  }

  /** `re.sub(r'https?://[^\s]+', '', s)`. */
  function RemoveHttpLinks(s: string): (r: string)
    ensures |r| <= |s|
    decreases |s|
  {
    if s == [] then []
    else
      var n := HttpMatchLen(s);
      if n > 0 then RemoveHttpLinks(s[n..]) else [s[0]] + RemoveHttpLinks(s[1..])
  }

  /** Text without a t.co link is left untouched by the Twitter link rule. */
  lemma {:induction false} RemoveTcoAbsent(s: string)
    requires !Contains(s, TcoPrefix)
    ensures RemoveTcoLinks(s) == s
    decreases |s|
  {
    if s != [] {
      RemoveTcoAbsent(s[1..]);
    }
  }

  /** A t.co link is removed up to the end of its word, and nothing after it. */
  lemma RemoveTcoLeading(w: string, rest: string)
    requires IsWord(w)
    requires rest == [] || !IsWordChar(rest[0])
    ensures RemoveTcoLinks(TcoPrefix + w + rest) == RemoveTcoLinks(rest)
  {
    var s := TcoPrefix + w + rest;
    assert TcoPrefix <= s;
    assert s[|TcoPrefix|..] == w + rest;
    assert s[|TcoPrefix|] == w[0];
    WordRunOfWord(w, rest);
    var n := TcoMatchLen(s);
    assert n == |TcoPrefix| + |w|;
    assert s[n..] == rest;
    assert RemoveTcoLinks(s) == RemoveTcoLinks(s[n..]);
  }

  /** Text without an http:// or https:// address is left untouched by the generic rule. */
  lemma {:induction false} RemoveHttpAbsent(s: string)
    requires !Contains(s, "http://") && !Contains(s, "https://")
    ensures RemoveHttpLinks(s) == s
    decreases |s|
  {
    if s != [] {
      RemoveHttpAbsent(s[1..]);
    }
  }

  lemma {:induction false} NonSpaceRunOf(u: string, rest: string)
    requires forall i :: 0 <= i < |u| ==> !IsSpace(u[i])
    requires rest == [] || IsSpace(rest[0])
    ensures NonSpaceRunLen(u + rest) == |u|
    decreases |u|
  {
    if u != [] {
      assert (u + rest)[1..] == u[1..] + rest;
      NonSpaceRunOf(u[1..], rest);
    } else {
      assert u + rest == rest;
    }
  }

  /** An http:// or https:// address is removed up to the next whitespace, and
    * nothing after it. */
  lemma RemoveHttpLeading(scheme: string, u: string, rest: string)
    requires scheme == "http://" || scheme == "https://"
    requires u != [] && forall i :: 0 <= i < |u| ==> !IsSpace(u[i])
    requires rest == [] || IsSpace(rest[0])
    ensures RemoveHttpLinks(scheme + u + rest) == RemoveHttpLinks(rest)
  {
    var s := scheme + u + rest;
    var p := |scheme|;
    assert scheme <= s;
    assert scheme == "http://" ==> !("https://" <= s) by {
      if scheme == "http://" {
        assert s[4] == ':';
      }
    }
    assert s[p..] == u + rest;
    assert s[p] == u[0];
    NonSpaceRunOf(u, rest);
    var n := HttpMatchLen(s);
    assert n == p + |u|;
    assert s[n..] == rest;
  }

  /** A text that is one address alone is removed entirely. */
  lemma AddressAloneRemoved(scheme: string, u: string)
    requires scheme == "http://" || scheme == "https://"
    requires u != [] && forall i :: 0 <= i < |u| ==> !IsSpace(u[i])
    ensures RemoveHttpLinks(scheme + u) == ""
  {
    RemoveHttpLeading(scheme, u, "");
    assert scheme + u + "" == scheme + u;
  }

  // ---------------------------------------------------------------- runs of tags

  /** Length of one `m\w+\s*` token at the start of `s` (`m` is `#` or `@`), or 0. */
  function TokenLen(s: string, m: char): (n: nat)
    ensures n == 0 || (2 <= n <= |s| && s[0] == m)
  {
    if |s| >= 2 && s[0] == m && IsWordChar(s[1]) then
      var w := 1 + WordRunLen(s[1..]);
      w + SpaceRunLen(s[w..])
    else 0
  }

  /** Number of consecutive tokens at the start of `s`. */
  function RunTokens(s: string, m: char): nat
    decreases |s|
  {
    var t := TokenLen(s, m);
    if t == 0 then 0 else 1 + RunTokens(s[t..], m)
  }

  /** Number of characters the consecutive tokens at the start of `s` span. */
  function RunSpan(s: string, m: char): (n: nat)
    ensures n <= |s|
    ensures n == 0 <==> RunTokens(s, m) == 0
    decreases |s|
  {
    var t := TokenLen(s, m);
    if t == 0 then 0 else t + RunSpan(s[t..], m)
  }

  /** `re.sub(r'(m\w+\s*){3,}', '', s)`: every run of three or more consecutive
    * `m`-tokens is deleted, together with the whitespace after its last token. */
  function RemoveRuns(s: string, m: char): (r: string)
    ensures |r| <= |s|
    decreases |s|
  {
    if s == [] then []
    else if RunTokens(s, m) >= 3 then RemoveRuns(s[RunSpan(s, m)..], m)
    else [s[0]] + RemoveRuns(s[1..], m)
  }

  /** The tokens `m w ` for each word `w`, one after another. */
  function Tokens(ws: seq<string>, m: char): (t: string)
    ensures ws != [] ==> t != [] && t[0] == m
  {
    if ws == [] then "" else [m] + ws[0] + " " + Tokens(ws[1..], m)
  }

  /** `rest` starts no token and no whitespace, so a run of tokens ends before it. */
  predicate RunEndsBefore(rest: string, m: char) {
    rest == [] || (!IsSpace(rest[0]) && (rest[0] != m || |rest| < 2 || !IsWordChar(rest[1])))
  }

  /** The tokens written by `Tokens` are read back one by one: as many tokens as
    * words, spanning exactly the written text. */
  lemma {:induction false} TokensRead(ws: seq<string>, rest: string, m: char)
    requires m == '#' || m == '@'
    requires forall k :: 0 <= k < |ws| ==> IsWord(ws[k])
    requires RunEndsBefore(rest, m)
    ensures RunTokens(Tokens(ws, m) + rest, m) == |ws|
    ensures RunSpan(Tokens(ws, m) + rest, m) == |Tokens(ws, m)|
    decreases |ws|
  {
    if ws == [] {
      assert Tokens(ws, m) + rest == rest;
      assert TokenLen(rest, m) == 0;
    } else {
      var x := TokensTail(ws, rest, m);
      TokensRead(ws[1..], rest, m);
      TokenThenRest(ws[0], x, m);
    }
  }

  /** The text after the first token starts with the next token or with `rest`. */
  lemma TokensTail(ws: seq<string>, rest: string, m: char) returns (x: string)
    requires m == '#' || m == '@'
    requires ws != [] && RunEndsBefore(rest, m)
    ensures x == Tokens(ws[1..], m) + rest
    ensures Tokens(ws, m) + rest == [m] + ws[0] + " " + x
    ensures |Tokens(ws, m)| == |ws[0]| + 2 + |Tokens(ws[1..], m)|
    ensures x == [] || !IsSpace(x[0])
  {
    x := Tokens(ws[1..], m) + rest;
    if ws[1..] != [] {
      assert x[0] == m;
    }
  }

  /** Reading one token `m w ` leaves the text after it. */
  lemma TokenThenRest(w: string, x: string, m: char)
    requires m == '#' || m == '@'
    requires IsWord(w) && (x == [] || !IsSpace(x[0]))
    ensures RunTokens([m] + w + " " + x, m) == 1 + RunTokens(x, m)
    ensures RunSpan([m] + w + " " + x, m) == |w| + 2 + RunSpan(x, m)
  {
    var s := [m] + w + " " + x;
    OneToken(w, x, m);
    assert s[|w| + 2..] == x;
  }

  /** One token `m w ` followed by text starting with no whitespace. */
  lemma OneToken(w: string, x: string, m: char)
    requires m == '#' || m == '@'
    requires IsWord(w) && (x == [] || !IsSpace(x[0]))
    ensures TokenLen([m] + w + " " + x, m) == |w| + 2
  {
    var s := [m] + w + " " + x;
    assert s[1..] == w + (" " + x);
    SpaceIsNotWord(' ');
    WordRunOfWord(w, " " + x);
    var e := 1 + |w|;
    assert s[e..] == " " + x;
    assert (" " + x)[1..] == x;
    assert SpaceRunLen(" " + x) == 1;
  }

  /** A run of three or more tokens is deleted entirely, and nothing after it. */
  lemma RemoveRunsLeading(ws: seq<string>, rest: string, m: char)
    requires m == '#' || m == '@'
    requires |ws| >= 3 && forall k :: 0 <= k < |ws| ==> IsWord(ws[k])
    requires RunEndsBefore(rest, m)
    ensures RemoveRuns(Tokens(ws, m) + rest, m) == RemoveRuns(rest, m)
  {
    TokensRead(ws, rest, m);
    var s := Tokens(ws, m) + rest;
    assert s[|Tokens(ws, m)|..] == rest;
  }

  /** A text that is one run of three or more tokens alone is deleted entirely. */
  lemma RunAloneRemoved(ws: seq<string>, m: char)
    requires m == '#' || m == '@'
    requires |ws| >= 3 && forall k :: 0 <= k < |ws| ==> IsWord(ws[k])
    ensures RemoveRuns(Tokens(ws, m), m) == ""
  {
    RemoveRunsLeading(ws, "", m);
    assert Tokens(ws, m) + "" == Tokens(ws, m);
  }

  /** No position of `s` starts three or more consecutive `m`-tokens. */
  predicate NoLongRun(s: string, m: char) {
    forall i :: 0 <= i < |s| ==> RunTokens(s[i..], m) < 3
  }

  /** Runs of one or two tokens survive: text without a long run is unchanged. */
  lemma {:induction false} ShortRunsSurvive(s: string, m: char)
    requires NoLongRun(s, m)
    ensures RemoveRuns(s, m) == s
    decreases |s|
  {
    if s != [] {
      assert s[0..] == s;
      assert NoLongRun(s[1..], m) by {
        forall i | 0 <= i < |s| - 1 ensures RunTokens(s[1..][i..], m) < 3 {
          assert s[1..][i..] == s[i + 1..];
        }
      }
      ShortRunsSurvive(s[1..], m);
    }
  }

  // ---------------------------------------------------------------- whitespace

  /** `re.sub(r'\s+', ' ', s)`: every maximal whitespace run becomes one blank. */
  function SqueezeSpaces(s: string): (r: string)
    ensures |r| <= |s|
    ensures forall i :: 0 <= i < |r| && IsSpace(r[i]) ==> r[i] == ' '
    ensures r != [] ==> (IsSpace(r[0]) <==> IsSpace(s[0]))
    ensures NoDoubleSpace(r)
    decreases |s|
  {
    if s == [] then []
    else if IsSpace(s[0]) then
      var n := SpaceRunLen(s);
      " " + SqueezeSpaces(s[n..])
    else [s[0]] + SqueezeSpaces(s[1..])
  }

  predicate NoDoubleSpace(r: string) {
    forall i :: 0 <= i < |r| - 1 ==> !(IsSpace(r[i]) && IsSpace(r[i + 1]))
  }

  /** Text as `re.sub(r'\s+', ' ', ...).strip()` leaves it: no whitespace at either
    * end, and single blanks between words. */
  predicate IsNormalized(r: string) {
    (r == [] || (!IsSpace(r[0]) && !IsSpace(r[|r| - 1])))
    && NoDoubleSpace(r)
    && forall i :: 0 <= i < |r| && IsSpace(r[i]) ==> r[i] == ' '
  }

  /** The non-whitespace characters of `s`, in order. */
  function NonSpaces(s: string): string {
    if s == [] then []
    else (if IsSpace(s[0]) then [] else [s[0]]) + NonSpaces(s[1..])
  }

  lemma {:induction false} NonSpacesConcat(a: string, b: string)
    ensures NonSpaces(a + b) == NonSpaces(a) + NonSpaces(b)
    decreases |a|
  {
    if a == [] {
      assert a + b == b;
    } else {
      var h := if IsSpace(a[0]) then [] else [a[0]];
      assert (a + b)[0] == a[0];
      assert (a + b)[1..] == a[1..] + b;
      assert NonSpaces(a + b) == h + NonSpaces(a[1..] + b);
      assert NonSpaces(a) == h + NonSpaces(a[1..]);
      NonSpacesConcat(a[1..], b);
    }
  }

  lemma {:induction false} NonSpacesOfSpaces(s: string)
    requires AllSpaces(s)
    ensures NonSpaces(s) == []
    decreases |s|
  {
    if s != [] {
      NonSpacesOfSpaces(s[1..]);
    }
  }

  lemma {:induction false} SqueezeKeepsNonSpaces(s: string)
    ensures NonSpaces(SqueezeSpaces(s)) == NonSpaces(s)
    decreases |s|
  {
    if s != [] {
      if IsSpace(s[0]) {
        var n := SpaceRunLen(s);
        SqueezeKeepsNonSpaces(s[n..]);
        NonSpacesConcat(" ", SqueezeSpaces(s[n..]));
        assert s == s[..n] + s[n..];
        NonSpacesConcat(s[..n], s[n..]);
        NonSpacesOfSpaces(s[..n]);
      } else {
        SqueezeKeepsNonSpaces(s[1..]);
        NonSpacesConcat([s[0]], SqueezeSpaces(s[1..]));
      }
    }
  }

  lemma StripKeepsNonSpaces(s: string)
    ensures NonSpaces(Strip(s)) == NonSpaces(s)
  {
    StripIsSlice(s);
    var i, j := StripStart(s), StripEnd(s);
    assert s == s[..i] + s[i..j] + s[j..];
    NonSpacesConcat(s[..i] + s[i..j], s[j..]);
    NonSpacesConcat(s[..i], s[i..j]);
    NonSpacesOfSpaces(s[..i]);
    NonSpacesOfSpaces(s[j..]);
  }

  /** `re.sub(r'\s+', ' ', s).strip()`. */
  function CollapseWhitespace(s: string): (r: string)
    ensures |r| <= |s|
    ensures IsNormalized(r)
    ensures NonSpaces(r) == NonSpaces(s)
    ensures r == [] <==> AllSpaces(s)
  {
    var q := SqueezeSpaces(s);
    StripKeepsNonSpaces(q);
    SqueezeKeepsNonSpaces(s);
    AllSpacesIffNoNonSpaces(s);
    AllSpacesIffNoNonSpaces(q);
    StripOfSqueezed(q);
    Strip(q)
  }

  lemma {:induction false} AllSpacesIffNoNonSpaces(s: string)
    ensures AllSpaces(s) <==> NonSpaces(s) == []
    decreases |s|
  {
    if s != [] {
      AllSpacesIffNoNonSpaces(s[1..]);
      assert AllSpaces(s) <==> IsSpace(s[0]) && AllSpaces(s[1..]);
    }
  }

  /** Stripping a squeezed text leaves a normalised one. */
  lemma StripOfSqueezed(q: string)
    requires NoDoubleSpace(q)
    requires forall i :: 0 <= i < |q| && IsSpace(q[i]) ==> q[i] == ' '
    ensures IsNormalized(Strip(q))
  {
    StripIsSlice(q);
    var i, j := StripStart(q), StripEnd(q);
    var r := q[i..j];
    assert forall k :: 0 <= k < |r| ==> r[k] == q[i + k];
  }

  // ---------------------------------------------------------------- cleaning

  /** `clean_text_base`: optional link removal (t.co links on Twitter, any http(s)
    * address elsewhere), optional deletion of runs of three or more hashtags and then
    * of mentions, then whitespace normalisation. */
  function CleanTextBase(text: string, removeLinks: bool, removeConsecutive: bool, platform: Platform): (r: string)
    ensures |r| <= |text|
    ensures IsNormalized(r)
    ensures text == [] ==> r == []
    ensures !removeLinks && !removeConsecutive ==> NonSpaces(r) == NonSpaces(text)
  {
    if text == [] then ""
    else
      var linked :=
        if !removeLinks then text
        else if platform == Twitter then RemoveTcoLinks(text)
        else RemoveHttpLinks(text);
      var unrun := if removeConsecutive then RemoveRuns(RemoveRuns(linked, '#'), '@') else linked;
      CollapseWhitespace(unrun)
  }

  /** `clean_description`: TikTok keeps links and drops runs of hashtags and mentions. */
  function CleanDescription(desc: string): (r: string)
    ensures |r| <= |desc| && IsNormalized(r)
  {
    CleanTextBase(desc, false, true, TikTok)
  }

  /** `clean_tweet_text`: Twitter drops t.co links and keeps hashtag runs. */
  function CleanTweetText(text: string): (r: string)
    ensures |r| <= |text| && IsNormalized(r)
  {
    CleanTextBase(text, true, false, Twitter)
  }

  /** A description with no run of three or more hashtags or mentions is only
    * normalised: its characters other than whitespace are all kept. */
  lemma DescriptionWithoutRunsKeepsWords(desc: string)
    requires NoLongRun(desc, '#') && NoLongRun(desc, '@')
    ensures NonSpaces(CleanDescription(desc)) == NonSpaces(desc)
  {
    if desc != [] {
      ShortRunsSurvive(desc, '#');
      ShortRunsSurvive(desc, '@');
    }
  }

  /** A description made of three or more hashtags alone cleans to the empty text. */
  lemma TagRunDescriptionIsEmpty(ws: seq<string>)
    requires |ws| >= 3 && forall k :: 0 <= k < |ws| ==> IsWord(ws[k])
    ensures CleanDescription(Tokens(ws, '#')) == ""
  {
    RunAloneRemoved(ws, '#');
    DescriptionOfRunFreeRest(Tokens(ws, '#'));
  }

  /** A description whose hashtag runs leave nothing cleans to the empty text. */
  lemma DescriptionOfRunFreeRest(desc: string)
    requires RemoveRuns(desc, '#') == ""
    ensures CleanDescription(desc) == ""
  {
    assert RemoveRuns("", '@') == "";
    assert AllSpaces("");
  }

  /** A tweet without a t.co link is only normalised: its words are all kept. */
  lemma TweetWithoutLinkKeepsWords(text: string)
    requires !Contains(text, TcoPrefix)
    ensures NonSpaces(CleanTweetText(text)) == NonSpaces(text)
  {
    if text != [] {
      RemoveTcoAbsent(text);
    }
  }

  /** A tweet made of a t.co link alone cleans to the empty text. */
  lemma LinkOnlyTweetIsEmpty(w: string)
    requires IsWord(w)
    ensures CleanTweetText(TcoPrefix + w) == ""
  {
    RemoveTcoLeading(w, "");
    assert TcoPrefix + w + "" == TcoPrefix + w;
  }

  // ---------------------------------------------------------------- meaningful content

  /** The text `is_meaningful_content` measures: the search term removed as written and
    * in lower case, and on Twitter also as `#term` and `#term` in lower case. */
  function SearchRemainder(text: string, term: string, platform: Platform): (r: string)
    ensures |r| <= |text|
    ensures forall c :: c in r ==> c in text
  {
    if term == [] then text
    else
      var b := Delete(Delete(text, term), Lower(term));
      if platform != Twitter then b
      else Delete(Delete(b, "#" + term), "#" + Lower(term))
  }

  /** `s.replace(pat, "")`: deleting occurrences only shortens the text and only
    * removes characters. */
  function Delete(s: string, pat: string): (r: string)
    requires pat != []
    ensures |r| <= |s|
    ensures forall c :: c in r ==> c in s
  {
    ReplaceAllLength(s, pat, "");
    forall c | c in ReplaceAll(s, pat, "") ensures c in s {
      DeleteKeepsCharacters(s, pat, c);
    }
    ReplaceAll(s, pat, "")
  }

  /** `is_meaningful_content`: the text is kept when, with the search term taken out
    * and the ends stripped, at least `minLength` characters remain and one of them is
    * a word character (the pattern `^[#@\s\W]*$` does not match). */
  function IsMeaningfulContent(text: string, term: string, minLength: int, platform: Platform): (ok: bool)
    ensures ok ==> text != [] && |text| >= minLength && HasWordChar(text)
    ensures ok <==> text != [] && var rest := Strip(SearchRemainder(text, term, platform));
                    |rest| >= minLength && HasWordChar(rest)
  {
    if text == [] then false
    else
      var rest := Strip(SearchRemainder(text, term, platform));
      if |rest| < minLength then false
      else if !HasWordChar(rest) then false
      else
        WordCharOfRemainder(text, term, platform);
        true
  }

  lemma WordCharOfRemainder(text: string, term: string, platform: Platform)
    requires HasWordChar(Strip(SearchRemainder(text, term, platform)))
    ensures HasWordChar(text)
  {
    var r := SearchRemainder(text, term, platform);
    StripIsSlice(r);
    var i :| 0 <= i < |Strip(r)| && IsWordChar(Strip(r)[i]);
    var a, b := StripStart(r), StripEnd(r);
    assert r[a + i] in r;
    var j :| 0 <= j < |text| && text[j] == r[a + i];
  }

  /** Raising the minimum length never turns a rejected text into an accepted one. */
  lemma MeaningfulMonotone(text: string, term: string, lo: int, hi: int, platform: Platform)
    requires lo <= hi
    ensures IsMeaningfulContent(text, term, hi, platform) ==> IsMeaningfulContent(text, term, lo, platform)
  {
  }

  /** `is_meaningful_description`: the TikTok variant. */
  function IsMeaningfulDescription(desc: string, term: string, minLength: int): (ok: bool)
    ensures ok ==> |desc| >= minLength && HasWordChar(desc)
  {
    IsMeaningfulContent(desc, term, minLength, TikTok)
  }

  /** `is_meaningful_text`: the Twitter variant. */
  function IsMeaningfulText(text: string, hashtag: string, minLength: int): (ok: bool)
    ensures ok ==> |text| >= minLength && HasWordChar(text)
  {
    IsMeaningfulContent(text, hashtag, minLength, Twitter)
  }

  /** The bare term is removed before `#term`, so the `#` of a matching hashtag stays
    * behind and is measured with the rest. */
  lemma HashOfHashtagRemains()
    ensures SearchRemainder("#ai", "ai", Twitter) == "#"
  {
    assert Lower("ai") == "ai";
    assert ReplaceAll("#ai", "ai", "") == "#";
    assert ReplaceAll("#", "ai", "") == "#";
    assert ReplaceAll("#", "#ai", "") == "#";
    assert Delete(Delete("#ai", "ai"), Lower("ai")) == "#";
  }
}

=== FILE: tiktok_old.dfy ===
/** The earlier, self-contained TikTok scraper (tiktok_scraper_old.py). Its
  * relevance scores, comment collection, record extraction and search loops are
  * textually those of src/scrapers/tiktok_scraper.py and are modelled there; what
  * differs is that it validates its own arguments and carries its own copy of the
  * description test, which does not strip the text when no search term is given. */
module TikTokScraperOld {
  import opened Wrappers
  import opened Strings
  import opened Args
  import opened CliUtils
  import opened Selection
  import TextUtils
  import TikTokScraper

  // ---------------------------------------------------------------- arguments

  /** The checks `parse_arguments` makes after the log level and before it cleans the
    * search inputs, in the order it makes them; None when all pass. */
  function RangeError(auto: bool, hashtag: string, user: string, trending: bool, count: int,
                      maxComments: int, threshold: real, minDuration: int, maxDuration: int)
    : (e: Option<CliError>)
    ensures e.None? <==> (!auto || hashtag != "" || user != "" || trending)
                         && 5 <= count <= 100 && 1 <= maxComments <= 50 && 0.0 <= threshold <= 1.0
                         && !(minDuration != 0 && maxDuration != 0 && minDuration >= maxDuration)
    ensures e == Some(AutoNeedsSearchMode) <==> auto && hashtag == "" && user == "" && !trending
    ensures e == Some(CountOutOfRange(5, 100)) ==> count < 5 || count > 100
  {
    if auto && !(hashtag != "" || user != "" || trending) then Some(AutoNeedsSearchMode)
    else if ValidateCountArgument(count, 5, 100).Fail? then Some(CountOutOfRange(5, 100))
    else if maxComments < 1 || maxComments > 50 then Some(MaxCommentsOutOfRange)
    else if threshold < 0.0 || threshold > 1.0 then Some(ThresholdOutOfRange)
    else if minDuration != 0 && maxDuration != 0 && minDuration >= maxDuration then Some(DurationOrder)
    else None
  }

  /** The validation half of `parse_arguments`: `--quiet` with `--verbose` is refused
    * before anything changes; otherwise the log level is set, the ranges are checked,
    * the hashtag and the user are cleaned in place (an input that cleans to nothing
    * is left empty and refused), and last the output directory must be creatable. */
  method ParseArguments(args: Namespace, dirCreatable: bool) returns (r: Outcome)
    modifies args`logLevel, args`hashtag, args`user
    ensures old(args.quiet) && old(args.verbose) ==> r == Fail(QuietAndVerbose) && unchanged(args)
    ensures !(old(args.quiet) && old(args.verbose)) ==>
              args.logLevel == ResolveLogLevel(old(args.quiet), old(args.verbose), old(args.logLevel)).value
              && var e := RangeError(old(args.auto), old(args.hashtag), old(args.user), old(args.trending),
                                     old(args.count), old(args.maxComments), old(args.relevanceThreshold),
                                     old(args.minDuration), old(args.maxDuration));
                 var h := CleanHashtagInput(old(args.hashtag));
                 var u := CleanUsernameInput(old(args.user));
                 if e.Some? then r == Fail(e.value) && args.hashtag == old(args.hashtag) && args.user == old(args.user)
                 else if h.Err? then r == Fail(EmptyHashtag) && args.hashtag == "" && args.user == old(args.user)
                 else if u.Err? then r == Fail(EmptyUsername) && args.hashtag == h.value && args.user == ""
                 else args.hashtag == h.value && args.user == u.value
                      && (r == Pass <==> dirCreatable) && (r.Fail? ==> r.error == CannotCreateOutputDir)
  {
    var lv := ResolveLogLevel(args.quiet, args.verbose, args.logLevel);
    if lv.Err? {
      return Fail(QuietAndVerbose);
    }
    args.logLevel := lv.value;
    var e := RangeError(args.auto, args.hashtag, args.user, args.trending, args.count, args.maxComments,
                        args.relevanceThreshold, args.minDuration, args.maxDuration);
    if e.Some? {
      return Fail(e.value);
    }
    var h := CleanHashtagInput(args.hashtag);
    if h.Err? {
      args.hashtag := "";
      return Fail(EmptyHashtag);
    }
    args.hashtag := h.value;
    var u := CleanUsernameInput(args.user);
    if u.Err? {
      args.user := "";
      return Fail(EmptyUsername);
    }
    args.user := u.value;
    if !dirCreatable {
      return Fail(CannotCreateOutputDir);
    }
    return Pass;
  }

  // ---------------------------------------------------------------- description test

  /** `is_meaningful_description`: with a search term the term is taken out and the
    * rest stripped, as in the shared module; without one the text is measured as it
    * is, unstripped. */
  function IsMeaningfulDescription(cleanDesc: string, term: string, minLength: int): (ok: bool)
    ensures ok ==> cleanDesc != [] && |cleanDesc| >= minLength && HasWordChar(cleanDesc)
  {
    if cleanDesc == [] then false
    else
      var rest := if term != [] then Strip(TextUtils.SearchRemainder(cleanDesc, term, TextUtils.TikTok)) else cleanDesc;
      if |rest| < minLength then false
      else if !HasWordChar(rest) then false
      else if term == [] then true
      else
        TextUtils.WordCharOfRemainder(cleanDesc, term, TextUtils.TikTok);
        true
  }

  /** On text without whitespace at its ends, which is what `clean_description`
    * produces, the test agrees with the shared `is_meaningful_content`. */
  lemma AgreesOnTrimmedText(desc: string, term: string, minLength: int)
    requires NoEdgeSpace(desc)
    ensures IsMeaningfulDescription(desc, term, minLength) == TextUtils.IsMeaningfulDescription(desc, term, minLength)
  {
    if term == [] {
      StripOfTrimmed(desc);
    }
  }

  /** Without a search term, leading whitespace is counted here but stripped by the
    * shared test. */
  lemma UntrimmedTextDiffers()
    ensures IsMeaningfulDescription(" ab", "", 3)
    ensures !TextUtils.IsMeaningfulDescription(" ab", "", 3)
  {
    assert IsWordChar(" ab"[1]);
    StripOfSpaceAb();
  }

  lemma StripOfSpaceAb()
    ensures Strip(" ab") == "ab"
  {
    assert LStrip(" ab") == LStrip("ab");
    assert LStrip("ab") == "ab";
    assert RStrip("ab") == "ab";
  }

  // ---------------------------------------------------------------- filters and search

  /** `apply_video_filters`, with this file's description test. */
  function ApplyVideoFilters(v: TikTokScraper.Video, f: TikTokScraper.Filters, term: string): (keep: bool)
    ensures keep <==> (f.minDuration == 0 || v.duration >= f.minDuration)
                      && (f.maxDuration == 0 || v.duration <= f.maxDuration)
                      && (f.minViews == 0 || v.stats.views >= f.minViews)
                      && (f.noFilter || IsMeaningfulDescription(TextUtils.CleanDescription(v.description), term, f.minDescLength))
                      && (v.relevance.None? || v.relevance.value.isRelevant)
  {
    if f.minDuration != 0 && v.duration < f.minDuration then false
    else if f.maxDuration != 0 && v.duration > f.maxDuration then false
    else if f.minViews != 0 && v.stats.views < f.minViews then false
    else if !f.noFilter && !IsMeaningfulDescription(TextUtils.CleanDescription(v.description), term, f.minDescLength)
    then false
    else match v.relevance
      case None => true
      case Some(r) => r.isRelevant
  }

  /** The descriptions the filter tests are cleaned, so this file's filter keeps
    * exactly the videos the refactored one keeps. */
  lemma FiltersAgree(v: TikTokScraper.Video, f: TikTokScraper.Filters, term: string)
    ensures ApplyVideoFilters(v, f, term) == TikTokScraper.ApplyVideoFilters(v, f, term)
  {
    var d := TextUtils.CleanDescription(v.description);
    AgreesOnTrimmedText(d, term, f.minDescLength);
  }

  /** `should_get_transcript`: transcripts are fetched only when asked for and when
    * one of the two key variables is set to a non-empty value. */
  function ShouldGetTranscript(addTranscript: bool, env: map<string, string>): (get: bool)
    ensures get <==> addTranscript && (("RAPIDAPI_KEY" in env && env["RAPIDAPI_KEY"] != "")
                                       || ("TIKTOK_TRANSCRIPT_API_KEY" in env && env["TIKTOK_TRANSCRIPT_API_KEY"] != ""))
  {
    if !addTranscript then false
    else
      var key := if "RAPIDAPI_KEY" in env && env["RAPIDAPI_KEY"] != "" then env["RAPIDAPI_KEY"]
                 else if "TIKTOK_TRANSCRIPT_API_KEY" in env then env["TIKTOK_TRANSCRIPT_API_KEY"]
                 else "";
      key != ""
  }

  /** `search_hashtag_videos`, `search_user_videos` and `search_trending_videos`:
    * the same take-while loop with this file's filter, which `FiltersAgree` shows to
    * be the refactored one; the search term is the hashtag, the user name or
    * "trending". At most `count` videos are kept and `5 * count` processed, and the
    * number reported as discarded is the processed ones that were not kept. */
  method SearchVideos(stream: seq<TikTokScraper.RawVideo>, term: string, count: int, args: Namespace,
                      env: map<string, string>)
    returns (videos: seq<TikTokScraper.Video>, discarded: int)
    ensures var o := TikTokScraper.SearchOptionsOf(args, ShouldGetTranscript(args.addTranscript, env));
            var flags := TikTokScraper.PassFlags(stream, term, o);
            var p := Processed(flags, count, TikTokScraper.LimitFactor * count);
            videos == Selected(TikTokScraper.CollectedAll(stream, term, o)[..p], flags[..p])
            && discarded == p - |videos|
            && (count >= 1 ==> |videos| <= count && p <= 5 * count)
  {
    var getTranscript := ShouldGetTranscript(args.addTranscript, env);
    var processed;
    videos, processed := TikTokScraper.CollectVideos(stream, term, count, TikTokScraper.SearchOptionsOf(args, getTranscript));
    discarded := processed - |videos|;
  }

  /** The stream items the loop keeps are those this file's filter accepts. */
  lemma PassFlagsUseThisFilter(stream: seq<TikTokScraper.RawVideo>, term: string, o: TikTokScraper.SearchOptions, i: nat)
    requires i < |stream|
    ensures TikTokScraper.PassFlags(stream, term, o)[i]
            == ApplyVideoFilters(TikTokScraper.ExtractVideoData(stream[i], term, o.getTranscript, o.threshold), o.filters, term)
  {
    MapSeqAt(TikTokScraper.PassesOf(term, o), stream, i);
    FiltersAgree(TikTokScraper.ExtractVideoData(stream[i], term, o.getTranscript, o.threshold), o.filters, term);
  }
}

=== FILE: tiktok_scraper.dfy ===
/** The TikTok scraper of `src/scrapers/tiktok_scraper.py`: relevance scoring of a
  * video against the search term, the video filters, the normalised video record,
  * comment collection, the bounded search loops and the incremental file name.
  * The SDK's asynchronous streams are finite sequences; what the network would
  * answer for a video (its comments, its transcript) travels with the raw video. */
module TikTokScraper {
  import opened Wrappers
  import opened Strings
  import opened TextUtils
  import opened Selection
  import opened Args

  function MinReal(a: real, b: real): real { if a <= b then a else b }
  function MaxReal(a: real, b: real): real { if a >= b then a else b }

  /** A non-negative ratio to a positive divisor is non-negative; it reaches 1 exactly
    * when the numerator reaches the divisor, and is 0 exactly when the numerator is. */
  lemma RatioBounds(p: real, m: real)
    requires 0.0 <= p && 0.0 < m
    ensures 0.0 <= p / m
    ensures p / m >= 1.0 <==> p >= m
    ensures p / m == 0.0 <==> p == 0.0
  {
  }

  /** `s.lower().strip()`. */
  function Norm(s: string): string { Strip(Lower(s)) }

  // ---------------------------------------------------------------- hashtag relevance

  /** Points one hashtag earns: 2 for an exact match, 1.5 when it contains the term,
    * 0.5 (one partial match at weight 0.5) when the term contains it, else 0. */
  function TagWeight(termL: string, tagL: string): (w: real)
    ensures 0.0 <= w <= 2.0
    ensures w == 2.0 <==> tagL == termL
  {
    if termL == tagL then 2.0
    else if Contains(tagL, termL) then 1.5
    else if Contains(termL, tagL) then 0.5
    else 0.0
  }

  /** `matches + partial_matches * 0.5` over the given lowered and stripped hashtags. */
  function HashtagPoints(termL: string, tagsL: seq<string>): (p: real)
    ensures 0.0 <= p <= 2.0 * |tagsL| as real
  {
    if tagsL == [] then 0.0
    else HashtagPoints(termL, tagsL[..|tagsL| - 1]) + TagWeight(termL, tagsL[|tagsL| - 1])
  }

  /** Every hashtag lowered and stripped. */
  function NormAll(tags: seq<string>): (r: seq<string>)
    ensures |r| == |tags|
  {
    if tags == [] then [] else NormAll(tags[..|tags| - 1]) + [Norm(tags[|tags| - 1])]
  }

  lemma {:induction false} NormAt(tags: seq<string>, i: nat)
    requires i < |tags|
    ensures NormAll(tags)[i] == Norm(tags[i])
  {
    var n := |tags| - 1;
    if i < n {
      NormAt(tags[..n], i);
    }
  }

  /** Every (lowered and stripped) hashtag equals the (lowered and stripped) term. */
  predicate AllExact(termL: string, tagsL: seq<string>) {
    forall k :: 0 <= k < |tagsL| ==> tagsL[k] == termL
  }

  /** The points reach their maximum exactly when every hashtag matches exactly. */
  lemma {:induction false} FullPointsIffAllExact(termL: string, tagsL: seq<string>)
    ensures HashtagPoints(termL, tagsL) == 2.0 * |tagsL| as real <==> AllExact(termL, tagsL)
  {
    if tagsL != [] {
      var n := |tagsL| - 1;
      var init := tagsL[..n];
      FullPointsIffAllExact(termL, init);
      assert forall k :: 0 <= k < n ==> init[k] == tagsL[k];
    }
  }

  /** The points over their maximum `2 * len(tags)`, capped at 1: a value in [0, 1]
    * that is 1 exactly when every hashtag matches the term exactly. */
  function HashtagRatio(termL: string, tagsL: seq<string>): (s: real)
    requires tagsL != []
    ensures 0.0 <= s <= 1.0
    ensures s == 1.0 <==> AllExact(termL, tagsL)
  {
    var p := HashtagPoints(termL, tagsL);
    var m := 2.0 * |tagsL| as real;
    FullPointsIffAllExact(termL, tagsL);
    RatioBounds(p, m);
    MinReal(p / m, 1.0)
  }

  /** `calculate_hashtag_relevance`: 0 without hashtags or without a term, otherwise
    * the ratio over the lowered and stripped term and hashtags. So the score lies in
    * [0, 1] and is 1 exactly when every hashtag equals the term. */
  function HashtagScore(term: string, tags: seq<string>): (s: real)
    ensures 0.0 <= s <= 1.0
    ensures tags == [] || term == [] ==> s == 0.0
    ensures s == 1.0 <==> tags != [] && term != [] && AllExact(Norm(term), NormAll(tags))
  {
    if tags == [] || term == [] then 0.0 else HashtagRatio(Norm(term), NormAll(tags))
  }

  /** One more hashtag adds its weight to the points. */
  lemma PointsStep(termL: string, tags: seq<string>, i: nat)
    requires i < |tags|
    ensures HashtagPoints(termL, NormAll(tags)[..i + 1])
            == HashtagPoints(termL, NormAll(tags)[..i]) + TagWeight(termL, Norm(tags[i]))
  {
    var tagsL := NormAll(tags);
    assert tagsL[..i + 1][..i] == tagsL[..i];
    NormAt(tags, i);
  }

  /** `calculate_hashtag_relevance` as the source computes it: exact matches and
    * containment accumulate into `matches`, reverse containment into `partial`. */
  method CalculateHashtagRelevance(term: string, tags: seq<string>) returns (score: real)
    ensures score == HashtagScore(term, tags)
  {
    if tags == [] || term == [] {
      return 0.0;
    }
    var termL := Norm(term);
    ghost var tagsL := NormAll(tags);
    var matches: real := 0.0;
    var partial: int := 0;
    var i := 0;
    while i < |tags|
      invariant 0 <= i <= |tags|
      invariant matches + partial as real * 0.5 == HashtagPoints(termL, tagsL[..i])
    {
      var tagL := Norm(tags[i]);
      ghost var before := matches + partial as real * 0.5;
      if termL == tagL {
        matches := matches + 2.0;
      } else if Contains(tagL, termL) {
        matches := matches + 1.5;
      } else if Contains(termL, tagL) {
        partial := partial + 1;
      }
      assert matches + partial as real * 0.5 == before + TagWeight(termL, tagL);
      PointsStep(termL, tags, i);
      i := i + 1;
    }
    assert tagsL[..i] == tagsL;
    var total := matches + partial as real * 0.5;
    var maxPossible := |tags| * 2;
    assert maxPossible as real == 2.0 * |tagsL| as real;
    score := MinReal(total / maxPossible as real, 1.0);
  }

  // ---------------------------------------------------------------- description relevance

  /** Total of `description.count(word)` over the words of the search term. */
  function WordMatches(descL: string, words: seq<string>): nat
    requires forall k :: 0 <= k < |words| ==> words[k] != []
  {
    if words == [] then 0
    else WordMatches(descL, words[..|words| - 1]) + Count(descL, words[|words| - 1])
  }

  /** Matches of the term's words in the lowered description. */
  function DescriptionMatches(term: string, desc: string): nat {
    WordMatches(Lower(desc), Split(Norm(term)))
  }

  /** `calculate_description_relevance`: the matches over a tenth of the word count
    * (at least 1), capped at 1; 0 without a description, a term or words. */
  function DescriptionScore(term: string, desc: string): (s: real)
    ensures 0.0 <= s <= 1.0
    ensures desc == [] || term == [] ==> s == 0.0
  {
    if desc == [] || term == [] then 0.0
    else
      var words := |Split(Lower(desc))|;
      if words == 0 then 0.0
      else MinReal(DescriptionMatches(term, desc) as real / MaxReal(words as real * 0.1, 1.0), 1.0)
  }

  /** With a description that has words, the score is 0 exactly when no term word
    * occurs in it, and 1 exactly when the matches reach a tenth of the word count
    * (and at least 1). */
  lemma DescriptionScoreExtremes(term: string, desc: string)
    requires desc != [] && term != [] && Split(Lower(desc)) != []
    ensures var m := DescriptionMatches(term, desc) as real;
            var d := MaxReal(|Split(Lower(desc))| as real * 0.1, 1.0);
            (DescriptionScore(term, desc) == 0.0 <==> m == 0.0)
            && (DescriptionScore(term, desc) == 1.0 <==> m >= d)
  {
    var m := DescriptionMatches(term, desc) as real;
    var d := MaxReal(|Split(Lower(desc))| as real * 0.1, 1.0);
    RatioBounds(m, d);
  }

  /** `calculate_description_relevance` as the source computes it, counting the
    * occurrences of each term word in a loop. */
  method CalculateDescriptionRelevance(term: string, desc: string) returns (score: real)
    ensures score == DescriptionScore(term, desc)
  {
    if desc == [] || term == [] {
      return 0.0;
    }
    var termL := Norm(term);
    var descL := Lower(desc);
    var searchWords := Split(termL);
    var matches := 0;
    var i := 0;
    while i < |searchWords|
      invariant 0 <= i <= |searchWords|
      invariant matches == WordMatches(descL, searchWords[..i])
    {
      assert searchWords[..i + 1][..i] == searchWords[..i];
      matches := matches + Count(descL, searchWords[i]);
      i := i + 1;
    }
    assert searchWords[..i] == searchWords;
    var descriptionWords := |Split(descL)|;
    if descriptionWords == 0 {
      return 0.0;
    }
    score := MinReal(matches as real / MaxReal(descriptionWords as real * 0.1, 1.0), 1.0);
  }

  // ---------------------------------------------------------------- combined relevance

  /** The fields `calculate_video_relevance` adds to a video. */
  datatype Relevance = Relevance(score: real, isRelevant: bool, hashtagScore: real, descriptionScore: real)

  /** `calculate_video_relevance`: 60% hashtag score, 40% description score, and the
    * video is relevant when the combined score reaches the threshold. */
  function VideoRelevance(term: string, tags: seq<string>, desc: string, threshold: real): (r: Relevance)
    ensures 0.0 <= r.score <= 1.0
    ensures r.isRelevant <==> r.score >= threshold
    ensures r.hashtagScore == HashtagScore(term, tags) && r.descriptionScore == DescriptionScore(term, desc)
  {
    var h := HashtagScore(term, tags);
    var d := DescriptionScore(term, desc);
    var score := h * 0.6 + d * 0.4;
    Relevance(score, score >= threshold, h, d)
  }

  /** A threshold of 0 or less admits every video and one above 1 admits none; a video
    * whose hashtags all equal the term and whose description saturates scores 1. */
  lemma ThresholdExtremes(term: string, tags: seq<string>, desc: string, threshold: real)
    ensures threshold <= 0.0 ==> VideoRelevance(term, tags, desc, threshold).isRelevant
    ensures threshold > 1.0 ==> !VideoRelevance(term, tags, desc, threshold).isRelevant
    ensures HashtagScore(term, tags) == 1.0 && DescriptionScore(term, desc) == 1.0
            ==> VideoRelevance(term, tags, desc, threshold).score == 1.0
  {
  }

  /** Without hashtags or a term nothing can reach a threshold above 0.4. */
  lemma NoHashtagsCapsScore(term: string, desc: string, threshold: real)
    requires threshold > 0.4
    ensures !VideoRelevance(term, [], desc, threshold).isRelevant
  {
  }

  // ---------------------------------------------------------------- video records

  /** What the SDK's `video.as_dict` holds; a missing key is `None`. The transcript the
    * transcription service would return and the comments the SDK would stream for
    * this video are carried with it. */
  datatype RawVideo = RawVideo(
    id: Option<string>, desc: Option<string>, authorUniqueId: Option<string>,
    playCount: Option<int>, diggCount: Option<int>, commentCount: Option<int>, shareCount: Option<int>,
    duration: Option<int>, createTime: int,
    transcript: Option<string>, commentFeed: seq<string>)

  datatype Stats = Stats(views: int, likes: int, comments: int, shares: int)

  /** The normalised video dictionary `extract_video_data` builds. `createdAt` keeps the
    * raw timestamp; `relevance` is `None` only for a record that has none. */
  datatype Video = Video(
    id: string, description: string, createdAt: Option<int>, authorUsername: string,
    duration: int, searchTerm: string, stats: Stats, hashtags: seq<string>, tiktokUrl: string,
    transcriptText: Option<string>, transcriptAvailable: bool,
    comments: seq<string>, commentsCount: int, commentsRetrieved: bool,
    relevance: Option<Relevance>)

  function GetOr<T>(o: Option<T>, d: T): T {
    match o
    case Some(v) => v
    case None => d
  }

  /** The public video address. */
  function PublicUrl(author: string, id: string): string {
    "https://www.tiktok.com/@" + author + "/video/" + id
  }

  /** `extract_video_data`: missing fields default to 'unknown', '' or 0; the transcript
    * is fetched only when asked for and both author and id are known; comments start
    * empty and not retrieved; the relevance is computed from the record's own hashtags
    * and description. */
  function ExtractVideoData(raw: RawVideo, term: string, getTranscript: bool, threshold: real): (v: Video)
    ensures v.hashtags == ExtractHashtags(v.description)
    ensures v.relevance == Some(VideoRelevance(term, v.hashtags, v.description, threshold))
    ensures v.comments == [] && v.commentsCount == 0 && !v.commentsRetrieved
    ensures v.transcriptText.Some? ==> getTranscript && v.id != "unknown" && v.authorUsername != "unknown"
    ensures v.transcriptAvailable <==> v.transcriptText.Some? && v.transcriptText.value != []
    ensures v.tiktokUrl == PublicUrl(v.authorUsername, v.id) && v.searchTerm == term
  {
    var id := GetOr(raw.id, "unknown");
    var desc := GetOr(raw.desc, "");
    var author := GetOr(raw.authorUniqueId, "unknown");
    var transcript := if getTranscript && author != "unknown" && id != "unknown" then raw.transcript else None;
    var hashtags := ExtractHashtags(desc);
    Video(id, desc, if raw.createTime != 0 then Some(raw.createTime) else None, author,
          GetOr(raw.duration, 0), term,
          Stats(GetOr(raw.playCount, 0), GetOr(raw.diggCount, 0), GetOr(raw.commentCount, 0), GetOr(raw.shareCount, 0)),
          hashtags, PublicUrl(author, id),
          transcript, transcript.Some? && transcript.value != [],
          [], 0, false,
          Some(VideoRelevance(term, hashtags, desc, threshold)))
  }

  /** The filter options `apply_video_filters` reads; 0 disables a bound. */
  datatype Filters = Filters(minDuration: int, maxDuration: int, minViews: int, noFilter: bool, minDescLength: int)

  function FiltersOf(args: Namespace): Filters
    reads args
  {
    Filters(args.minDuration, args.maxDuration, args.minViews, args.noFilter, args.minDescLength)
  }

  /** `apply_video_filters`. */
  function ApplyVideoFilters(v: Video, f: Filters, term: string): (keep: bool)
    ensures keep <==> (f.minDuration == 0 || v.duration >= f.minDuration)
                      && (f.maxDuration == 0 || v.duration <= f.maxDuration)
                      && (f.minViews == 0 || v.stats.views >= f.minViews)
                      && (f.noFilter || IsMeaningfulDescription(CleanDescription(v.description), term, f.minDescLength))
                      && (v.relevance.None? || v.relevance.value.isRelevant)
  {
    if f.minDuration != 0 && v.duration < f.minDuration then false
    else if f.maxDuration != 0 && v.duration > f.maxDuration then false
    else if f.minViews != 0 && v.stats.views < f.minViews then false
    else if !f.noFilter && !IsMeaningfulDescription(CleanDescription(v.description), term, f.minDescLength) then false
    else match v.relevance
      case None => true
      case Some(r) => r.isRelevant
  }

  /** An extracted video that passes the filters has a description long enough (unless
    * the description filter is off), views enough and a relevance reaching the
    * threshold. */
  lemma KeptVideoMeetsThresholds(raw: RawVideo, term: string, getTranscript: bool, threshold: real, f: Filters)
    requires ApplyVideoFilters(ExtractVideoData(raw, term, getTranscript, threshold), f, term)
    ensures var v := ExtractVideoData(raw, term, getTranscript, threshold);
            v.relevance.value.score >= threshold
            && (f.minViews != 0 ==> GetOr(raw.playCount, 0) >= f.minViews)
            && (!f.noFilter ==> |CleanDescription(GetOr(raw.desc, ""))| >= f.minDescLength)
  {
  }

  /** With every bound disabled and the description filter off, a video is kept
    * exactly when it has no relevance or is relevant. */
  lemma DisabledFiltersKeepRelevant(v: Video, term: string, minDescLength: int)
    ensures ApplyVideoFilters(v, Filters(0, 0, 0, true, minDescLength), term)
            <==> v.relevance.None? || v.relevance.value.isRelevant
  {
  }

  /** The description filter rejects a video whose cleaned description is not
    * meaningful, whatever its other fields. */
  lemma MeaninglessDescriptionRejected(v: Video, f: Filters, term: string)
    requires !f.noFilter && !IsMeaningfulDescription(CleanDescription(v.description), term, f.minDescLength)
    ensures !ApplyVideoFilters(v, f, term)
  {
  }

  // ---------------------------------------------------------------- comments

  /** The comment texts the source keeps: stripped, and at least two characters. */
  predicate CommentKept(text: string) { |Strip(text)| >= 2 }

  /** The stripped texts of the kept comments, in stream order. */
  function ValidComments(feed: seq<string>): (cs: seq<string>)
    ensures |cs| <= |feed|
  {
    if feed == [] then []
    else
      var n := |feed| - 1;
      ValidComments(feed[..n]) + (if CommentKept(feed[n]) then [Strip(feed[n])] else [])
  }

  /** A kept comment text: at least two characters, no whitespace at either end. */
  predicate CleanComment(c: string) {
    |c| >= 2 && !IsSpace(c[0]) && !IsSpace(c[|c| - 1])
  }

  /** `c` is the stripped text of one of the comments of `feed`. */
  predicate FromFeed(c: string, feed: seq<string>) {
    exists j :: 0 <= j < |feed| && c == Strip(feed[j])
  }

  /** Every valid comment is clean and comes from the feed. */
  lemma {:induction false} ValidCommentsAreClean(feed: seq<string>)
    ensures forall k :: 0 <= k < |ValidComments(feed)| ==>
              CleanComment(ValidComments(feed)[k]) && FromFeed(ValidComments(feed)[k], feed)
    decreases |feed|
  {
    if feed != [] {
      var n := |feed| - 1;
      var prev := ValidComments(feed[..n]);
      ValidCommentsAreClean(feed[..n]);
      forall k | 0 <= k < |prev| ensures FromFeed(prev[k], feed) {
        FromFeedOfPrefix(prev[k], feed, n);
      }
      if CommentKept(feed[n]) {
        StripFacts(feed[n]);
        assert FromFeed(Strip(feed[n]), feed);
      }
    }
  }

  lemma FromFeedOfPrefix(c: string, feed: seq<string>, n: nat)
    requires n <= |feed| && FromFeed(c, feed[..n])
    ensures FromFeed(c, feed)
  {
    var j :| 0 <= j < n && c == Strip(feed[..n][j]);
    assert feed[..n][j] == feed[j];
  }

  /** The valid comments of a prefix of the feed are a prefix of its valid comments. */
  lemma {:induction false} ValidCommentsPrefix(feed: seq<string>, i: nat)
    requires i <= |feed|
    ensures ValidComments(feed[..i]) <= ValidComments(feed)
    decreases |feed|
  {
    if i < |feed| {
      var n := |feed| - 1;
      assert feed[..n][..i] == feed[..i];
      ValidCommentsPrefix(feed[..n], i);
    } else {
      assert feed[..i] == feed;
    }
  }

  /** One more comment of the feed adds its stripped text when it is kept. */
  lemma ValidCommentsStep(feed: seq<string>, i: nat)
    requires i < |feed|
    ensures ValidComments(feed[..i + 1])
            == ValidComments(feed[..i]) + (if CommentKept(feed[i]) then [Strip(feed[i])] else [])
  {
    assert feed[..i + 1][..i] == feed[..i];
  }

  /** At least one comment is collected before the limit is checked. */
  function CommentCap(maxComments: int): nat {
    if maxComments >= 1 then maxComments else 1
  }

  /** What `get_video_comments` returns: nothing for a missing or unknown id, otherwise
    * the first `CommentCap(maxComments)` valid comments. */
  function VideoComments(videoId: string, feed: seq<string>, maxComments: int): (cs: seq<string>)
  {
    if videoId == [] || videoId == "unknown" then []
    else
      var v := ValidComments(feed);
      if |v| <= CommentCap(maxComments) then v else v[..CommentCap(maxComments)]
  }

  /** The collected comments are at most the cap, in stream order, each stripped and of
    * at least two characters, and each comes from a comment of the feed. */
  lemma VideoCommentsShape(videoId: string, feed: seq<string>, maxComments: int)
    ensures var cs := VideoComments(videoId, feed, maxComments);
            |cs| <= CommentCap(maxComments)
            && cs <= ValidComments(feed)
            && (videoId == [] || videoId == "unknown" ==> cs == [])
            && forall k :: 0 <= k < |cs| ==> CleanComment(cs[k]) && FromFeed(cs[k], feed)
  {
    ValidCommentsAreClean(feed);
  }

  /** Once the cap is reached the comments collected so far are the answer. */
  lemma CommentsAtCap(videoId: string, feed: seq<string>, maxComments: int, i: nat)
    requires videoId != [] && videoId != "unknown" && i <= |feed|
    requires |ValidComments(feed[..i])| == CommentCap(maxComments)
    ensures VideoComments(videoId, feed, maxComments) == ValidComments(feed[..i])
  {
    ValidCommentsPrefix(feed, i);
  }

  /** `get_video_comments`: walks the comment stream, keeps each stripped text of at
    * least two characters and stops once `maxComments` are kept. */
  method GetVideoComments(videoId: string, feed: seq<string>, maxComments: int) returns (comments: seq<string>)
    ensures comments == VideoComments(videoId, feed, maxComments)
  {
    if videoId == [] || videoId == "unknown" {
      return [];
    }
    comments := [];
    var commentCount := 0;
    var i := 0;
    while i < |feed|
      invariant 0 <= i <= |feed|
      invariant comments == ValidComments(feed[..i])
      invariant commentCount == |comments| < CommentCap(maxComments)
    {
      ValidCommentsStep(feed, i);
      var commentText := Strip(feed[i]);
      if commentText != [] && |commentText| >= 2 {
        comments := comments + [commentText];
        commentCount := commentCount + 1;
        if commentCount >= maxComments {
          CommentsAtCap(videoId, feed, maxComments, i + 1);
          return;
        }
      }
      i := i + 1;
    }
    assert feed[..i] == feed;
  }

  // ---------------------------------------------------------------- search loops

  /** How many videos the loops ask the SDK for, and after how many processed videos
    * they give up, per wanted video. */
  const RequestFactor: nat := 3
  const LimitFactor: nat := 5

  /** What the loop needs from the parsed arguments. */
  datatype SearchOptions = SearchOptions(
    getTranscript: bool, getComments: bool, maxComments: int, threshold: real, filters: Filters)

  function SearchOptionsOf(args: Namespace, getTranscript: bool): SearchOptions
    reads args
  {
    SearchOptions(getTranscript, args.addComments, args.maxComments, args.relevanceThreshold, FiltersOf(args))
  }

  /** Whether a streamed video, once extracted, passes the filters. */
  predicate Passes(raw: RawVideo, term: string, o: SearchOptions) {
    ApplyVideoFilters(ExtractVideoData(raw, term, o.getTranscript, o.threshold), o.filters, term)
  }

  /** Whether each streamed video passes the filters. */
  function PassFlags(stream: seq<RawVideo>, term: string, o: SearchOptions): (flags: seq<bool>)
    ensures |flags| == |stream|
  {
    MapSeq(PassesOf(term, o), stream)
  }

  function PassesOf(term: string, o: SearchOptions): RawVideo -> bool {
    raw => Passes(raw, term, o)
  }

  /** A streamed video as the loop stores it: extracted, and with its comments when
    * comments were requested. */
  function Collected(raw: RawVideo, term: string, o: SearchOptions): (v: Video)
    ensures o.getComments ==> v.commentsRetrieved && v.commentsCount == |v.comments|
                              && v.comments == VideoComments(v.id, raw.commentFeed, o.maxComments)
  {
    var v := ExtractVideoData(raw, term, o.getTranscript, o.threshold);
    if o.getComments then
      var cs := VideoComments(v.id, raw.commentFeed, o.maxComments);
      v.(comments := cs, commentsCount := |cs|, commentsRetrieved := true)
    else v
  }

  /** Every streamed video as the loop would store it. */
  function CollectedAll(stream: seq<RawVideo>, term: string, o: SearchOptions): (vs: seq<Video>)
    ensures |vs| == |stream|
  {
    MapSeq(CollectedOf(term, o), stream)
  }

  function CollectedOf(term: string, o: SearchOptions): RawVideo -> Video {
    raw => Collected(raw, term, o)
  }

  /** One iteration's work on the `i`-th streamed video: extract it, test the filters
    * and, for a kept video, fetch its comments when they were requested. */
  method ProcessVideo(stream: seq<RawVideo>, i: nat, term: string, o: SearchOptions) returns (pass: bool, v: Video)
    requires i < |stream|
    ensures pass == PassFlags(stream, term, o)[i]
    ensures pass ==> v == CollectedAll(stream, term, o)[i]
  {
    MapSeqAt(PassesOf(term, o), stream, i);
    MapSeqAt(CollectedOf(term, o), stream, i);
    var raw := stream[i];
    v := ExtractVideoData(raw, term, o.getTranscript, o.threshold);
    pass := ApplyVideoFilters(v, o.filters, term);
    if pass && o.getComments {
      var comments := GetVideoComments(v.id, raw.commentFeed, o.maxComments);
      v := v.(comments := comments, commentsCount := |comments|, commentsRetrieved := true);
    }
  }

  /** The loop shared by `search_hashtag_videos`, `search_user_videos` and
    * `search_trending_videos`: it processes the stream until `count` videos are kept
    * or `LimitFactor * count` are processed, and returns the kept videos in stream
    * order together with the number processed. */
  method CollectVideos(stream: seq<RawVideo>, term: string, count: int, o: SearchOptions)
    returns (videos: seq<Video>, processed: nat)
    ensures processed == Processed(PassFlags(stream, term, o), count, LimitFactor * count)
    ensures videos == Selected(CollectedAll(stream, term, o)[..processed], PassFlags(stream, term, o)[..processed])
    ensures count >= 1 ==> |videos| <= count && processed <= LimitFactor * count
  {
    ghost var flags := PassFlags(stream, term, o);
    ghost var all := CollectedAll(stream, term, o);
    var limit := LimitFactor * count;
    videos := [];
    processed := 0;
    var kept := 0;
    var i := 0;
    while i < |stream|
      invariant 0 <= i <= |stream| && processed == i
      invariant videos == Selected(all[..i], flags[..i]) && kept == |videos|
      invariant Processed(flags, count, limit) == StopFrom(flags, count, limit, i, kept)
    {
      processed := processed + 1;
      var pass, v := ProcessVideo(stream, i, term, o);
      AdvanceLoop(all, flags, count, limit, i, videos, pass, v);
      if pass {
        videos := videos + [v];
        kept := kept + 1;
        if kept >= count {
          break;
        }
      }
      if processed >= limit {
        break;
      }
      i := i + 1;
    }
    if count >= 1 {
      ProcessedWithinLimit(flags, count, limit);
      KeptAtMostCount(flags, count, limit);
    }
  }

  /** The loops ask the SDK for `RequestFactor * count` videos; when the stream is no
    * longer than that, the `LimitFactor * count` bound never ends the loop early. */
  lemma LimitUnreachedWhenStreamHonoursRequest(flags: seq<bool>, count: int)
    requires count >= 1 && |flags| <= RequestFactor * count
    ensures Processed(flags, count, LimitFactor * count) < LimitFactor * count
  {
  }

  /** `search_hashtag_videos`: the loop with the hashtag as search term. */
  method SearchHashtagVideos(stream: seq<RawVideo>, hashtag: string, count: int, args: Namespace, getTranscript: bool)
    returns (videos: seq<Video>)
    ensures var o := SearchOptionsOf(args, getTranscript);
            var p := Processed(PassFlags(stream, hashtag, o), count, LimitFactor * count);
            videos == Selected(CollectedAll(stream, hashtag, o)[..p], PassFlags(stream, hashtag, o)[..p])
  {
    var processed;
    videos, processed := CollectVideos(stream, hashtag, count, SearchOptionsOf(args, getTranscript));
  }

  /** `search_user_videos`: the loop with the user name as search term. */
  method SearchUserVideos(stream: seq<RawVideo>, username: string, count: int, args: Namespace, getTranscript: bool)
    returns (videos: seq<Video>)
    ensures var o := SearchOptionsOf(args, getTranscript);
            var p := Processed(PassFlags(stream, username, o), count, LimitFactor * count);
            videos == Selected(CollectedAll(stream, username, o)[..p], PassFlags(stream, username, o)[..p])
  {
    var processed;
    videos, processed := CollectVideos(stream, username, count, SearchOptionsOf(args, getTranscript));
  }

  /** `search_trending_videos`: the loop with the fixed term "trending". */
  method SearchTrendingVideos(stream: seq<RawVideo>, count: int, args: Namespace, getTranscript: bool)
    returns (videos: seq<Video>)
    ensures var o := SearchOptionsOf(args, getTranscript);
            var p := Processed(PassFlags(stream, "trending", o), count, LimitFactor * count);
            videos == Selected(CollectedAll(stream, "trending", o)[..p], PassFlags(stream, "trending", o)[..p])
  {
    var processed;
    videos, processed := CollectVideos(stream, "trending", count, SearchOptionsOf(args, getTranscript));
  }

  // ---------------------------------------------------------------- file names

  function DigitChar(d: nat): char
    requires d < 10
  {
    ('0' as int + d) as char
  }

  /** `str(n)` for a natural number. */
  function NatToString(n: nat): (s: string)
    ensures s != [] && forall k :: 0 <= k < |s| ==> '0' <= s[k] <= '9'
  {
    if n < 10 then [DigitChar(n)] else NatToString(n / 10) + [DigitChar(n % 10)]
  }

  /** `int(s)` for a string of decimal digits. */
  function ParseDigits(s: string): nat
    requires forall k :: 0 <= k < |s| ==> '0' <= s[k] <= '9'
  {
    if s == [] then 0 else ParseDigits(s[..|s| - 1]) * 10 + (s[|s| - 1] as int - '0' as int)
  }

  lemma {:induction false} ParseNatToString(n: nat)
    ensures ParseDigits(NatToString(n)) == n
  {
    if n >= 10 {
      var s := NatToString(n);
      assert s[..|s| - 1] == NatToString(n / 10);
      ParseNatToString(n / 10);
    }
  }

  /** `f"{output_dir}/{prefix}_#{counter}{extension}"`. */
  function NumberedName(dir: string, prefix: string, ext: string, n: nat): string {
    dir + "/" + prefix + "_#" + NatToString(n) + ext
  }

  /** The counter a numbered name carries. */
  function NameCounter(dir: string, prefix: string, ext: string, name: string): nat {
    var lo := |dir| + 1 + |prefix| + 2;
    if lo <= |name| - |ext| && forall k :: lo <= k < |name| - |ext| ==> '0' <= name[k] <= '9'
    then ParseDigits(name[lo..|name| - |ext|])
    else 0
  }

  /** Different counters give different names. */
  lemma NameCounterOfName(dir: string, prefix: string, ext: string, n: nat)
    ensures NameCounter(dir, prefix, ext, NumberedName(dir, prefix, ext, n)) == n
  {
    var name := NumberedName(dir, prefix, ext, n);
    var lo := |dir| + 1 + |prefix| + 2;
    assert name[lo..|name| - |ext|] == NatToString(n);
    ParseNatToString(n);
  }

  /** `get_next_filename`: the smallest counter from 1 up whose name is not among the
    * existing files, with that name. */
  method GetNextFilename(existing: set<string>, dir: string, prefix: string, ext: string)
    returns (filename: string, counter: nat)
    ensures counter >= 1 && filename == NumberedName(dir, prefix, ext, counter)
    ensures filename !in existing
    ensures forall m :: 1 <= m < counter ==> NumberedName(dir, prefix, ext, m) in existing
  {
    counter := 1;
    ghost var seen: set<string> := {};
    while true
      invariant counter >= 1
      invariant seen <= existing
      invariant forall x :: x in seen ==> NameCounter(dir, prefix, ext, x) < counter
      invariant forall m :: 1 <= m < counter ==> NumberedName(dir, prefix, ext, m) in existing
      decreases |existing - seen|
    {
      filename := NumberedName(dir, prefix, ext, counter);
      if filename !in existing {
        return;
      }
      NameCounterOfName(dir, prefix, ext, counter);
      assert filename !in seen;
      assert existing - (seen + {filename}) < existing - seen;
      seen := seen + {filename};
      forall m | 1 <= m < counter + 1
        ensures NumberedName(dir, prefix, ext, m) in existing
      {
        if m == counter {
          assert NumberedName(dir, prefix, ext, m) == filename;
        }
      }
      counter := counter + 1;
    }
  }

  /** The file name prefix: `--output-prefix` when given, else "tiktok_scraper". */
  function FilePrefix(outputPrefix: string): (p: string)
    ensures p != []
    ensures outputPrefix != [] ==> p == outputPrefix
  {
    if outputPrefix != [] then outputPrefix else "tiktok_scraper"
  }

  /** The file `save_videos` writes: its name and number, and the metadata and videos
    * it holds. */
  datatype SavedFile = SavedFile(
    filename: string, number: nat, searchType: string, searchTerm: string, totalVideos: nat, videos: seq<Video>)

  /** `save_videos`: nothing for an empty list; otherwise the next free numbered
    * ".json" name in the output directory and every video, in order. */
  method SaveVideos(videos: seq<Video>, searchType: string, searchTerm: string, args: Namespace, existing: set<string>)
    returns (saved: Option<SavedFile>)
    ensures videos == [] <==> saved.None?
    ensures saved.Some? ==>
              var f := saved.value;
              f.filename == NumberedName(args.outputDir, FilePrefix(args.outputPrefix), ".json", f.number)
              && f.filename !in existing
              && (forall m :: 1 <= m < f.number ==>
                    NumberedName(args.outputDir, FilePrefix(args.outputPrefix), ".json", m) in existing)
              && f.totalVideos == |videos| && f.videos == videos
              && f.searchType == searchType && f.searchTerm == searchTerm
  {
    if videos == [] {
      return None;
    }
    var basePrefix := FilePrefix(args.outputPrefix);
    var filename, fileNumber := GetNextFilename(existing, args.outputDir, basePrefix, ".json");
    saved := Some(SavedFile(filename, fileNumber, searchType, searchTerm, |videos|, videos));
  }
}

=== FILE: tiktok_v1.dfy ===
/** The first TikTok scraper (the root tiktok_scraper.py, "v1.0"): argument
  * validation, record extraction, the filters, the three search loops, the JSON
  * file with its statistics, and the choice of search mode in `main`. Its
  * description cleaning is the shared `clean_description` and its description test
  * is the one of the older script, so both are imported rather than redefined. */
module TikTokScraperV1 {
  import opened Wrappers
  import opened Strings
  import opened Args
  import opened CliUtils
  import opened Selection
  import Tally
  import TextUtils
  import TikTokScraper
  import TikTokScraperOld

  // ---------------------------------------------------------------- arguments

  /** The checks `parse_arguments` makes after the log level and before it cleans the
    * search inputs, in the order it makes them; None when all pass. */
  function RangeError(auto: bool, hashtag: string, user: string, trending: bool, count: int,
                      minDuration: int, maxDuration: int): (e: Option<CliError>)
    ensures e.None? <==> (!auto || hashtag != "" || user != "" || trending) && 5 <= count <= 100
                         && !(minDuration != 0 && maxDuration != 0 && minDuration >= maxDuration)
    ensures e == Some(AutoNeedsSearchMode) <==> auto && hashtag == "" && user == "" && !trending
    ensures e == Some(DurationOrder) ==> minDuration >= maxDuration
  {
    if auto && !(hashtag != "" || user != "" || trending) then Some(AutoNeedsSearchMode)
    else if ValidateCountArgument(count, 5, 100).Fail? then Some(CountOutOfRange(5, 100))
    else if minDuration != 0 && maxDuration != 0 && minDuration >= maxDuration then Some(DurationOrder)
    else None
  }

  /** The validation half of `parse_arguments`, as in the older script but without
    * the comment and relevance bounds, which this version does not have. */
  method ParseArguments(args: Namespace, dirCreatable: bool) returns (r: Outcome)
    modifies args`logLevel, args`hashtag, args`user
    ensures old(args.quiet) && old(args.verbose) ==> r == Fail(QuietAndVerbose) && unchanged(args)
    ensures !(old(args.quiet) && old(args.verbose)) ==>
              args.logLevel == ResolveLogLevel(old(args.quiet), old(args.verbose), old(args.logLevel)).value
              && var e := RangeError(old(args.auto), old(args.hashtag), old(args.user), old(args.trending),
                                     old(args.count), old(args.minDuration), old(args.maxDuration));
                 var h := CleanHashtagInput(old(args.hashtag));
                 var u := CleanUsernameInput(old(args.user));
                 if e.Some? then r == Fail(e.value) && args.hashtag == old(args.hashtag) && args.user == old(args.user)
                 else if h.Err? then r == Fail(EmptyHashtag) && args.hashtag == "" && args.user == old(args.user)
                 else if u.Err? then r == Fail(EmptyUsername) && args.hashtag == h.value && args.user == ""
                 else args.hashtag == h.value && args.user == u.value
                      && (r == Pass <==> dirCreatable) && (r.Fail? ==> r.error == CannotCreateOutputDir)
  {
    var lv := ResolveLogLevel(args.quiet, args.verbose, args.logLevel);
    if lv.Err? {
      return Fail(QuietAndVerbose);
    }
    args.logLevel := lv.value;
    var e := RangeError(args.auto, args.hashtag, args.user, args.trending, args.count,
                        args.minDuration, args.maxDuration);
    if e.Some? {
      return Fail(e.value);
    }
    var h := CleanHashtagInput(args.hashtag);
    if h.Err? {
      args.hashtag := "";
      return Fail(EmptyHashtag);
    }
    args.hashtag := h.value;
    var u := CleanUsernameInput(args.user);
    if u.Err? {
      args.user := "";
      return Fail(EmptyUsername);
    }
    args.user := u.value;
    if !dirCreatable {
      return Fail(CannotCreateOutputDir);
    }
    return Pass;
  }

  // ---------------------------------------------------------------- records

  /** What the SDK's `video.as_dict` holds for this version; a missing key is `None`. */
  datatype RawVideo = RawVideo(
    id: Option<string>, desc: Option<string>,
    uniqueId: Option<string>, nickname: Option<string>, authorId: Option<string>,
    playCount: Option<int>, diggCount: Option<int>, commentCount: Option<int>, shareCount: Option<int>,
    duration: Option<int>, createTime: int)

  /** The normalised video dictionary. `stats` holds the counts under the names
    * `views`, `likes`, `comments` and `shares`. */
  datatype Video = Video(
    id: string, description: string, cleanDescription: string, descLength: nat, originalDescLength: nat,
    createdAt: Option<int>, authorUsername: string, authorNickname: string, authorId: string,
    duration: int, searchType: string, searchTerm: string, stats: TikTokScraper.Stats,
    hashtags: seq<string>, meaningfulContent: bool, filterApplied: bool, minDescLengthUsed: int)

  /** `extract_video_data`: missing fields default to 'unknown', '' or 0; the cleaned
    * description is never longer than the original; the filter metadata starts as
    * "applied, minimum 10" until `main` overwrites it. */
  function ExtractVideoData(raw: RawVideo, searchType: string, term: string): (v: Video)
    ensures v.description == TikTokScraper.GetOr(raw.desc, "")
    ensures v.cleanDescription == TextUtils.CleanDescription(v.description)
    ensures v.descLength == |v.cleanDescription| <= v.originalDescLength == |v.description|
    ensures TextUtils.IsNormalized(v.cleanDescription)
    ensures v.hashtags == TextUtils.ExtractHashtags(v.description)
    ensures v.stats.views == TikTokScraper.GetOr(raw.playCount, 0)
    ensures v.createdAt.Some? <==> raw.createTime != 0
    ensures v.searchType == searchType && v.searchTerm == term
    ensures v.meaningfulContent && v.filterApplied && v.minDescLengthUsed == 10
  {
    var desc := TikTokScraper.GetOr(raw.desc, "");
    var clean := TextUtils.CleanDescription(desc);
    Video(TikTokScraper.GetOr(raw.id, "unknown"), desc, clean, |clean|, |desc|,
          if raw.createTime != 0 then Some(raw.createTime) else None,
          TikTokScraper.GetOr(raw.uniqueId, "unknown"), TikTokScraper.GetOr(raw.nickname, "unknown"),
          TikTokScraper.GetOr(raw.authorId, "unknown"),
          TikTokScraper.GetOr(raw.duration, 0), searchType, term,
          TikTokScraper.Stats(TikTokScraper.GetOr(raw.playCount, 0), TikTokScraper.GetOr(raw.diggCount, 0),
                              TikTokScraper.GetOr(raw.commentCount, 0), TikTokScraper.GetOr(raw.shareCount, 0)),
          TextUtils.ExtractHashtags(desc), true, true, 10)
  }

  // ---------------------------------------------------------------- filters

  /** The `stats` dictionary of a record, under the names the record uses. */
  function StatsDict(s: TikTokScraper.Stats): map<string, int> {
    map["views" := s.views, "likes" := s.likes, "comments" := s.comments, "shares" := s.shares]
  }

  /** `d.get(k, default)`. */
  function Lookup(d: map<string, int>, k: string, default: int): (x: int)
    ensures k in d ==> x == d[k]
    ensures k !in d ==> x == default
  {
    if k in d then d[k] else default
  }

  /** `apply_video_filters` as written: the view count is read from the record's
    * `stats` under the SDK's name `playCount`, which the record does not have, so
    * it is always 0 and a view bound is met only when it is not positive. */
  function ApplyVideoFiltersAsWritten(v: Video, f: TikTokScraper.Filters, term: string): (keep: bool)
    ensures keep <==> (f.minDuration == 0 || v.duration >= f.minDuration)
                      && (f.maxDuration == 0 || v.duration <= f.maxDuration)
                      && f.minViews <= 0
                      && (f.noFilter
                          || TikTokScraperOld.IsMeaningfulDescription(TextUtils.CleanDescription(v.description), term, f.minDescLength))
  {
    var d := StatsDict(v.stats);
    assert d.Keys == {"views", "likes", "comments", "shares"};
    var views := Lookup(d, "playCount", 0);
    if f.minDuration != 0 && v.duration < f.minDuration then false
    else if f.maxDuration != 0 && v.duration > f.maxDuration then false
    else if f.minViews != 0 && views < f.minViews then false
    else if !f.noFilter
            && !TikTokScraperOld.IsMeaningfulDescription(TextUtils.CleanDescription(v.description), term, f.minDescLength)
    then false
    else true
  }

  /** With a positive `--min-views`, the filter as written rejects every video,
    * whatever its view count. */
  lemma MinViewsRejectsEveryVideo(v: Video, f: TikTokScraper.Filters, term: string)
    requires f.minViews > 0
    ensures !ApplyVideoFiltersAsWritten(v, f, term)
  {
  }

  /** A concrete video with a million views and a `--min-views 1` bound: the filter
    * as written drops it, the one reading `views` keeps it. */
  lemma PopularVideoDropped()
    ensures var v := PopularVideo();
            var f := TikTokScraper.Filters(0, 0, 1, true, 10);
            !ApplyVideoFiltersAsWritten(v, f, "ai") && ApplyVideoFilters(v, f, "ai")
  {
    assert StatsDict(PopularVideo().stats)["views"] == 1000000;
  }

  function PopularVideo(): Video {
    Video("1", "", "", 0, 0, None, "", "", "", 30, "hashtag", "ai", TikTokScraper.Stats(1000000, 0, 0, 0),
          [], false, false, 10)
  }

  /** `apply_video_filters` reading the view count under the record's own name
    * `views`. */
  function ApplyVideoFilters(v: Video, f: TikTokScraper.Filters, term: string): (keep: bool)
    ensures keep <==> (f.minDuration == 0 || v.duration >= f.minDuration)
                      && (f.maxDuration == 0 || v.duration <= f.maxDuration)
                      && (f.minViews == 0 || v.stats.views >= f.minViews)
                      && (f.noFilter
                          || TikTokScraperOld.IsMeaningfulDescription(TextUtils.CleanDescription(v.description), term, f.minDescLength))
    ensures keep && !f.noFilter ==> |TextUtils.CleanDescription(v.description)| >= f.minDescLength
  {
    var d := StatsDict(v.stats);
    assert d["views"] == v.stats.views;
    var views := Lookup(d, "views", 0);
    if f.minDuration != 0 && v.duration < f.minDuration then false
    else if f.maxDuration != 0 && v.duration > f.maxDuration then false
    else if f.minViews != 0 && views < f.minViews then false
    else if !f.noFilter
            && !TikTokScraperOld.IsMeaningfulDescription(TextUtils.CleanDescription(v.description), term, f.minDescLength)
    then false
    else true
  }

  /** With the other filters off, the view bound alone decides, in both directions. */
  lemma ViewsFilterDecides(v: Video, minViews: int, term: string, minDescLength: int)
    ensures ApplyVideoFilters(v, TikTokScraper.Filters(0, 0, minViews, true, minDescLength), term)
            <==> minViews == 0 || v.stats.views >= minViews
  {
    assert StatsDict(v.stats)["views"] == v.stats.views;
  }

  /** The two filters differ only in the view bound: without one they agree. */
  lemma FiltersAgreeWithoutViewBound(v: Video, f: TikTokScraper.Filters, term: string)
    requires f.minViews == 0
    ensures ApplyVideoFiltersAsWritten(v, f, term) == ApplyVideoFilters(v, f, term)
  {
  }

  // ---------------------------------------------------------------- search

  /** How many videos the loops ask the SDK for, and after how many processed videos
    * they give up, per wanted video. */
  const RequestFactor: nat := 2
  const LimitFactor: nat := 3

  /** The filter the loops apply, as written, and the one reading `views`. */
  function KeepAsWritten(f: TikTokScraper.Filters, term: string): Video -> bool {
    v => ApplyVideoFiltersAsWritten(v, f, term)
  }

  function KeepCorrected(f: TikTokScraper.Filters, term: string): Video -> bool {
    v => ApplyVideoFilters(v, f, term)
  }

  function PassesOf(searchType: string, term: string, keep: Video -> bool): RawVideo -> bool {
    raw => keep(ExtractVideoData(raw, searchType, term))
  }

  function ExtractOf(searchType: string, term: string): RawVideo -> Video {
    raw => ExtractVideoData(raw, searchType, term)
  }

  /** Whether each streamed video passes the filter `keep` once extracted. */
  function PassFlags(stream: seq<RawVideo>, searchType: string, term: string, keep: Video -> bool)
    : (flags: seq<bool>)
    ensures |flags| == |stream|
  {
    MapSeq(PassesOf(searchType, term, keep), stream)
  }

  /** Every streamed video, extracted. */
  function ExtractedAll(stream: seq<RawVideo>, searchType: string, term: string): (vs: seq<Video>)
    ensures |vs| == |stream|
  {
    MapSeq(ExtractOf(searchType, term), stream)
  }

  /** The videos a loop filtering with `keep` returns from `stream`. */
  function Kept(stream: seq<RawVideo>, searchType: string, term: string, count: int, keep: Video -> bool)
    : seq<Video>
  {
    var flags := PassFlags(stream, searchType, term, keep);
    var p := Processed(flags, count, LimitFactor * count);
    Selected(ExtractedAll(stream, searchType, term)[..p], flags[..p])
  }

  /** `search_hashtag_videos`, `search_user_videos` and `search_trending_videos`
    * (search types 'hashtag', 'user' and 'trending'; the trending term is
    * "trending"): extract and filter each streamed video with the filter as
    * written until `count` videos are kept or `LimitFactor * count` are processed;
    * the kept videos come back in stream order. With a positive `--min-views`
    * nothing is kept and the loop only stops at the limit or the stream's end. */
  method SearchVideos(stream: seq<RawVideo>, searchType: string, term: string, count: int, f: TikTokScraper.Filters)
    returns (videos: seq<Video>, processed: nat)
    ensures processed == Processed(PassFlags(stream, searchType, term, KeepAsWritten(f, term)), count, LimitFactor * count)
    ensures videos == Kept(stream, searchType, term, count, KeepAsWritten(f, term))
    ensures count >= 1 ==> |videos| <= count && processed <= LimitFactor * count
    ensures forall k :: 0 <= k < |videos| ==>
              ApplyVideoFiltersAsWritten(videos[k], f, term)
              && videos[k].searchType == searchType && videos[k].searchTerm == term
    ensures f.minViews > 0 && count >= 1 ==>
              videos == [] && processed == if |stream| < LimitFactor * count then |stream| else LimitFactor * count
  {
    videos, processed := CollectWhile(stream, PassesOf(searchType, term, KeepAsWritten(f, term)),
                                      ExtractOf(searchType, term), count, LimitFactor * count);
    forall k | 0 <= k < |videos|
      ensures ApplyVideoFiltersAsWritten(videos[k], f, term)
              && videos[k].searchType == searchType && videos[k].searchTerm == term
    {
      SearchedVideosPassFilters(stream, searchType, term, count, KeepAsWritten(f, term), k);
    }
    if f.minViews > 0 && count >= 1 {
      MinViewsKeepsNothing(stream, searchType, term, count, f);
    }
  }

  /** The same loop with the filter reading `views`: what the loops evidently mean
    * to return. */
  method SearchVideosCorrected(stream: seq<RawVideo>, searchType: string, term: string, count: int,
                               f: TikTokScraper.Filters)
    returns (videos: seq<Video>, processed: nat)
    ensures processed == Processed(PassFlags(stream, searchType, term, KeepCorrected(f, term)), count, LimitFactor * count)
    ensures videos == Kept(stream, searchType, term, count, KeepCorrected(f, term))
    ensures count >= 1 ==> |videos| <= count && processed <= LimitFactor * count
    ensures forall k :: 0 <= k < |videos| ==>
              ApplyVideoFilters(videos[k], f, term) && (f.minViews == 0 || videos[k].stats.views >= f.minViews)
              && videos[k].searchType == searchType && videos[k].searchTerm == term
  {
    videos, processed := CollectWhile(stream, PassesOf(searchType, term, KeepCorrected(f, term)),
                                      ExtractOf(searchType, term), count, LimitFactor * count);
    forall k | 0 <= k < |videos|
      ensures ApplyVideoFilters(videos[k], f, term)
              && videos[k].searchType == searchType && videos[k].searchTerm == term
    {
      SearchedVideosPassFilters(stream, searchType, term, count, KeepCorrected(f, term), k);
    }
  }

  /** Every video a loop returns passed the filter it applies, and carries the
    * search type and term. */
  lemma SearchedVideosPassFilters(stream: seq<RawVideo>, searchType: string, term: string, count: int,
                                  keep: Video -> bool, k: nat)
    requires k < |Kept(stream, searchType, term, count, keep)|
    ensures var v := Kept(stream, searchType, term, count, keep)[k];
            keep(v) && v.searchType == searchType && v.searchTerm == term
  {
    var flags := PassFlags(stream, searchType, term, keep);
    var all := ExtractedAll(stream, searchType, term);
    var p := Processed(flags, count, LimitFactor * count);
    var idx := Indices(flags[..p]);
    SelectedAtIndices(all[..p], flags[..p]);
    IndexPasses(flags[..p], k);
    var j := idx[k];
    assert flags[..p][j] == flags[j] && all[..p][j] == all[j];
    MapSeqAt(PassesOf(searchType, term, keep), stream, j);
    MapSeqAt(ExtractOf(searchType, term), stream, j);
  }

  /** With a positive `--min-views` the loops as written keep nothing: they process
    * `LimitFactor * count` videos, or the whole stream when it is shorter, which it
    * is when the SDK yields no more than the `RequestFactor * count` asked for. */
  lemma MinViewsKeepsNothing(stream: seq<RawVideo>, searchType: string, term: string, count: int,
                             f: TikTokScraper.Filters)
    requires f.minViews > 0 && count >= 1
    ensures var flags := PassFlags(stream, searchType, term, KeepAsWritten(f, term));
            var p := Processed(flags, count, LimitFactor * count);
            p == (if |stream| < LimitFactor * count then |stream| else LimitFactor * count)
            && Kept(stream, searchType, term, count, KeepAsWritten(f, term)) == []
            && (|stream| <= RequestFactor * count ==> p == |stream|)
  {
    var flags := PassFlags(stream, searchType, term, KeepAsWritten(f, term));
    forall k | 0 <= k < |flags| ensures !flags[k] {
      MapSeqAt(PassesOf(searchType, term, KeepAsWritten(f, term)), stream, k);
      MinViewsRejectsEveryVideo(ExtractVideoData(stream[k], searchType, term), f, term);
    }
    NonePassProcessesToLimit(ExtractedAll(stream, searchType, term), flags, count, LimitFactor * count);
  }

  // ---------------------------------------------------------------- saving

  /** The hashtags of all videos, in order (`all_hashtags.extend(...)` per video). */
  function AllHashtags(videos: seq<Video>): (tags: seq<string>) {
    if videos == [] then [] else AllHashtags(videos[..|videos| - 1]) + videos[|videos| - 1].hashtags
  }

  function TotalDuration(videos: seq<Video>): int {
    if videos == [] then 0 else TotalDuration(videos[..|videos| - 1]) + videos[|videos| - 1].duration
  }

  function TotalViews(videos: seq<Video>): int {
    if videos == [] then 0 else TotalViews(videos[..|videos| - 1]) + videos[|videos| - 1].stats.views
  }

  function TotalLikes(videos: seq<Video>): int {
    if videos == [] then 0 else TotalLikes(videos[..|videos| - 1]) + videos[|videos| - 1].stats.likes
  }

  /** What `save_videos` writes: the file name, the statistics block and the videos. */
  datatype SavedFile = SavedFile(
    filename: string, totalVideos: nat, totalDuration: int, totalViews: int, totalLikes: int,
    topHashtags: seq<(string, nat)>, totalHashtagsFound: nat, videos: seq<Video>)

  /** The output file name `{dir}/{prefix}{type}_{term}_{timestamp}.json`. */
  function JsonName(outputDir: string, outputPrefix: string, searchType: string, term: string, timestamp: string): string {
    outputDir + "/" + outputPrefix + searchType + "_" + term + "_" + timestamp + ".json"
  }

  /** `save_videos`: nothing is written for no videos; otherwise the hashtags of all
    * videos are gathered and counted, the ten most frequent are kept (ties in order
    * of first appearance) and the number of distinct ones is recorded. */
  method SaveVideos(videos: seq<Video>, searchType: string, term: string, outputDir: string, outputPrefix: string,
                    timestamp: string)
    returns (saved: Option<SavedFile>)
    ensures saved.None? <==> videos == []
    ensures saved.Some? ==>
              var s := saved.value;
              s.filename == JsonName(outputDir, outputPrefix, searchType, term, timestamp)
              && s.totalVideos == |videos| && s.videos == videos
              && s.totalDuration == TotalDuration(videos) && s.totalViews == TotalViews(videos)
              && s.totalLikes == TotalLikes(videos)
              && s.topHashtags == Tally.Top(Tally.Tally(AllHashtags(videos)), 10)
              && s.totalHashtagsFound == |set h | h in AllHashtags(videos)|
  {
    if videos == [] {
      return None;
    }
    var allTags := [];
    var i := 0;
    while i < |videos|
      invariant 0 <= i <= |videos|
      invariant allTags == AllHashtags(videos[..i])
    {
      assert videos[..i + 1][..i] == videos[..i];
      allTags := allTags + videos[i].hashtags;
      i := i + 1;
    }
    assert videos[..i] == videos;
    var freq := Tally.CountOccurrences(allTags);
    var distinct := |set h | h in allTags|;
    saved := Some(SavedFile(JsonName(outputDir, outputPrefix, searchType, term, timestamp), |videos|,
                            TotalDuration(videos), TotalViews(videos), TotalLikes(videos),
                            Tally.Top(freq, 10), distinct, videos));
  }

  /** The statistics block is consistent: the frequencies count every gathered
    * hashtag once, there is one frequency per distinct hashtag, and at most ten,
    * the most frequent, are kept. */
  lemma SavedHashtagStatistics(videos: seq<Video>)
    ensures var tags := AllHashtags(videos);
            var freq := Tally.Tally(tags);
            var top := Tally.Top(freq, 10);
            Tally.Sum(freq) == |tags| && |freq| == |set h | h in tags| && |top| <= 10
            && forall x, y :: x in freq && x !in top && y in top ==> x.1 <= y.1
  {
    Tally.TallySum(AllHashtags(videos));
    Tally.TallySize(AllHashtags(videos));
    Tally.TopIsTop(Tally.Tally(AllHashtags(videos)), 10);
  }

  // ---------------------------------------------------------------- main

  datatype SearchTarget = SearchTarget(searchType: string, term: string)

  /** The search mode `main` settles on: hashtag, then user, then trending from the
    * arguments; without any, and without `--auto`, the interactive menu answer
    * `choice` and, for options 1 and 2, the name `entered` (stripped, then its
    * leading markers removed); None is the error exit. */
  function SelectSearch(hashtag: string, user: string, trending: bool, auto: bool, choice: string, entered: string)
    : (t: Option<SearchTarget>)
    ensures hashtag != "" ==> t == Some(SearchTarget("hashtag", hashtag))
    ensures hashtag == "" && user != "" ==> t == Some(SearchTarget("user", user))
    ensures hashtag == "" && user == "" && trending ==> t == Some(SearchTarget("trending", "trending"))
    ensures hashtag == "" && user == "" && !trending && auto ==> t.None?
    ensures t.Some? ==> t.value.term != []
                        && (t.value.searchType == "hashtag" || t.value.searchType == "user"
                            || t.value.searchType == "trending")
  {
    if hashtag != "" then Some(SearchTarget("hashtag", hashtag))
    else if user != "" then Some(SearchTarget("user", user))
    else if trending then Some(SearchTarget("trending", "trending"))
    else if auto then None
    else
      var c := Strip(choice);
      if c == "1" then
        var h := LStripChar(Strip(entered), '#');
        if h != "" then Some(SearchTarget("hashtag", h)) else None
      else if c == "2" then
        var u := LStripChar(Strip(entered), '@');
        if u != "" then Some(SearchTarget("user", u)) else None
      else if c == "3" then Some(SearchTarget("trending", "trending"))
      else None
  }

  /** The loop in `main` that records on every collected video whether the
    * description filter was on and with which minimum length; nothing else changes. */
  method MarkFilterMetadata(videos: array<Video>, noFilter: bool, minDescLength: int)
    modifies videos
    ensures forall k :: 0 <= k < videos.Length ==>
              videos[k] == old(videos[k]).(filterApplied := !noFilter, minDescLengthUsed := minDescLength)
  {
    var i := 0;
    while i < videos.Length
      invariant 0 <= i <= videos.Length
      invariant forall k :: 0 <= k < i ==>
                  videos[k] == old(videos[k]).(filterApplied := !noFilter, minDescLengthUsed := minDescLength)
      invariant forall k :: i <= k < videos.Length ==> videos[k] == old(videos[k])
    {
      videos[i] := videos[i].(filterApplied := !noFilter, minDescLengthUsed := minDescLength);
      i := i + 1;
    }
  }
}

=== FILE: twitter_scraper.dfy ===
/** The refactored Twitter scraper (src/scrapers/twitter_scraper.py): the credential
  * check, the search request, the partition of the returned tweets into kept records
  * and discarded ones, and the JSON Lines records `save_tweets` writes. The process
  * environment is a map, and the API response is given as data. */
module TwitterScraper {
  import opened Wrappers
  import opened Strings
  import opened TextUtils
  import opened Selection

  // ---------------------------------------------------------------- credentials

  /** The variables `check_credentials` requires, in the order it reports them. */
  const RequiredVars: seq<string> := [
    "TWITTER_CONSUMER_KEY", "TWITTER_CONSUMER_SECRET", "TWITTER_ACCESS_TOKEN",
    "TWITTER_ACCESS_TOKEN_SECRET", "TWITTER_BEARER_TOKEN"]

  /** `os.getenv(v)` is truthy. */
  predicate IsSet(env: map<string, string>, v: string) {
    v in env && env[v] != ""
  }

  /** The variables of `vars` that are unset or empty, in the order of `vars`. */
  function MissingVars(env: map<string, string>, vars: seq<string>): (missing: seq<string>)
    ensures |missing| <= |vars|
  {
    if vars == [] then []
    else
      var n := |vars| - 1;
      MissingVars(env, vars[..n]) + (if IsSet(env, vars[n]) then [] else [vars[n]])
  }

  /** A variable is reported exactly when it is required and not set. */
  lemma {:induction false} MissingVarsExact(env: map<string, string>, vars: seq<string>)
    ensures forall v :: v in MissingVars(env, vars) <==> v in vars && !IsSet(env, v)
  {
    if vars != [] {
      var n := |vars| - 1;
      MissingVarsExact(env, vars[..n]);
      assert vars == vars[..n] + [vars[n]];
    }
  }

  /** `check_credentials`: the missing variables in declared order, and whether none
    * is missing. */
  method CheckCredentials(env: map<string, string>) returns (ok: bool, missing: seq<string>)
    ensures missing == MissingVars(env, RequiredVars)
    ensures ok <==> forall v :: v in RequiredVars ==> IsSet(env, v)
  {
    missing := [];
    var i := 0;
    while i < |RequiredVars|
      invariant 0 <= i <= |RequiredVars|
      invariant missing == MissingVars(env, RequiredVars[..i])
    {
      assert RequiredVars[..i + 1][..i] == RequiredVars[..i];
      var v := RequiredVars[i];
      if !IsSet(env, v) {
        missing := missing + [v];
      }
      i := i + 1;
    }
    assert RequiredVars[..i] == RequiredVars;
    MissingVarsExact(env, RequiredVars);
    ok := missing == [];
    if !ok {
      assert missing[0] in missing;
    }
  }

  // ---------------------------------------------------------------- the request

  /** The search query: the hashtag, the language filter, and no retweets. */
  function BuildQuery(hashtag: string, lang: string): string {
    "#" + hashtag + " lang:" + lang + " -is:retweet"
  }

  /** For a hashtag and a language code without whitespace, the query is exactly the
    * three search operators. */
  lemma QueryTokens(hashtag: string, lang: string)
    requires !HasSpace(hashtag) && !HasSpace(lang)
    ensures Split(BuildQuery(hashtag, lang)) == ["#" + hashtag, "lang:" + lang, "-is:retweet"]
  {
    var a, b, c := "#" + hashtag, "lang:" + lang, "-is:retweet";
    NoSpaceConcat("#", hashtag);
    NoSpaceConcat("lang:", lang);
    assert !HasSpace(c);
    assert BuildQuery(hashtag, lang) == a + (" " + (b + (" " + c)));
    SplitThree(a, b, c);
  }

  /** Three space-free words joined by single spaces split back into the three. */
  lemma SplitThree(a: string, b: string, c: string)
    requires a != [] && b != [] && c != [] && !HasSpace(a) && !HasSpace(b) && !HasSpace(c)
    ensures Split(a + (" " + (b + (" " + c)))) == [a, b, c]
  {
    SplitOfWord(a, " " + (b + (" " + c)));
    SplitAfterSpace(b + (" " + c));
    SplitOfWord(b, " " + c);
    SplitAfterSpace(c);
    SplitOfWord(c, "");
    assert c + "" == c;
  }

  lemma SplitAfterSpace(x: string)
    ensures Split(" " + x) == Split(x)
  {
    assert (" " + x)[1..] == x;
  }

  lemma NoSpaceConcat(x: string, y: string)
    requires !HasSpace(x) && !HasSpace(y)
    ensures !HasSpace(x + y)
  {
    forall i | 0 <= i < |x + y| ensures !IsSpace((x + y)[i]) {
      if i < |x| { assert (x + y)[i] == x[i]; } else { assert (x + y)[i] == y[i - |x|]; }
    }
  }

  /** The parameters of the search call; the time window is sent only as a pair. */
  datatype SearchParams = SearchParams(query: string, maxResults: int, window: Option<(string, string)>)

  /** The search call's parameters (an empty time is one not given). */
  function BuildSearchParams(hashtag: string, maxResults: int, lang: string, startTime: string, endTime: string)
    : (p: SearchParams)
    ensures p.window.Some? <==> startTime != "" && endTime != ""
    ensures p.window.Some? ==> p.window.value == (startTime, endTime)
    ensures p.query == BuildQuery(hashtag, lang) && p.maxResults == maxResults
  {
    SearchParams(BuildQuery(hashtag, lang), maxResults,
                 if startTime != "" && endTime != "" then Some((startTime, endTime)) else None)
  }

  // ---------------------------------------------------------------- the response

  /** A tweet of the response. `raises` marks a tweet whose processing throws, which
    * the loop logs and skips. */
  datatype Tweet = Tweet(
    id: string, text: string, createdAt: Option<string>, authorId: string, lang: Option<string>, raises: bool)

  /** A user of the response's `includes`. */
  datatype User = User(id: string, username: string, name: string)

  datatype Author = Author(username: string, name: string)

  datatype Response = Response(data: seq<Tweet>, users: seq<User>)

  /** The users of the response by id; a later entry for the same id wins. */
  function UsersDict(users: seq<User>): map<string, Author> {
    if users == [] then map[]
    else
      var n := |users| - 1;
      UsersDict(users[..n])[users[n].id := Author(users[n].username, users[n].name)]
  }

  /** Every listed user is in the dictionary, under the last entry with its id. */
  lemma {:induction false} UsersDictLastWins(users: seq<User>)
    ensures forall k :: 0 <= k < |users| ==> users[k].id in UsersDict(users)
    ensures forall id :: id in UsersDict(users) ==>
              exists k :: 0 <= k < |users| && users[k].id == id
                          && UsersDict(users)[id] == Author(users[k].username, users[k].name)
                          && forall l :: k < l < |users| ==> users[l].id != id
  {
    if users != [] {
      var n := |users| - 1;
      var pre := users[..n];
      UsersDictLastWins(pre);
      forall id | id in UsersDict(users)
        ensures exists k :: 0 <= k < |users| && users[k].id == id
                            && UsersDict(users)[id] == Author(users[k].username, users[k].name)
                            && forall l :: k < l < |users| ==> users[l].id != id
      {
        if id == users[n].id {
          assert users[n].id == id;
        } else {
          assert id in UsersDict(pre);
          var k :| 0 <= k < |pre| && pre[k].id == id && UsersDict(pre)[id] == Author(pre[k].username, pre[k].name)
                   && forall l :: k < l < |pre| ==> pre[l].id != id;
          assert users[k] == pre[k];
          forall l | k < l < |users| ensures users[l].id != id {
            if l < n { assert users[l] == pre[l]; }
          }
        }
      }
      forall k | 0 <= k < |users| ensures users[k].id in UsersDict(users) {
        if k < n { assert users[k] == pre[k]; }
      }
    }
  }

  /** `users_dict` as the loop fills it. */
  method BuildUsersDict(users: seq<User>) returns (d: map<string, Author>)
    ensures d == UsersDict(users)
  {
    d := map[];
    var i := 0;
    while i < |users|
      invariant 0 <= i <= |users|
      invariant d == UsersDict(users[..i])
    {
      assert users[..i + 1][..i] == users[..i];
      d := d[users[i].id := Author(users[i].username, users[i].name)];
      i := i + 1;
    }
    assert users[..i] == users;
  }

  // ---------------------------------------------------------------- records

  /** The search settings `search_hashtag` receives; an empty time is one not given. */
  datatype SearchConfig = SearchConfig(
    hashtag: string, maxResults: int, lang: string, startTime: string, endTime: string,
    enableFilter: bool, minTextLength: int)

  /** The dictionary built for a kept tweet. */
  datatype TweetRecord = TweetRecord(
    id: string, text: string, cleanText: string, textLength: nat, originalLength: nat,
    createdAt: Option<string>, authorId: string, authorUsername: string, authorName: string,
    hashtag: string, lang: Option<string>, hasLinks: bool, meaningfulContent: bool,
    languageFilter: string, dateFilterApplied: bool, contentFilterApplied: bool, minTextLengthUsed: int)

  /** The record of a kept tweet: lengths of the cleaned and the original text, the
    * author from the users of the response or 'unknown', the link flag, and the
    * filters in force. */
  function BuildRecord(t: Tweet, users: map<string, Author>, c: SearchConfig): (r: TweetRecord)
    ensures r.cleanText == CleanTweetText(t.text) && r.textLength == |r.cleanText|
    ensures r.textLength <= r.originalLength && r.originalLength == |t.text|
    ensures r.hasLinks <==> Contains(t.text, TcoPrefix)
    ensures t.authorId in users ==> r.authorUsername == users[t.authorId].username
                                    && r.authorName == users[t.authorId].name
    ensures t.authorId !in users ==> r.authorUsername == "unknown" && r.authorName == "unknown"
    ensures r.meaningfulContent && r.hashtag == c.hashtag && r.languageFilter == c.lang
    ensures r.dateFilterApplied <==> c.startTime != ""
  {
    var clean := CleanTweetText(t.text);
    var author := if t.authorId in users then users[t.authorId] else Author("unknown", "unknown");
    TweetRecord(t.id, t.text, clean, |clean|, |t.text|, t.createdAt, t.authorId,
                author.username, author.name, c.hashtag, t.lang, Contains(t.text, TcoPrefix), true,
                c.lang, c.startTime != "", c.enableFilter, c.minTextLength)
  }

  /** Whether a tweet is kept: it does not throw, and the content filter is off or
    * finds its cleaned text meaningful. */
  predicate Kept(t: Tweet, c: SearchConfig) {
    !t.raises && (!c.enableFilter || IsMeaningfulText(CleanTweetText(t.text), c.hashtag, c.minTextLength))
  }

  /** What happens to one tweet of the loop. */
  datatype TweetOutcome<R> = KeptRecord(record: R) | DiscardedTweet | FailedTweet

  /** The fate of one tweet: it throws, or it is kept with its record, or it is
    * discarded. */
  function OutcomeOf(t: Tweet, users: map<string, Author>, c: SearchConfig): (o: TweetOutcome<TweetRecord>)
    ensures o.FailedTweet? <==> t.raises
    ensures o.KeptRecord? <==> Kept(t, c)
    ensures o.KeptRecord? ==> o.record == BuildRecord(t, users, c)
  {
    if t.raises then FailedTweet
    else if !c.enableFilter || IsMeaningfulText(CleanTweetText(t.text), c.hashtag, c.minTextLength)
    then KeptRecord(BuildRecord(t, users, c))
    else DiscardedTweet
  }

  function OutcomeFn(users: map<string, Author>, c: SearchConfig): Tweet -> TweetOutcome<TweetRecord> {
    t => OutcomeOf(t, users, c)
  }

  /** The fate of every tweet of the response. */
  function Outcomes(data: seq<Tweet>, users: map<string, Author>, c: SearchConfig): (os: seq<TweetOutcome<TweetRecord>>)
    ensures |os| == |data|
  {
    MapSeq(OutcomeFn(users, c), data)
  }

  /** The records of the kept tweets, in order. */
  function KeptRecords<R>(os: seq<TweetOutcome<R>>): seq<R> {
    if os == [] then []
    else
      var n := |os| - 1;
      KeptRecords(os[..n]) + (if os[n].KeptRecord? then [os[n].record] else [])
  }

  function CountDiscarded<R>(os: seq<TweetOutcome<R>>): nat {
    if os == [] then 0 else CountDiscarded(os[..|os| - 1]) + (if os[|os| - 1].DiscardedTweet? then 1 else 0)
  }

  function CountFailed<R>(os: seq<TweetOutcome<R>>): nat {
    if os == [] then 0 else CountFailed(os[..|os| - 1]) + (if os[|os| - 1].FailedTweet? then 1 else 0)
  }

  /** Every tweet is kept, discarded or failed, and only one of these. */
  lemma {:induction false} OutcomeTotals<R>(os: seq<TweetOutcome<R>>)
    ensures |KeptRecords(os)| + CountDiscarded(os) + CountFailed(os) == |os|
  {
    if os != [] {
      OutcomeTotals(os[..|os| - 1]);
    }
  }

  /** The loop of `search_hashtag` over the tweets of the response, each tweet's
    * try-block being `outcome`: a kept tweet's record is appended, a discarded one is
    * counted, one that throws is skipped. */
  method Partition<R>(data: seq<Tweet>, outcome: Tweet -> TweetOutcome<R>) returns (tweets: seq<R>, discarded: nat)
    ensures tweets == KeptRecords(MapSeq(outcome, data)) && discarded == CountDiscarded(MapSeq(outcome, data))
    ensures |tweets| + discarded == |data| - CountFailed(MapSeq(outcome, data))
  {
    ghost var os := MapSeq(outcome, data);
    tweets := [];
    discarded := 0;
    var i := 0;
    while i < |data|
      invariant 0 <= i <= |data|
      invariant tweets == KeptRecords(os[..i]) && discarded == CountDiscarded(os[..i])
    {
      assert os[..i + 1][..i] == os[..i];
      MapSeqAt(outcome, data, i);
      var o := outcome(data[i]);
      if o.KeptRecord? {
        tweets := tweets + [o.record];
      } else if o.DiscardedTweet? {
        discarded := discarded + 1;
      }
      i := i + 1;
    }
    assert os[..i] == os;
    OutcomeTotals(os);
  }

  /** `search_hashtag` after the API call: the users dictionary, then the records of
    * the kept tweets in response order and the number discarded by the content
    * filter; the tweets that throw are neither. */
  method SearchHashtag(response: Response, c: SearchConfig) returns (tweets: seq<TweetRecord>, discarded: nat)
    ensures var os := Outcomes(response.data, UsersDict(response.users), c);
            tweets == KeptRecords(os) && discarded == CountDiscarded(os)
            && |tweets| + discarded == |response.data| - CountFailed(os)
    ensures response.data == [] ==> tweets == [] && discarded == 0
  {
    var users := BuildUsersDict(response.users);
    tweets, discarded := Partition(response.data, OutcomeFn(users, c));
  }

  function KeptOf(c: SearchConfig): Tweet -> bool {
    t => Kept(t, c)
  }

  function RecordOf(users: map<string, Author>, c: SearchConfig): Tweet -> TweetRecord {
    t => BuildRecord(t, users, c)
  }

  function RaisesOf(): Tweet -> bool {
    (t: Tweet) => t.raises
  }

  /** The kept records are the records of the tweets that pass, selected in response
    * order. */
  lemma {:induction false} KeptRecordsAreSelected(data: seq<Tweet>, users: map<string, Author>, c: SearchConfig)
    ensures KeptRecords(Outcomes(data, users, c)) == Selected(MapSeq(RecordOf(users, c), data), MapSeq(KeptOf(c), data))
    decreases |data|
  {
    if data != [] {
      var n := |data| - 1;
      KeptRecordsAreSelected(data[..n], users, c);
      var os := Outcomes(data, users, c);
      assert os[..n] == Outcomes(data[..n], users, c);
      assert os[n] == OutcomeOf(data[n], users, c);
    }
  }

  /** The tweets that fail are exactly those whose processing throws. */
  lemma {:induction false} FailedAreRaising(data: seq<Tweet>, users: map<string, Author>, c: SearchConfig)
    ensures CountFailed(Outcomes(data, users, c)) == Trues(MapSeq(RaisesOf(), data))
    decreases |data|
  {
    if data != [] {
      var n := |data| - 1;
      FailedAreRaising(data[..n], users, c);
      var os := Outcomes(data, users, c);
      assert os[..n] == Outcomes(data[..n], users, c);
      assert os[n] == OutcomeOf(data[n], users, c);
    }
  }

  /** With the content filter off and no tweet failing, every tweet is kept. */
  lemma UnfilteredKeepsEvery(data: seq<Tweet>, users: map<string, Author>, c: SearchConfig)
    requires !c.enableFilter && forall k :: 0 <= k < |data| ==> !data[k].raises
    ensures KeptRecords(Outcomes(data, users, c)) == MapSeq(RecordOf(users, c), data)
  {
    var keep := MapSeq(KeptOf(c), data);
    forall k | 0 <= k < |keep| ensures keep[k] {
      MapSeqAt(KeptOf(c), data, k);
    }
    KeptRecordsAreSelected(data, users, c);
    SelectedAll(MapSeq(RecordOf(users, c), data), keep);
  }

  /** Each kept record is the record of a kept tweet, and they follow response order. */
  lemma KeptRecordsComeFromKeptTweets(data: seq<Tweet>, users: map<string, Author>, c: SearchConfig)
    ensures var tweets := KeptRecords(Outcomes(data, users, c));
            var idx := Indices(MapSeq(KeptOf(c), data));
            |tweets| == |idx|
            && (forall k :: 0 <= k < |tweets| ==>
                  idx[k] < |data| && Kept(data[idx[k]], c) && tweets[k] == BuildRecord(data[idx[k]], users, c))
            && forall k, l :: 0 <= k < l < |idx| ==> idx[k] < idx[l]
  {
    var keep := MapSeq(KeptOf(c), data);
    var all := MapSeq(RecordOf(users, c), data);
    KeptRecordsAreSelected(data, users, c);
    SelectedAtIndices(all, keep);
    IndicesExact(keep);
    var idx := Indices(keep);
    forall k | 0 <= k < |idx|
      ensures Kept(data[idx[k]], c) && all[idx[k]] == BuildRecord(data[idx[k]], users, c)
    {
      IndexPasses(keep, k);
      KeptAt(data, users, c, idx[k]);
    }
  }

  lemma KeptAt(data: seq<Tweet>, users: map<string, Author>, c: SearchConfig, j: nat)
    requires j < |data| && MapSeq(KeptOf(c), data)[j]
    ensures Kept(data[j], c) && MapSeq(RecordOf(users, c), data)[j] == BuildRecord(data[j], users, c)
  {
    MapSeqAt(KeptOf(c), data, j);
    MapSeqAt(RecordOf(users, c), data, j);
  }

  // ---------------------------------------------------------------- JSON Lines

  /** A JSON value as `json.dumps` writes it. */
  datatype Json = JStr(s: string) | JInt(i: int) | JBool(b: bool) | JNull

  function OptionalText(o: Option<string>): Json {
    match o
    case Some(s) => JStr(s)
    case None => JNull
  }

  /** The dictionary of a record, under the keys the source uses. */
  function RecordFields(r: TweetRecord): (m: map<string, Json>)
    ensures "text_length" in m && m["text_length"] == JInt(r.textLength)
    ensures "collection_time" !in m && "search_term" !in m && "platform" !in m
  {
    map[
      "id" := JStr(r.id), "text" := JStr(r.text), "clean_text" := JStr(r.cleanText),
      "text_length" := JInt(r.textLength), "original_length" := JInt(r.originalLength),
      "created_at" := OptionalText(r.createdAt), "author_id" := JStr(r.authorId),
      "author_username" := JStr(r.authorUsername), "author_name" := JStr(r.authorName),
      "hashtag" := JStr(r.hashtag), "lang" := OptionalText(r.lang), "has_links" := JBool(r.hasLinks),
      "meaningful_content" := JBool(r.meaningfulContent), "language_filter" := JStr(r.languageFilter),
      "date_filter_applied" := JBool(r.dateFilterApplied),
      "content_filter_applied" := JBool(r.contentFilterApplied),
      "min_text_length_used" := JInt(r.minTextLengthUsed)]
  }

  /** The collection fields added to every line. */
  function CollectionFields(collectionTime: string, hashtag: string): map<string, Json> {
    map["collection_time" := JStr(collectionTime), "search_term" := JStr(hashtag), "platform" := JStr("twitter")]
  }

  /** `tweet.copy()` updated with the collection fields: those three keys take the
    * collection values, every other key of the tweet keeps its value, and no other
    * key appears. */
  function WithMetadata(tweet: map<string, Json>, collectionTime: string, hashtag: string): (m: map<string, Json>)
    ensures m.Keys == tweet.Keys + {"collection_time", "search_term", "platform"}
    ensures m["collection_time"] == JStr(collectionTime) && m["search_term"] == JStr(hashtag)
            && m["platform"] == JStr("twitter")
    ensures forall k :: k in tweet && k !in {"collection_time", "search_term", "platform"} ==> m[k] == tweet[k]
  {
    tweet + CollectionFields(collectionTime, hashtag)
  }

  /** A search record keeps every one of its own fields in the line written for it. */
  lemma RecordLineKeepsFields(r: TweetRecord, collectionTime: string, hashtag: string)
    ensures var line := WithMetadata(RecordFields(r), collectionTime, hashtag);
            forall k :: k in RecordFields(r) ==> k in line && line[k] == RecordFields(r)[k]
  {
  }

  /** The file `save_tweets` writes: its name and its lines, one per tweet. */
  datatype SavedLines = SavedLines(filename: string, lines: seq<map<string, Json>>)

  /** The file name: output directory, prefix, hashtag and the formatted time. */
  function JsonlName(outputDir: string, outputPrefix: string, hashtag: string, timestamp: string): string {
    outputDir + "/" + outputPrefix + hashtag + "_" + timestamp + ".jsonl"
  }

  /** `save_tweets`: nothing for an empty list; otherwise one line per tweet, in
    * order, each the tweet merged with the collection fields. `timestamp` and
    * `collectionTime` are the two readings of the clock. */
  method SaveTweets(tweets: seq<map<string, Json>>, hashtag: string, outputDir: string, outputPrefix: string,
                    timestamp: string, collectionTime: string)
    returns (saved: Option<SavedLines>)
    ensures tweets == [] <==> saved.None?
    ensures saved.Some? ==> saved.value.filename == JsonlName(outputDir, outputPrefix, hashtag, timestamp)
                            && |saved.value.lines| == |tweets|
                            && forall k :: 0 <= k < |tweets| ==>
                                 saved.value.lines[k] == WithMetadata(tweets[k], collectionTime, hashtag)
  {
    if tweets == [] {
      return None;
    }
    var filename := JsonlName(outputDir, outputPrefix, hashtag, timestamp);
    var lines: seq<map<string, Json>> := [];
    var i := 0;
    while i < |tweets|
      invariant 0 <= i <= |tweets| && |lines| == i
      invariant forall k :: 0 <= k < i ==> lines[k] == WithMetadata(tweets[k], collectionTime, hashtag)
    {
      var line := WithMetadata(tweets[i], collectionTime, hashtag);
      lines := lines + [line];
      i := i + 1;
    }
    saved := Some(SavedLines(filename, lines));
  }
}

=== FILE: twitter_v1.dfy ===
/** The first Twitter scraper (the root twitter_scraper.py): argument validation,
  * its own content test, the search loop, the JSON file with statistics, and the
  * date and hashtag handling of `main`. Its `clean_tweet_text`, `validate_dates`,
  * `process_last_days_filter`, `check_credentials`, query and request parameters are
  * those of the shared modules and the refactored scraper, which model them. */
module TwitterScraperV1 {
  import opened Wrappers
  import opened Strings
  import opened Args
  import opened CliUtils
  import opened DateUtils
  import opened Selection
  import Tally
  import TextUtils
  import TwitterScraper

  // ---------------------------------------------------------------- arguments

  /** The checks `parse_arguments` makes after cleaning the hashtag, in order. */
  function LaterError(count: int, lastDays: int, startDate: DateText, endDate: DateText): (e: Option<CliError>)
    ensures e.None? <==> 10 <= count <= 500
                         && (lastDays == 0 || (startDate == NoDate && endDate == NoDate && 1 <= lastDays <= 7))
    ensures e == Some(CliError.LastDaysWithDates) ==> lastDays != 0 && (startDate != NoDate || endDate != NoDate)
  {
    if ValidateCountArgument(count, 10, 500).Fail? then Some(CountOutOfRange(10, 500))
    else if lastDays != 0 && (startDate != NoDate || endDate != NoDate) then Some(CliError.LastDaysWithDates)
    else if lastDays != 0 && (lastDays < 1 || lastDays > 7) then Some(CliError.LastDaysOutOfRange)
    else None
  }

  /** The validation half of `parse_arguments`: `--quiet` with `--verbose` is refused
    * before anything changes; otherwise the log level is set, `--auto` needs a
    * hashtag, the hashtag is cleaned in place (one that cleans to nothing is left
    * empty and refused), then the count, the `--last-days` rules and the output
    * directory are checked. */
  method ParseArguments(args: Namespace, dirCreatable: bool) returns (r: Outcome)
    modifies args`logLevel, args`hashtag
    ensures old(args.quiet) && old(args.verbose) ==> r == Fail(QuietAndVerbose) && unchanged(args)
    ensures !(old(args.quiet) && old(args.verbose)) ==>
              args.logLevel == ResolveLogLevel(old(args.quiet), old(args.verbose), old(args.logLevel)).value
              && var h := CleanHashtagInput(old(args.hashtag));
                 var e := LaterError(old(args.count), old(args.lastDays), old(args.startDate), old(args.endDate));
                 if old(args.auto) && old(args.hashtag) == "" then
                   r == Fail(AutoNeedsHashtag) && args.hashtag == old(args.hashtag)
                 else if h.Err? then r == Fail(EmptyHashtag) && args.hashtag == ""
                 else if e.Some? then r == Fail(e.value) && args.hashtag == h.value
                 else args.hashtag == h.value && (r == Pass <==> dirCreatable)
                      && (r.Fail? ==> r.error == CannotCreateOutputDir)
  {
    var lv := ResolveLogLevel(args.quiet, args.verbose, args.logLevel);
    if lv.Err? {
      return Fail(QuietAndVerbose);
    }
    args.logLevel := lv.value;
    if args.auto && args.hashtag == "" {
      return Fail(AutoNeedsHashtag);
    }
    var h := CleanHashtagInput(args.hashtag);
    if h.Err? {
      args.hashtag := "";
      return Fail(EmptyHashtag);
    }
    args.hashtag := h.value;
    var e := LaterError(args.count, args.lastDays, args.startDate, args.endDate);
    if e.Some? {
      return Fail(e.value);
    }
    if !dirCreatable {
      return Fail(CannotCreateOutputDir);
    }
    return Pass;
  }

  // ---------------------------------------------------------------- content test

  /** The text this version measures: `#hashtag` and its lower-case form removed;
    * the bare word stays. */
  function HashtagRemainder(text: string, hashtag: string): (r: string)
    ensures |r| <= |text|
    ensures forall c :: c in r ==> c in text
  {
    TextUtils.Delete(TextUtils.Delete(text, "#" + hashtag), "#" + Lower(hashtag))
  }

  /** `is_meaningful_text` of this version: what remains once the hashtag is taken out
    * and the ends stripped must be `minLength` long and hold a word character. */
  function IsMeaningfulText(cleanText: string, hashtag: string, minLength: int): (ok: bool)
    ensures ok ==> cleanText != [] && |cleanText| >= minLength && HasWordChar(cleanText)
  {
    var rest := Strip(HashtagRemainder(cleanText, hashtag));
    if |rest| < minLength then false
    else if !HasWordChar(rest) then false
    else
      WordCharOfHashtagRemainder(cleanText, hashtag);
      true
  }

  lemma WordCharOfHashtagRemainder(text: string, hashtag: string)
    requires HasWordChar(Strip(HashtagRemainder(text, hashtag)))
    ensures HasWordChar(text) && |Strip(HashtagRemainder(text, hashtag))| <= |text|
  {
    var r := HashtagRemainder(text, hashtag);
    StripIsSlice(r);
    var i :| 0 <= i < |Strip(r)| && IsWordChar(Strip(r)[i]);
    var a := StripStart(r);
    assert r[a + i] in r;
    var j :| 0 <= j < |text| && text[j] == r[a + i];
  }

  /** When the text holds neither the hashtag nor its lower-case form, this test and
    * the shared `is_meaningful_text` agree. */
  lemma AgreesWithoutTerm(text: string, hashtag: string, minLength: int)
    requires hashtag != [] && !Contains(text, hashtag) && !Contains(text, Lower(hashtag))
    ensures IsMeaningfulText(text, hashtag, minLength) == TextUtils.IsMeaningfulText(text, hashtag, minLength)
  {
    ReplaceAbsent(text, hashtag, "");
    ReplaceAbsent(text, Lower(hashtag), "");
    if Contains(text, "#" + hashtag) {
      ContainsTail(text, "#", hashtag);
    }
    if Contains(text, "#" + Lower(hashtag)) {
      ContainsTail(text, "#", Lower(hashtag));
    }
    ReplaceAbsent(text, "#" + hashtag, "");
    ReplaceAbsent(text, "#" + Lower(hashtag), "");
    assert HashtagRemainder(text, hashtag) == text;
    assert TextUtils.SearchRemainder(text, hashtag, TextUtils.Twitter) == text;
  }

  /** The bare hashtag word counts as content here but not in the shared test. */
  lemma BareWordCountsHere()
    ensures IsMeaningfulText("ai", "ai", 2)
    ensures !TextUtils.IsMeaningfulText("ai", "ai", 2)
  {
    assert !Contains("ai", "#ai") by {
      assert !("#ai" <= "ai");
      assert !Contains("i", "#ai") by { assert !Contains("", "#ai"); }
    }
    ReplaceAbsent("ai", "#ai", "");
    assert Lower("ai") == "ai" by {
      assert LowerChar('a') == 'a' && LowerChar('i') == 'i';
    }
    assert HashtagRemainder("ai", "ai") == "ai";
    assert Strip("ai") == "ai" by {
      assert LStrip("ai") == "ai";
      assert RStrip("ai") == "ai";
    }
    assert IsWordChar("ai"[0]);
    assert TextUtils.Delete("ai", "ai") == "" by {
      assert "ai" <= "ai";
      assert ReplaceAll("ai"[2..], "ai", "") == "";
    }
    assert TextUtils.SearchRemainder("ai", "ai", TextUtils.Twitter) == "";
  }

  // ---------------------------------------------------------------- search

  /** Whether a tweet is kept by this version: it does not throw, and the content
    * filter is off or finds its cleaned text meaningful by this version's test. */
  predicate Kept(t: TwitterScraper.Tweet, c: TwitterScraper.SearchConfig) {
    !t.raises && (!c.enableFilter || IsMeaningfulText(TextUtils.CleanTweetText(t.text), c.hashtag, c.minTextLength))
  }

  /** The fate of one tweet; the record is the one the refactored scraper builds. */
  function OutcomeOf(t: TwitterScraper.Tweet, users: map<string, TwitterScraper.Author>, c: TwitterScraper.SearchConfig)
    : (o: TwitterScraper.TweetOutcome<TwitterScraper.TweetRecord>)
    ensures o.FailedTweet? <==> t.raises
    ensures o.KeptRecord? <==> Kept(t, c)
    ensures o.KeptRecord? ==> o.record == TwitterScraper.BuildRecord(t, users, c)
  {
    if t.raises then TwitterScraper.FailedTweet
    else if !c.enableFilter || IsMeaningfulText(TextUtils.CleanTweetText(t.text), c.hashtag, c.minTextLength)
    then TwitterScraper.KeptRecord(TwitterScraper.BuildRecord(t, users, c))
    else TwitterScraper.DiscardedTweet
  }

  function OutcomeFn(users: map<string, TwitterScraper.Author>, c: TwitterScraper.SearchConfig)
    : TwitterScraper.Tweet -> TwitterScraper.TweetOutcome<TwitterScraper.TweetRecord>
  {
    t => OutcomeOf(t, users, c)
  }

  function Outcomes(data: seq<TwitterScraper.Tweet>, users: map<string, TwitterScraper.Author>,
                    c: TwitterScraper.SearchConfig): (os: seq<TwitterScraper.TweetOutcome<TwitterScraper.TweetRecord>>)
    ensures |os| == |data|
  {
    MapSeq(OutcomeFn(users, c), data)
  }

  /** `search_hashtag` after the API call, with this version's content test. */
  method SearchHashtag(response: TwitterScraper.Response, c: TwitterScraper.SearchConfig)
    returns (tweets: seq<TwitterScraper.TweetRecord>, discarded: nat)
    ensures var os := Outcomes(response.data, TwitterScraper.UsersDict(response.users), c);
            tweets == TwitterScraper.KeptRecords(os) && discarded == TwitterScraper.CountDiscarded(os)
            && |tweets| + discarded == |response.data| - TwitterScraper.CountFailed(os)
  {
    var users := TwitterScraper.BuildUsersDict(response.users);
    tweets, discarded := TwitterScraper.Partition(response.data, OutcomeFn(users, c));
  }

  /** With the content filter off, this version keeps and counts exactly what the
    * refactored scraper does. */
  lemma UnfilteredAgreesWithRefactored(data: seq<TwitterScraper.Tweet>, users: map<string, TwitterScraper.Author>,
                                       c: TwitterScraper.SearchConfig)
    requires !c.enableFilter
    ensures Outcomes(data, users, c) == TwitterScraper.Outcomes(data, users, c)
  {
    MapSeqCongruent(OutcomeFn(users, c), TwitterScraper.OutcomeFn(users, c), data);
  }

  // ---------------------------------------------------------------- saving

  function OriginalLengthOf(): TwitterScraper.TweetRecord -> nat {
    (t: TwitterScraper.TweetRecord) => t.originalLength
  }

  function CleanLengthOf(): TwitterScraper.TweetRecord -> nat {
    (t: TwitterScraper.TweetRecord) => t.textLength
  }

  function HasLinksOf(): TwitterScraper.TweetRecord -> bool {
    (t: TwitterScraper.TweetRecord) => t.hasLinks
  }

  function LangOf(): TwitterScraper.TweetRecord -> Option<string> {
    (t: TwitterScraper.TweetRecord) => t.lang
  }

  /** The metadata and statistics `save_tweets` writes beside the tweets. */
  datatype SavedSummary = SavedSummary(
    filename: string, totalTweets: nat, languageFilter: string, dateFilterApplied: bool,
    contentFilterApplied: bool, minTextLength: int,
    totalOriginalChars: nat, totalCleanChars: nat, tweetsWithLinks: nat, tweetsTextOnly: int,
    languages: seq<(Option<string>, nat)>, tweets: seq<TwitterScraper.TweetRecord>)

  /** The output file name `{dir}/{prefix}{hashtag}_{timestamp}.json`. */
  function JsonName(outputDir: string, outputPrefix: string, hashtag: string, timestamp: string): string {
    outputDir + "/" + outputPrefix + hashtag + "_" + timestamp + ".json"
  }

  /** `save_tweets`: nothing for no tweets; otherwise the filters are read off the
    * first tweet, the tweets with and without links add up to all of them, and the
    * language counts add up to the number of tweets. */
  method SaveTweets(tweets: seq<TwitterScraper.TweetRecord>, hashtag: string, outputDir: string, outputPrefix: string,
                    timestamp: string)
    returns (saved: Option<SavedSummary>)
    ensures saved.None? <==> tweets == []
    ensures saved.Some? ==>
              var s := saved.value;
              s.filename == JsonName(outputDir, outputPrefix, hashtag, timestamp)
              && s.totalTweets == |tweets| && s.tweets == tweets
              && s.languageFilter == tweets[0].languageFilter && s.dateFilterApplied == tweets[0].dateFilterApplied
              && s.contentFilterApplied == tweets[0].contentFilterApplied
              && s.minTextLength == tweets[0].minTextLengthUsed
              && s.totalOriginalChars == SumNats(MapSeq(OriginalLengthOf(), tweets))
              && s.totalCleanChars == SumNats(MapSeq(CleanLengthOf(), tweets))
              && s.tweetsWithLinks == Trues(MapSeq(HasLinksOf(), tweets))
              && s.tweetsWithLinks + s.tweetsTextOnly == |tweets| && s.tweetsTextOnly >= 0
              && s.languages == Tally.Tally(MapSeq(LangOf(), tweets)) && Tally.Sum(s.languages) == |tweets|
  {
    if tweets == [] {
      return None;
    }
    var withLinks := Trues(MapSeq(HasLinksOf(), tweets));
    var languages := Tally.CountOccurrences(MapSeq(LangOf(), tweets));
    Tally.TallySum(MapSeq(LangOf(), tweets));
    saved := Some(SavedSummary(JsonName(outputDir, outputPrefix, hashtag, timestamp), |tweets|,
                               tweets[0].languageFilter, tweets[0].dateFilterApplied,
                               tweets[0].contentFilterApplied, tweets[0].minTextLengthUsed,
                               SumNats(MapSeq(OriginalLengthOf(), tweets)), SumNats(MapSeq(CleanLengthOf(), tweets)),
                               withLinks, |tweets| - withLinks, languages, tweets));
  }

  /** Records as the search builds them are never longer cleaned than original, so
    * neither is the total. */
  lemma CleanCharsWithinOriginal(tweets: seq<TwitterScraper.TweetRecord>)
    requires forall k :: 0 <= k < |tweets| ==> tweets[k].textLength <= tweets[k].originalLength
    ensures SumNats(MapSeq(CleanLengthOf(), tweets)) <= SumNats(MapSeq(OriginalLengthOf(), tweets))
  {
    forall k | 0 <= k < |tweets|
      ensures MapSeq(CleanLengthOf(), tweets)[k] <= MapSeq(OriginalLengthOf(), tweets)[k]
    {
      MapSeqAt(CleanLengthOf(), tweets, k);
      MapSeqAt(OriginalLengthOf(), tweets, k);
    }
    SumNatsMonotone(MapSeq(CleanLengthOf(), tweets), MapSeq(OriginalLengthOf(), tweets));
  }

  // ---------------------------------------------------------------- main

  /** The date filter `main` sets up once the arguments passed validation: the last
    * days when given; two dates validated together; a start date alone validated
    * against today's date at midnight; nothing otherwise. An invalid window ends the
    * run. */
  function DateWindow(lastDays: int, startDate: DateText, endDate: DateText, now: Clock)
    : (r: Result<Option<Window>, DateError>)
    ensures lastDays != 0 ==> r == Ok(Some(ProcessLastDaysFilter(lastDays, now)))
    ensures lastDays == 0 && startDate == NoDate ==> r == Ok(None)
    ensures lastDays == 0 && r.Ok? && r.value.Some? ==> r.value.value.start.Iso? && r.value.value.end.Iso?
                                                        && r.value.value.start.day <= r.value.value.end.day
  {
    if lastDays != 0 then Ok(Some(ProcessLastDaysFilter(lastDays, now)))
    else if startDate != NoDate && endDate != NoDate then
      match ValidateDates(startDate, endDate, now)
      case None => Err(InvalidDates)
      case Some(w) => Ok(Some(w))
    else if startDate != NoDate then
      match ValidateDates(startDate, Day(now.today), now)
      case None => Err(InvalidDates)
      case Some(w) => Ok(Some(w))
    else Ok(None)
  }

  /** Once the arguments passed validation and an end date is given whenever a start
    * date is, the window is the one the shared `validate_date_arguments` computes. */
  lemma DateWindowAgreesWithShared(lastDays: int, startDate: DateText, endDate: DateText, now: Clock)
    requires lastDays != 0 ==> 1 <= lastDays <= 7 && startDate == NoDate && endDate == NoDate
    requires lastDays == 0 && startDate != NoDate ==> endDate != NoDate
    ensures DateWindow(lastDays, startDate, endDate, now) == ValidateDateArguments(lastDays, startDate, endDate, now)
  {
  }

  /** A start date alone is compared with today at midnight, so it is accepted
    * exactly when it lies before today, and the window then ends today. */
  lemma StartDateAlone(s: int, now: Clock)
    ensures DateWindow(0, Day(s), NoDate, now).Ok? <==> s < now.today
    ensures s < now.today ==> DateWindow(0, Day(s), NoDate, now)
                              == Ok(Some(Window(Iso(s, StartOfDay, true), Iso(now.today, EndOfDay, true))))
  {
    ValidateTwoDates(s, now.today, now);
  }

  /** The hashtag `main` searches, as written: the argument, or when there is none
    * and `--auto` is off the entered text stripped; the emptiness test comes before
    * the leading `#` are removed. None is the error exit. */
  function ResolveHashtagAsWritten(argHashtag: string, auto: bool, entered: string): (h: Option<string>)
    ensures h.None? <==> argHashtag == "" && (auto || Strip(entered) == "")
    ensures h.Some? ==> h.value == LStripChar(if argHashtag != "" then argHashtag else Strip(entered), '#')
  {
    var given := if argHashtag == "" && !auto then Strip(entered) else argHashtag;
    if given == "" then None else Some(LStripChar(given, '#'))
  }

  /** Entering `#` alone passes the test and searches for the empty hashtag. */
  lemma HashAloneAccepted()
    ensures ResolveHashtagAsWritten("", false, "#") == Some("")
  {
    assert Strip("#") == "#" by {
      assert LStrip("#") == "#";
      assert RStrip("#") == "#";
    }
    assert LStripChar("#", '#') == LStripChar("", '#');
  }

  /** The hashtag `main` evidently means to search: the test applied after the
    * leading `#` are removed, so the search term is never empty. */
  function ResolveHashtag(argHashtag: string, auto: bool, entered: string): (h: Option<string>)
    ensures h.Some? ==> h.value != "" && h.value[0] != '#'
    ensures h.Some? ==> h == ResolveHashtagAsWritten(argHashtag, auto, entered)
    ensures h.None? && ResolveHashtagAsWritten(argHashtag, auto, entered).Some? ==>
              ResolveHashtagAsWritten(argHashtag, auto, entered) == Some("")
  {
    var given := if argHashtag == "" && !auto then Strip(entered) else argHashtag;
    var h := LStripChar(given, '#');
    if h == "" then None else Some(h)
  }
}

=== FILE: wrappers.dfy ===
/** Optional values and fallible results, used wherever a source function returns
  * None or reports an error through the argument parser. */
module Wrappers {
  datatype Option<T> = None | Some(value: T)

  datatype Result<T, E> = Ok(value: T) | Err(error: E)
}
